=== FILE: README.md ===
# I2 Localization: Google translation batches and term data, in Dafny

This project models the part of the I2 Localization plugin for Unity that
prepares text for machine translation through the Google web service and puts
the answers back together. It also models the per-term translation storage
that the plugin keeps.

- **Tag protection** (`Placeholders`, `TagScanner`). ParseNonTranslatableElements
  scans a text for `{[param]}`, `[tag]` and `<tag>` tokens. It pairs openers
  with closers (FindClosingTag), keeps whole `[i2nt]…[/i2nt]` spans and
  parameters, and replaces each protected piece by one character from the
  Miscellaneous Symbols block (`0x2600 + j`). ParseTranslationResult restores
  the pieces into every answer.
- **The batch** (`Queries`, `QueryBuilder`). TranslationQuery records live in
  a dictionary keyed by the original text. AddQuery creates a record or adds
  a target language to it. CreateQueries splits a plural text (`[i2p_…]`
  markers) into one query per plural category that the target language has.
  It puts that category's test number in place of the `{[…]}` parameter.
- **The wire** (`TranslationPost`). The POST request list has the form
  `src:t1,t2=text<I2Loc>…`. Text already in title case is sent lower-cased.
  The reply is split on `<I2Loc>` and `<i2>` into each query's Results.
  HTML error pages become messages.
- **Reading results back** (`Lookup`). GetQueryResult and GetTranslation read
  a query's results. RebuildTranslation reassembles a plural text from the
  per-category answers as `plural[i2p_cat]text…`.
- **Terms** (`Terms`). A TermData holds one normal and one touch-device
  translation per language, plus flag bytes. GetTranslation, SetTranslation,
  IsAutoTranslated, HasTouchTranslations and Validate are modelled, together
  with the enabled/loaded/keep-loaded bits of LanguageData.

Strings are `seq<char>`. A C# `null` in a field or a lookup result is `None`; string arguments are never null in the model. A .NET exception that the code
can raise on some input is a `Failure` naming the exception:

- an index past an array or string end is `IndexOutOfRange`;
- a negative Substring length is `ArgumentOutOfRange`;
- `Replace` with an empty search string is `Argument`;
- a call on a null string is `NullReference`;
- a Dictionary indexed with a null key is `ArgumentNull`.

The dictionary is a sequence of entries in insertion order. This is the order
in which a .NET `Dictionary` without removals enumerates its entries, and the
order in which the request list and the reply walk the batch.

In these places the code does not do what its comments and names suggest. The model follows the code:

- A plural text that starts with an `[i2p_…]` marker makes CreateQueries and
  RebuildTranslation throw ArgumentOutOfRange. The second `IndexOf("[i2p_")`
  finds the same marker again, so the Substring length is negative.
- A reply with fewer `<I2Loc>` segments than queries throws IndexOutOfRange
  part-way through. Surplus segments are ignored. No "segment count mismatch"
  error is reported.
- A closing tag closes an opener whose name merely *starts with* the closer's
  name (`tag.StartsWith(newTag.Substring(1))`). The search for it starts at
  the opener itself, so a `[/]` match closes itself. A match that starts with
  `/` can itself be an opener.
- A plural template without a `{[…]}` parameter makes RebuildTranslation throw
  Argument, because `Replace("", …)` throws.
- The working text can carry tags whose placeholder no longer occurs in it,
  because an earlier Replace already consumed every occurrence of the tag.
- An all-upper-case text does not get all-upper-case results. The reply
  handler only re-applies TitleCase, and only when the key is in title case.
  Under the NETFX_CORE TitleCase (the modelled branch), an all-upper-case key
  with a word of two or more letters is not in title case, so its results are
  kept as the service returned them. A key such as "A B", whose words are
  single letters, is in title case, so its results are title-cased
  (UpperKeysAndTitleCase).

## Model

Source paths are relative to the repository root.

| member | source | states |
|---|---|---|
| Text.IndexOf | Assets/Plugins/Externals/I2/Localization/Scripts/Google/GoogleTranslation.cs:112 | The ordinal first occurrence of the pattern, or -1 exactly when the pattern occurs nowhere |
| Text.Split | Assets/Plugins/Externals/I2/Localization/Scripts/Google/GoogleTranslation_Post.cs:160 | Split with StringSplitOptions.None yields one more part than there are separator occurrences, and joining the parts gives the string back |
| Text.SplitJoin | Assets/Plugins/Externals/I2/Localization/Scripts/Google/GoogleTranslation_Post.cs:160 | Splitting a join on a separator that no part contains gives back the parts |
| Text.ReplaceIsJoinOfSplit | Assets/Plugins/Externals/I2/Localization/Scripts/Google/GoogleTranslation.cs:201 | string.Replace rewrites exactly the occurrences that Split cuts at: the result is the parts joined with the replacement |
| Text.ReplaceLength | Assets/Plugins/Externals/I2/Localization/Scripts/Google/GoogleTranslation.cs:201 | The length of Replace's result grows by the length difference once per non-overlapping occurrence |
| Text.LowerString | Assets/Plugins/Externals/I2/Localization/Scripts/Google/GoogleTranslation_Post.cs:76 | ToLowerInvariant keeps the length and lowers each character |
| Sequences.IndexOfElem | Assets/Plugins/Externals/I2/Localization/Scripts/Google/GoogleTranslation.cs:241 | Array.IndexOf gives the first index holding the element, and -1 exactly when it is absent |
| Sequences.IndexOfElemFirst | Assets/Plugins/Externals/I2/Localization/Scripts/Google/GoogleTranslation.cs:311 | Any index holding the element with no earlier copy is the index Array.IndexOf returns |
| Sequences.Distinct | Assets/Plugins/Externals/I2/Localization/Scripts/Google/GoogleTranslation.cs:153 | Distinct keeps exactly the elements of its input, without duplicates |
| Sequences.DistinctOfNoDup | Assets/Plugins/Externals/I2/Localization/Scripts/Google/GoogleTranslation.cs:153 | Distinct leaves a duplicate-free array unchanged, order included |
| Sequences.FilterOrdered | Assets/Plugins/Externals/I2/Localization/Scripts/Google/GoogleTranslation.cs:126-127 | Keeping the categories that pass a test, from a list without duplicates, keeps their order and repeats none |
| TagScanner.LazyEnd | Assets/Plugins/Externals/I2/Localization/Scripts/Google/GoogleTranslation.cs:184 | The lazy `(.*?)` capture ends at the first closer, with no newline before it; if there is none, no closer is reachable without a newline |
| TagScanner.MatchAt | Assets/Plugins/Externals/I2/Localization/Scripts/Google/GoogleTranslation.cs:184 | The alternation at one position: `{[…]}` is tried before `[…]`, which is tried before `<…>`; a match found is a match of its alternative, and no match means no alternative matches |
| TagScanner.AltEndUnique | Assets/Plugins/Externals/I2/Localization/Scripts/Google/GoogleTranslation.cs:184 | A lazy capture can end at one place only |
| TagScanner.Scan | Assets/Plugins/Externals/I2/Localization/Scripts/Google/GoogleTranslation.cs:184 | Regex.Matches yields in-text matches in order and without overlap, at most one per two characters |
| TagScanner.ScanWellScanned | Assets/Plugins/Externals/I2/Localization/Scripts/Google/GoogleTranslation.cs:184 | Every match found is a match of the pattern, the one the alternation picks at its index |
| TagScanner.ScanIsLeftmost | Assets/Plugins/Externals/I2/Localization/Scripts/Google/GoogleTranslation.cs:184 | No match is skipped: every position where the pattern matches lies inside a found match |
| TagScanner.ValueShape | Assets/Plugins/Externals/I2/Localization/Scripts/Google/GoogleTranslation.cs:198 | A match's text is its opener, its capture and its closer |
| TagScanner.CaptureBelow | Assets/Plugins/Externals/I2/Localization/Scripts/Google/GoogleTranslation.cs:170-179 | GetCaptureMatch picks the highest-numbered successful group, or the whole match when no group succeeded |
| TagScanner.CaptureIsGroupText | Assets/Plugins/Externals/I2/Localization/Scripts/Google/GoogleTranslation.cs:170-179 | On a scanned match, GetCaptureMatch returns the capture of the alternative that matched |
| Placeholders.Placeholder | Assets/Plugins/Externals/I2/Localization/Scripts/Google/GoogleTranslation.cs:201 | The j-th placeholder is the character 0x2600 + j |
| Placeholders.FindClosingTag | Assets/Plugins/Externals/I2/Localization/Scripts/Google/GoogleTranslation.cs:159-168 | The first match from the start index that closes the tag, or -1 when none does; every match before it has a non-empty, non-closing capture; an empty capture on the way throws IndexOutOfRange |
| Placeholders.StepTags | Assets/Plugins/Externals/I2/Localization/Scripts/Google/GoogleTranslation.cs:190-222 | One loop round takes out at most two tags, each a span of the original text; it throws only IndexOutOfRange, and only when a later match has an empty capture |
| Placeholders.StepUnpairedParam | Assets/Plugins/Externals/I2/Localization/Scripts/Google/GoogleTranslation.cs:195-204 | An unpaired `{[…]}` parameter is protected whole |
| Placeholders.StepUnpairedOther | Assets/Plugins/Externals/I2/Localization/Scripts/Google/GoogleTranslation.cs:195-204 | An unpaired `[…]` or `<…>` token is left for translation |
| Placeholders.ParamShape | Assets/Plugins/Externals/I2/Localization/Scripts/Google/GoogleTranslation.cs:199 | The `{[`…`]}` test on the match text holds exactly for the parameter alternative |
| Placeholders.StepNoTranslate | Assets/Plugins/Externals/I2/Localization/Scripts/Google/GoogleTranslation.cs:207-212 | A paired `i2nt` tag protects one span, from the opener's start to the closer's end |
| Placeholders.StepPair | Assets/Plugins/Externals/I2/Localization/Scripts/Google/GoogleTranslation.cs:213-222 | Any other paired tag protects the opener's text and then the closer's text |
| Placeholders.EmptyCaptureThrows | Assets/Plugins/Externals/I2/Localization/Scripts/Google/GoogleTranslation.cs:163-164 | A match with an empty capture makes its own round throw when `newTag[0]` is read |
| Placeholders.RoundsFailIff | Assets/Plugins/Externals/I2/Localization/Scripts/Google/GoogleTranslation.cs:190-223 | The extraction loop throws exactly when some match has an empty capture, and it throws IndexOutOfRange |
| Placeholders.RoundIsStep | Assets/Plugins/Externals/I2/Localization/Scripts/Google/GoogleTranslation.cs:190-223 | In a loop that completes, round j takes out what the body computes for match j |
| Placeholders.RoundsShape | Assets/Plugins/Externals/I2/Localization/Scripts/Google/GoogleTranslation.cs:190-223 | A completed loop takes out at most two tags per match, each a span of at least two characters of the original text |
| Placeholders.Fold | Assets/Plugins/Externals/I2/Localization/Scripts/Google/GoogleTranslation.cs:201-221 | finalTags receives the rounds' tags in order, after the tags already found |
| Placeholders.ParseNonTranslatableElements | Assets/Plugins/Externals/I2/Localization/Scripts/Google/GoogleTranslation.cs:181-227 | The tags are spans of the text, no more of them than the text has characters; the only exception is IndexOutOfRange |
| Placeholders.ParseFailsIffEmptyCapture | Assets/Plugins/Externals/I2/Localization/Scripts/Google/GoogleTranslation.cs:181-227 | Tag extraction throws exactly when the pattern matches `[]`, `<>` or `{[]}`, and then with IndexOutOfRange |
| Placeholders.RestoreIsExpand | Assets/Plugins/Externals/I2/Localization/Scripts/Google/GoogleTranslation_Post.cs:169-173 | Replacing placeholder 0, then 1, and so on, is the same as expanding all placeholders at once, when no tag holds a placeholder character |
| Placeholders.ReplaceTagsKeepsExpansion | Assets/Plugins/Externals/I2/Localization/Scripts/Google/GoogleTranslation.cs:201-221 | Replacing a round's tags by fresh placeholders does not change what the working text expands to |
| Placeholders.FoldRoundTrip | Assets/Plugins/Externals/I2/Localization/Scripts/Google/GoogleTranslation.cs:190-223 | Through every round, the working text still expands to the original text |
| Placeholders.ParseRoundTrip | Assets/Plugins/Externals/I2/Localization/Scripts/Google/GoogleTranslation.cs:181-227 | Restoring the tags into the working text, as the reply parser does, gives back the original text, provided the original uses none of the placeholder characters in play |
| Casing.UppercaseFirst | Assets/Plugins/Externals/I2/Localization/Scripts/Google/GoogleTranslation.cs:363-372 | The whole text lowered except the first character, which is upper-cased; the empty text stays empty |
| Casing.TitleLoop | Assets/Plugins/Externals/I2/Localization/Scripts/Google/GoogleTranslation.cs:383-389 | Each character after the first is upper-cased after white space and lowered otherwise, judged on the already rewritten character before it |
| Casing.TitleCase | Assets/Plugins/Externals/I2/Localization/Scripts/Google/GoogleTranslation.cs:373-390 | The first character upper-cased; every other one upper-cased after white space and lowered otherwise |
| Casing.TitleCaseIdempotent | Assets/Plugins/Externals/I2/Localization/Scripts/Google/GoogleTranslation.cs:373-390 | Title-casing twice is title-casing once |
| Casing.TitleCaseOfLower | Assets/Plugins/Externals/I2/Localization/Scripts/Google/GoogleTranslation.cs:373-390 | Title-casing ignores any prior lowering |
| Casing.TitledTextSurvivesLowering | Assets/Plugins/Externals/I2/Localization/Scripts/Google/GoogleTranslation_Post.cs:176-182 | A title-cased text sent lower-cased comes back to itself when the answer is title-cased |
| Casing.UppercaseFirstIsTitleCaseOfWord | Assets/Plugins/Externals/I2/Localization/Scripts/Google/GoogleTranslation.cs:363-390 | On a single word the two casings agree |
| Casing.UpperKeysAndTitleCase | Assets/Plugins/Externals/I2/Localization/Scripts/Google/GoogleTranslation.cs:380-390 | Two all-upper-case keys: "A B", whose words are single letters, is in title case; "AB" is not and becomes "Ab" |
| Queries.Find | Assets/Plugins/Externals/I2/Localization/Scripts/Google/GoogleTranslation.cs:142 | ContainsKey and the indexer: the entry holding the key, or -1 exactly when the key is absent |
| Queries.Put | Assets/Plugins/Externals/I2/Localization/Scripts/Google/GoogleTranslation.cs:147 | `dict[key] = q` overwrites the entry in place and leaves the others, or appends a new one at the end |
| Queries.FindQueryFromOrigText | Assets/Plugins/Externals/I2/Localization/Scripts/Google/GoogleTranslation_Post.cs:188-196 | The first query in enumeration order whose OrigText matches, or the default (None) exactly when there is none |
| Queries.FindByOrigText | Assets/Plugins/Externals/I2/Localization/Scripts/Google/GoogleTranslation_Post.cs:164-167 | In a batch whose keys are the OrigTexts, looking a key up by OrigText finds that key's query |
| Queries.FindUnique | Assets/Plugins/Externals/I2/Localization/Scripts/Google/GoogleTranslation.cs:151 | With distinct keys, looking up an entry's key finds that entry |
| QueryBuilder.NewQuery | Assets/Plugins/Externals/I2/Localization/Scripts/Google/GoogleTranslation.cs:144-146 | A new query keeps the text as OrigText, the source code, one target and null Results; its Text and Tags are the working text and tags of the extraction; it fails exactly when tag extraction fails |
| QueryBuilder.AddTarget | Assets/Plugins/Externals/I2/Localization/Scripts/Google/GoogleTranslation.cs:152-154 | The target list afterwards holds exactly the old targets and the new one |
| QueryBuilder.AddQuery | Assets/Plugins/Externals/I2/Localization/Scripts/Google/GoogleTranslation.cs:137-157 | An empty text leaves the dictionary as it is; keys and targets already present stay; the only key it can add is the text; a non-empty text is queued for the target language; it fails only on a new text whose tag extraction throws |
| QueryBuilder.AddQueryFresh | Assets/Plugins/Externals/I2/Localization/Scripts/Google/GoogleTranslation.cs:142-148 | A new text appends one entry (OrigText, source code, single target, null Results) whose Text and Tags are the extraction's, so its working text restores to the text |
| QueryBuilder.AddQueryExisting | Assets/Plugins/Externals/I2/Localization/Scripts/Google/GoogleTranslation.cs:149-156 | A known text never fails; only its entry changes, and only by gaining the target language if it was missing, without duplicates |
| QueryBuilder.AddQueryWellFormed | Assets/Plugins/Externals/I2/Localization/Scripts/Google/GoogleTranslation.cs:137-157 | AddQuery keeps keys distinct and non-empty, OrigText equal to the key, and target lists non-empty and duplicate-free |
| QueryBuilder.PluralTemplate | Assets/Plugins/Externals/I2/Localization/Scripts/Google/GoogleTranslation.cs:110-120 | The text before the first plural marker (so "" when the text starts with a marker and has no `]`); ArgumentOutOfRange exactly when the text starts with a marker and has a `]` |
| QueryBuilder.ReplaceParamsAbsent | Assets/Plugins/Externals/I2/Localization/Scripts/Google/GoogleTranslation.cs:131 | Regex.Replace with `{\[(.*?)\]}` leaves a text without `{[` unchanged |
| QueryBuilder.ReplaceParamsAtFirst | Assets/Plugins/Externals/I2/Localization/Scripts/Google/GoogleTranslation.cs:122-131 | Regex.Replace keeps the text before the leftmost parameter match, puts the number in its place and goes on after the match's end |
| QueryBuilder.ReplaceParamsNone | Assets/Plugins/Externals/I2/Localization/Scripts/Google/GoogleTranslation.cs:122-131 | Where no parameter matches from some position on, the rest of the text is kept as it is |
| QueryBuilder.PluralTexts | Assets/Plugins/Externals/I2/Localization/Scripts/Google/GoogleTranslation.cs:124-134 | The k-th text belongs to the k-th category the language has, in the order of the category list (`Filter`): one text per such category, each the template with that category's test number in place of the parameters |
| QueryBuilder.PluralTextsCover | Assets/Plugins/Externals/I2/Localization/Scripts/Google/GoogleTranslation.cs:124-134 | Every text queued belongs to a category the language has, and every such category has its text queued |
| QueryBuilder.AddAll | Assets/Plugins/Externals/I2/Localization/Scripts/Google/GoogleTranslation.cs:124-134 | After the AddQuery calls, every non-empty text is queued, earlier keys and targets are kept, and every new key is one of the texts |
| QueryBuilder.CreateQueries | Assets/Plugins/Externals/I2/Localization/Scripts/Google/GoogleTranslation.cs:102-135 | Every text the plural split produces is queued for the target language; earlier keys stay in place with their targets; every new key is one of the split's texts |
| QueryBuilder.CreateQueriesPlain | Assets/Plugins/Externals/I2/Localization/Scripts/Google/GoogleTranslation.cs:104-108 | A text without plural markers is one AddQuery |
| QueryBuilder.CreateQueriesLeadingMarker | Assets/Plugins/Externals/I2/Localization/Scripts/Google/GoogleTranslation.cs:113-120 | A text starting with a plural marker throws ArgumentOutOfRange |
| QueryBuilder.AddAllWellFormed | Assets/Plugins/Externals/I2/Localization/Scripts/Google/GoogleTranslation.cs:124-134 | A run of AddQuery calls keeps the batch well formed |
| QueryBuilder.CreateQueriesWellFormed | Assets/Plugins/Externals/I2/Localization/Scripts/Google/GoogleTranslation.cs:102-135 | CreateQueries keeps the batch well formed |
| Lookup.GetQueryResult | Assets/Plugins/Externals/I2/Localization/Scripts/Google/GoogleTranslation.cs:229-246 | Null for an unknown text or null Results; Results[0] for an empty language code; otherwise the result at the first index of the language, null when it is not a target, and IndexOutOfRange when Results is too short |
| Lookup.GetTranslation | Assets/Plugins/Externals/I2/Localization/Scripts/Google/GoogleTranslation.cs:305-318 | Null for an unknown text; "" when the language is not a target or Results is null; otherwise the result at the language's first index, or IndexOutOfRange |
| Lookup.FirstParamFrom | Assets/Plugins/Externals/I2/Localization/Scripts/Google/GoogleTranslation.cs:266-267 | Regex.Match(...).Value: a `{[…]}` token, or "" exactly when the template has none |
| Lookup.FirstParamIsLeftmost | Assets/Plugins/Externals/I2/Localization/Scripts/Google/GoogleTranslation.cs:266-267 | The token found is the text of the leftmost `{[…]}` match, with no match starting before it |
| Lookup.TranslateWith | Assets/Plugins/Externals/I2/Localization/Scripts/Google/GoogleTranslation.cs:272-276 | The translation of the template with the test number in place of the parameter, with the number turned back into the parameter; Argument for an empty parameter, NullReference for a missing text |
| Lookup.OtherForms | Assets/Plugins/Externals/I2/Localization/Scripts/Google/GoogleTranslation.cs:279-300 | The loop over the categories before Plural yields at most one form per category; OtherFormsAreFilter says which and in what order |
| Lookup.OtherFormsAreFilter | Assets/Plugins/Externals/I2/Localization/Scripts/Google/GoogleTranslation.cs:279-300 | The forms kept are exactly the contributing categories, in the order of the category list, each with its own translation |
| Lookup.OtherFormsSound | Assets/Plugins/Externals/I2/Localization/Scripts/Google/GoogleTranslation.cs:279-300 | Every form kept is a category the language has, with a non-empty translation that differs from the Plural one |
| Lookup.OtherFormsComplete | Assets/Plugins/Externals/I2/Localization/Scripts/Google/GoogleTranslation.cs:279-300 | Every category the language has, whose translation is non-empty and differs from the Plural one, is kept with that translation |
| Lookup.RebuildTranslation | Assets/Plugins/Externals/I2/Localization/Scripts/Google/GoogleTranslation.cs:249-254 | A text without plural markers is rebuilt as its GetTranslation; a plural text that rebuilds is never null |
| Lookup.RenderReadBack | Assets/Plugins/Externals/I2/Localization/Scripts/Google/GoogleTranslation.cs:279-301 | Reading the built text back gives the Plural translation and the contributing categories in list order, each with its translation |
| Lookup.RebuildPlural | Assets/Plugins/Externals/I2/Localization/Scripts/Google/GoogleTranslation.cs:256-302 | A rebuilt plural text starts with the Plural category's translation; read back, it holds exactly the categories before Plural (the last of the category list, which ValidRules requires) that the language has and that translate to something non-empty and different, in category order, each with its own translation |
| Lookup.RebuildWithoutParam | Assets/Plugins/Externals/I2/Localization/Scripts/Google/GoogleTranslation.cs:266-274 | A plural template without a `{[…]}` parameter throws Argument |
| Lookup.ReadRender | Assets/Plugins/Externals/I2/Localization/Scripts/Google/GoogleTranslation.cs:293-302 | The rebuilt plural text reads back into the Plural translation and the forms in order, when no piece holds a marker |
| Lookup.ReadPiece | Assets/Plugins/Externals/I2/Localization/Scripts/Google/GoogleTranslation.cs:295-298 | One `cat]text` piece reads back into its category and text |
| TranslationPost.WireText | Assets/Plugins/Externals/I2/Localization/Scripts/Google/GoogleTranslation_Post.cs:76 | A text in title case is sent lower-cased; any other text is sent unchanged |
| TranslationPost.WireTextKeepsTitle | Assets/Plugins/Externals/I2/Localization/Scripts/Google/GoogleTranslation_Post.cs:76 | Title-casing the text sent gives the same as title-casing the query text, so a lowered title-case text comes back to itself |
| TranslationPost.Segments | Assets/Plugins/Externals/I2/Localization/Scripts/Google/GoogleTranslation_Post.cs:61-88 | One segment per query, in enumeration order |
| TranslationPost.AppendCodes | Assets/Plugins/Externals/I2/Localization/Scripts/Google/GoogleTranslation_Post.cs:69-73 | The comma-separated target codes, built in place |
| TranslationPost.BuildRequestList | Assets/Plugins/Externals/I2/Localization/Scripts/Google/GoogleTranslation_Post.cs:59-88 | The StringBuilder loop builds the segments joined with `<I2Loc>` |
| TranslationPost.RequestListAppend | Assets/Plugins/Externals/I2/Localization/Scripts/Google/GoogleTranslation_Post.cs:64-65 | Each query adds a separator when the list is non-empty, then its segment |
| TranslationPost.RequestListSplits | Assets/Plugins/Externals/I2/Localization/Scripts/Google/GoogleTranslation_Post.cs:160 | Splitting the request list on `<I2Loc>` gives back one segment per query, when no segment holds the separator |
| TranslationPost.HtmlReplyOutcomes | Assets/Plugins/Externals/I2/Localization/Scripts/Google/GoogleTranslation_Post.cs:149-158 | An HTML page leaves the batch unchanged and returns the "not supported" message, the empty "try again" message, or the contact-problem message followed by the page |
| TranslationPost.ResultsFor | Assets/Plugins/Externals/I2/Localization/Scripts/Google/GoogleTranslation_Post.cs:169-182 | The segment with the tags restored, split on `<i2>`; when the key is in title case, each result is TitleCase of its piece, and so is in title case |
| TranslationPost.ApplyFrom | Assets/Plugins/Externals/I2/Localization/Scripts/Google/GoogleTranslation_Post.cs:164-184 | The loop over the keys throws only IndexOutOfRange (too few segments) or ArgumentNull (a key without a query) |
| TranslationPost.ParseTranslationResult | Assets/Plugins/Externals/I2/Localization/Scripts/Google/GoogleTranslation_Post.cs:145-186 | A non-HTML reply that is parsed returns null; only a non-HTML reply can throw |
| TranslationPost.Answered | Assets/Plugins/Externals/I2/Localization/Scripts/Google/GoogleTranslation_Post.cs:175-183 | Each query receives the Results of its own segment |
| TranslationPost.ApplyFromAnswers | Assets/Plugins/Externals/I2/Localization/Scripts/Google/GoogleTranslation_Post.cs:164-184 | With enough segments, the loop gives each query the Results of its own segment |
| TranslationPost.ApplyFromShort | Assets/Plugins/Externals/I2/Localization/Scripts/Google/GoogleTranslation_Post.cs:168 | With too few segments, the loop throws IndexOutOfRange |
| TranslationPost.ParseReplyAssigns | Assets/Plugins/Externals/I2/Localization/Scripts/Google/GoogleTranslation_Post.cs:160-185 | A well-formed reply assigns segment k to the k-th query and returns null |
| TranslationPost.ParseReplyTooShort | Assets/Plugins/Externals/I2/Localization/Scripts/Google/GoogleTranslation_Post.cs:168 | A reply with fewer segments than queries throws IndexOutOfRange |
| TranslationPost.ParseReplyKeepsQueries | Assets/Plugins/Externals/I2/Localization/Scripts/Google/GoogleTranslation_Post.cs:175-183 | Parsing changes only Results: keys, OrigText, Text, source code, targets and tags stay, and every query gets Results |
| TranslationPost.ExtraSegmentsIgnored | Assets/Plugins/Externals/I2/Localization/Scripts/Google/GoogleTranslation_Post.cs:164-168 | Segments beyond the number of queries do not affect the outcome |
| TranslationPost.LookupAfterReply | Assets/Plugins/Externals/I2/Localization/Scripts/Google/GoogleTranslation_Post.cs:175 | After a reply, GetQueryResult for a query's j-th target returns the j-th piece of its segment, or IndexOutOfRange when the segment has fewer pieces |
| Terms.StripNoTranslate | Assets/Plugins/Externals/I2/Localization/Scripts/TermData.cs:58-61 | A null translation stays null |
| Terms.StripWithoutMarkers | Assets/Plugins/Externals/I2/Localization/Scripts/TermData.cs:60 | A translation without `[i2nt]` markers is returned unchanged |
| Terms.StripWrapped | Assets/Plugins/Externals/I2/Localization/Scripts/TermData.cs:60 | `[i2nt]t[/i2nt]` is read as t |
| Terms.GetTranslation | Assets/Plugins/Externals/I2/Localization/Scripts/TermData.cs:47-63 | The platform's own entry when non-empty, else the other array's entry, with markers stripped; IndexOutOfRange exactly when an array read is past its end |
| Terms.SetTranslation | Assets/Plugins/Externals/I2/Localization/Scripts/TermData.cs:65-75 | Only the platform's array changes, and only at the index; IndexOutOfRange exactly when the index is outside it |
| Terms.SetThenGet | Assets/Plugins/Externals/I2/Localization/Scripts/TermData.cs:47-75 | A non-empty translation set for a platform is what that platform reads back |
| Terms.SetKeepsOthers | Assets/Plugins/Externals/I2/Localization/Scripts/TermData.cs:47-75 | Setting one language leaves what every other language reads, on either platform |
| Terms.IsAutoTranslated | Assets/Plugins/Externals/I2/Localization/Scripts/TermData.cs:77-83 | IndexOutOfRange exactly when the index is outside the flag array; otherwise the second-lowest bit of the flag byte for touch, the lowest bit otherwise |
| Terms.AutoTranslatedBits | Assets/Plugins/Externals/I2/Localization/Scripts/TermData.cs:77-83 | Flag 1 marks the normal translation, 2 the touch one, 255 both, 0 neither |
| Terms.HasTouchFrom | Assets/Plugins/Externals/I2/Localization/Scripts/TermData.cs:87-91 | True exactly when some touch translation is non-empty and differs from a non-empty normal one, and true whenever such a slot exists, even with touch entries past the normal array; IndexOutOfRange only when a non-empty touch entry past the normal array is reached first |
| Terms.HasTouchTranslations | Assets/Plugins/Externals/I2/Localization/Scripts/TermData.cs:85-92 | Only throws when the touch array is longer than the normal one, and never when some slot holds two different non-empty translations |
| Terms.HasTouchIff | Assets/Plugins/Externals/I2/Localization/Scripts/TermData.cs:85-92 | With the arrays aligned, it answers, and answers true exactly when some language has diverging non-empty translations |
| Terms.Grow | Assets/Plugins/Externals/I2/Localization/Scripts/TermData.cs:99-101 | Array.Resize to a larger size keeps the prefix and fills with the default |
| Terms.Validate | Assets/Plugins/Externals/I2/Localization/Scripts/TermData.cs:94-111 | The in-place loop computes Validated |
| Terms.ValidatedShape | Assets/Plugins/Externals/I2/Localization/Scripts/TermData.cs:96-110 | All three arrays grow to the longest length; flags keep their prefix and gain zeros; the touch array's new slots are null; an entry changes only by moving a touch translation into an empty normal slot |
| Terms.ValidatedNotStranded | Assets/Plugins/Externals/I2/Localization/Scripts/TermData.cs:103-110 | Afterwards no language has an empty normal entry beside a non-empty touch entry, and no non-empty translation is lost |
| Terms.ValidateIdempotent | Assets/Plugins/Externals/I2/Localization/Scripts/TermData.cs:94-111 | Validating twice is validating once |
| Terms.ValidatedReadable | Assets/Plugins/Externals/I2/Localization/Scripts/TermData.cs:47-111 | After Validate, GetTranslation, IsAutoTranslated and HasTouchTranslations never throw for an index below the common length |
| Terms.SetEnabled | Assets/Plugins/Externals/I2/Localization/Scripts/TermData.cs:147-153 | IsEnabled afterwards is the argument, and no other bit changes |
| Terms.SetLoaded | Assets/Plugins/Externals/I2/Localization/Scripts/TermData.cs:155-162 | IsLoaded afterwards is the argument, and no other bit changes |
| Terms.SetCanBeUnLoaded | Assets/Plugins/Externals/I2/Localization/Scripts/TermData.cs:156-167 | CanBeUnloaded afterwards is the argument, and no other bit changes |
| Terms.SetEnabledIndependent | Assets/Plugins/Externals/I2/Localization/Scripts/TermData.cs:131-153 | Enabling leaves the loaded and keep-loaded answers alone, and is idempotent |
| Terms.SetLoadedIndependent | Assets/Plugins/Externals/I2/Localization/Scripts/TermData.cs:131-162 | Loading leaves the enabled and keep-loaded answers alone, and is idempotent |
| Terms.SetCanBeUnLoadedIndependent | Assets/Plugins/Externals/I2/Localization/Scripts/TermData.cs:131-167 | Allowing unloading leaves the enabled and loaded answers alone, and is idempotent |

## Left out

- The transport: GetTranslationWWW's WWW/WWWForm objects, the GET variant with URL escaping and its 4000-character cut-off, WaitForTranslation and its coroutine, the "rewind" retry, the two Translate entry points, ForceTranslate, CanTranslate, IsTranslating and CancelCurrentGoogleTranslations. These are I/O and scheduling, and the model has no network or clock.
- GoogleLanguages and LanguageSource are not part of this model. The plural categories of a language, their test numbers and the Google language-code mapping are parameters (`LanguageRules`).
- TermData.IsTouchType is a build-time platform constant. It is a parameter.
- Null string arguments are not modelled. A `string.IsNullOrEmpty` test on an argument becomes the empty-string test. So `AddQuery(null)`, which returns without effect, is not distinguished from `AddQuery("")`. The NullReferenceException that CreateQueries and RebuildTranslation raise at `text.Contains` on a null text is not modelled. Neither is the ArgumentNullException that GetQueryResult and GetTranslation raise at `ContainsKey(null)`.
- The plural categories are a parameter, not the fixed ePluralType enum. `ValidRules` states the one fact about that enum the rebuild depends on: Plural comes last.
- The culture-dependent branch of TitleCase (`TextInfo.ToTitleCase`, the default build) is left out. The NETFX_CORE loop is modelled. `ToTitleCase` leaves all-upper-case words as they are, so in the default build more keys count as title case than in the model.
- Casing covers ASCII letters only. White space is the Unicode white-space set of `char.IsWhiteSpace`. String comparisons and StartsWith/IndexOf are ordinal; culture-sensitive matching is not modelled.
- TermData.IsTerm, the TermType and Description fields other than as data, and LanguageData.Compressed are left out. No modelled operation reads them.
- A .NET method that throws part-way leaves earlier writes to the dictionary or arrays in place. The model reports the exception and drops the partial state.
- The other files of the repository (LocalizationManager_Sources.cs, PersistentStorage.cs, LocalizeTarget_SVGImporter_Renderer.cs, I2RuntimeInitialize.cs, I2GetTranslation.cs) are not part of this model.
- Placeholders.ParseNonTranslatableElements: requires a text of at most `Capacity` (0xD800 - 0x2600) characters. A Dafny `char` cannot hold a surrogate code point, so the placeholder `0x2600 + j` must stay below 0xD800. A longer text could need more tags than fit.
- QueryBuilder.NewQuery: the same `Capacity` bound on the text, for the same reason.
- QueryBuilder.AddQuery: the same `Capacity` bound on the text, for the same reason.
- QueryBuilder.AddAll: the same `Capacity` bound on every text, for the same reason.
- QueryBuilder.CreateQueries: the same `Capacity` bound on every text the plural split produces, for the same reason.
- TranslationPost.ParseTranslationResult: requires every query to carry at most `Capacity` tags (`TagsFit`), for the same reason. ResultsFor and ApplyFrom carry the same requirement.
- Placeholders.ParseRoundTrip: the round trip needs the original text to hold none of the placeholder characters that its own tags use. A text that already contains such a character is restored differently, and this is the plugin's own limitation.
- The extraction loop is modelled as computing every round's tags from the original text (Rounds) and then applying the replacements (Fold). Each round's tags depend only on the original text and the matches, never on the working text, so the two orders agree.
- A null Tags array and an empty one are both the empty sequence, because nothing reads the difference. The always-false `Results.Length < 0` guard in GetQueryResult is kept as written, so an empty Results array makes `Results[0]` throw.

=== FILE: casing.dfy ===
/**
 * UppercaseFirst and the NETFX_CORE TitleCase of GoogleTranslation, with
 * ASCII case mapping.
 */
module Casing {
  import opened Text

  /** UppercaseFirst: the whole text lower-cased, then its first character
      upper-cased. */
  function UppercaseFirst(s: string): (r: string)
    ensures |r| == |s|
    ensures |s| > 0 ==> r[0] == ToUpper(s[0])
    ensures forall k :: 0 < k < |s| ==> r[k] == ToLower(s[k])
  {
    if |s| == 0 then ""
    else
      var a := LowerString(s);
      CaseMappingFacts(s[0]);
      a[0 := ToUpper(a[0])]
  }

  /** The character TitleCase puts at position k > 0, given the character
      before it. */
  function TitleChar(prev: char, c: char): char {
    if IsWhiteSpace(prev) then ToUpper(c) else ToLower(c)
  }

  /** The loop of the NETFX_CORE TitleCase from index i on, over the
      StringBuilder `sb` whose characters before i are already rewritten:
      sb[i] is rewritten according to the (rewritten) character before it. */
  function TitleLoop(sb: string, i: nat): (r: string)
    requires 1 <= i <= |sb|
    ensures |r| == |sb|
    ensures forall k :: 0 <= k < i ==> r[k] == sb[k]
    ensures forall k :: i <= k < |sb| ==> r[k] == TitleChar(sb[k - 1], sb[k])
    decreases |sb| - i
  {
    if i == |sb| then sb
    else
      var sb' := sb[i := TitleChar(sb[i - 1], sb[i])];
      CaseMappingFacts(sb[i]);
      assert IsWhiteSpace(sb'[i]) == IsWhiteSpace(sb[i]);
      var r := TitleLoop(sb', i + 1);
      assert forall k :: i + 1 <= k < |sb| ==> r[k] == TitleChar(sb'[k - 1], sb'[k]);
      assert forall k :: i < k < |sb| ==> sb'[k] == sb[k];
      r
  }

  /** TitleCase (NETFX_CORE): the first character upper-cased; every later
      character upper-cased after whitespace and lower-cased elsewhere. */
  function TitleCase(s: string): (r: string)
    ensures |r| == |s|
    ensures |s| > 0 ==> r[0] == ToUpper(s[0])
    ensures forall k :: 0 < k < |s| ==> r[k] == TitleChar(s[k - 1], s[k])
  {
    if |s| == 0 then ""
    else
      CaseMappingFacts(s[0]);
      var sb := s[0 := ToUpper(s[0])];
      assert IsWhiteSpace(sb[0]) == IsWhiteSpace(s[0]);
      var r := TitleLoop(sb, 1);
      assert forall k :: 0 < k < |s| ==> sb[k] == s[k];
      r
  }

  /** Whitespace decides the same way before and after case mapping. */
  lemma {:induction false} TitleCharFacts(p: char, c: char)
    ensures TitleChar(ToUpper(p), c) == TitleChar(p, c) && TitleChar(ToLower(p), c) == TitleChar(p, c)
    ensures TitleChar(p, ToLower(c)) == TitleChar(p, c) && TitleChar(p, ToUpper(c)) == TitleChar(p, c)
    ensures TitleChar(p, TitleChar(p, c)) == TitleChar(p, c)
  {
    CaseMappingFacts(p);
    CaseMappingFacts(c);
  }

  /** Title-casing twice is title-casing once. */
  lemma {:induction false} TitleCaseIdempotent(s: string)
    ensures TitleCase(TitleCase(s)) == TitleCase(s)
  {
    var t := TitleCase(s);
    var tt := TitleCase(t);
    if |s| > 0 {
      CaseMappingFacts(s[0]);
      forall k | 0 < k < |s|
        ensures tt[k] == t[k]
      {
        if k == 1 {
          TitleCharFacts(s[0], s[k]);
        } else {
          TitleCharFacts(s[k - 1], s[k]);
          CaseMappingFacts(s[k - 1]);
          TitleCharFacts(s[k - 2], s[k - 1]);
        }
        assert t[k - 1] == ToUpper(s[k - 1]) || t[k - 1] == ToLower(s[k - 1]);
      }
    }
  }

  /** Title case ignores the case the text arrives in: lower-casing first
      changes nothing. This is why a title-cased text can be sent
      lower-cased and title-cased again when the reply comes back. */
  lemma {:induction false} TitleCaseOfLower(s: string)
    ensures TitleCase(LowerString(s)) == TitleCase(s)
  {
    var l := LowerString(s);
    if |s| > 0 {
      CaseMappingFacts(s[0]);
      forall k | 0 < k < |s|
        ensures TitleCase(l)[k] == TitleCase(s)[k]
      {
        TitleCharFacts(s[k - 1], s[k]);
      }
    }
  }

  /** A text in title case is recovered by title-casing its lower-cased form. */
  lemma {:induction false} TitledTextSurvivesLowering(s: string)
    requires TitleCase(s) == s
    ensures TitleCase(LowerString(s)) == s
  {
    TitleCaseOfLower(s);
  }

  /** On a single word (no whitespace before the last character) the two
      casings agree. */
  lemma {:induction false} UppercaseFirstIsTitleCaseOfWord(s: string)
    requires forall k :: 0 <= k < |s| - 1 ==> !IsWhiteSpace(s[k])
    ensures UppercaseFirst(s) == TitleCase(s)
  {
    var u, t := UppercaseFirst(s), TitleCase(s);
    forall k | 0 < k < |s|
      ensures u[k] == t[k]
    {
      assert !IsWhiteSpace(s[k - 1]);
    }
  }

  /** Two all-upper-case keys: "A B", whose words are single letters, is in
      title case; "AB" is not. */
  lemma {:induction false} UpperKeysAndTitleCase()
    ensures TitleCase("A B") == "A B"
    ensures TitleCase("AB") == "Ab"
  {
  }
}

=== FILE: lookup.dfy ===
/**
 * Reading translations back out of a batch: GetQueryResult, GetTranslation
 * and RebuildTranslation, which reassembles a plural text from the
 * translations of its per-category test texts.
 */
module Lookup {
  import opened Wrappers
  import opened Text
  import opened Sequences
  import opened TagScanner
  import opened Queries
  import opened QueryBuilder

  /** GetQueryResult; Success(None) is a null return. An empty target code
      asks for the first result; otherwise the result at the target's
      position. Reading past the end of Results throws. */
  function GetQueryResult(text: string, to: string, b: Batch): (r: Result<Option<string>>)
    ensures text !in Keys(b) ==> r == Success(None)
    ensures text in Keys(b) && b[Find(b, text)].query.results.None? ==> r == Success(None)
    ensures text in Keys(b) && b[Find(b, text)].query.results.Some? ==>
              var q := b[Find(b, text)].query;
              var results := q.results.value;
              && (to == "" ==> r == (if |results| > 0 then Success(Some(results[0])) else Failure(IndexOutOfRange)))
              && (to != "" && to !in q.targets ==> r == Success(None))
              && (forall k :: 0 <= k < |q.targets| && q.targets[k] == to && to !in q.targets[..k] && to != "" ==>
                    r == (if k < |results| then Success(Some(results[k])) else Failure(IndexOutOfRange)))
  {
    var i := Find(b, text);
    if i < 0 then Success(None)
    else
      var q := b[i].query;
      match q.results
      case None => Success(None)
      case Some(results) =>
        if to == "" then
          if |results| == 0 then Failure(IndexOutOfRange) else Success(Some(results[0]))
        else
          IndexOfElemFirst(q.targets, to);
          var idx := IndexOfElem(q.targets, to);
          if idx < 0 then Success(None)
          else if idx >= |results| then Failure(IndexOutOfRange)
          else Success(Some(results[idx]))
  }

  /** GetTranslation (the private one of GoogleTranslation): null for an
      unknown text, "" for a target not asked for or a query without
      results, otherwise the result at the target's position. */
  function GetTranslation(text: string, to: string, b: Batch): (r: Result<Option<string>>)
    ensures text !in Keys(b) ==> r == Success(None)
    ensures text in Keys(b) ==>
              var q := b[Find(b, text)].query;
              && (to !in q.targets || q.results.None? ==> r == Success(Some("")))
              && (forall k :: 0 <= k < |q.targets| && q.targets[k] == to && to !in q.targets[..k] && q.results.Some? ==>
                    r == (if k < |q.results.value| then Success(Some(q.results.value[k])) else Failure(IndexOutOfRange)))
  {
    var i := Find(b, text);
    if i < 0 then Success(None)
    else
      var q := b[i].query;
      IndexOfElemFirst(q.targets, to);
      var langIdx := IndexOfElem(q.targets, to);
      if langIdx < 0 then Success(Some(""))
      else
        match q.results
        case None => Success(Some(""))
        case Some(results) =>
          if langIdx >= |results| then Failure(IndexOutOfRange) else Success(Some(results[langIdx]))
  }

  /** Regex.Match(s, @"{\[(.*?)\]}").Value from `pos` on: the first
      parameter token, or "" when there is none. */
  function FirstParamFrom(s: string, pos: nat): (r: string)
    requires pos <= |s|
    ensures r == "" <==> forall p, e :: pos <= p <= |s| ==> !AltEndsAt(s, p, Param, e)
    ensures r != "" ==> StartsWith(r, "{[") && EndsWith(r, "]}") && |r| >= 4
    decreases |s| - pos
  {
    if pos == |s| then
      assert forall e :: !AltEndsAt(s, pos, Param, e);
      ""
    else
      match TryAlt(s, pos, Param)
      case Some(m) =>
        ValueShape(s, m);
        Value(s, m)
      case None => FirstParamFrom(s, pos + 1)
  }

  /** The parameter FirstParamFrom finds is the text of the leftmost
      `{[…]}` match from `pos` on, the token RebuildTranslation replaces. */
  lemma {:induction false} FirstParamIsLeftmost(s: string, pos: nat)
    requires pos <= |s|
    ensures var r := FirstParamFrom(s, pos);
            r != "" ==> exists p :: IsFirstParamAt(s, pos, p) && r == Value(s, TryAlt(s, p, Param).value)
    decreases |s| - pos
  {
    var r := FirstParamFrom(s, pos);
    if pos < |s| && r != "" {
      if TryAlt(s, pos, Param).Some? {
        assert IsFirstParamAt(s, pos, pos);
      } else {
        FirstParamIsLeftmost(s, pos + 1);
        var p :| IsFirstParamAt(s, pos + 1, p) && r == Value(s, TryAlt(s, p, Param).value);
        assert IsFirstParamAt(s, pos, p);
      }
    }
  }

  function FirstParam(s: string): string {
    FirstParamFrom(s, 0)
  }

  /** The ePluralType values before Plural, the last one. */
  function FormsBefore(cats: seq<string>): seq<string> {
    if |cats| > 0 then cats[..|cats| - 1] else []
  }

  /** One extra plural form of a rebuilt translation: `[i2p_<category>]text`. */
  datatype PluralForm = PluralForm(category: string, text: string)

  /** A form as the text between two markers holds it. */
  function Piece(f: PluralForm): string {
    f.category + "]" + f.text
  }

  /** Each form behind its marker, in order. */
  function Marked(forms: seq<PluralForm>): string
    decreases |forms|
  {
    if |forms| == 0 then ""
    else "[i2p_" + (Piece(forms[0]) + Marked(forms[1..]))
  }

  /** The text RebuildTranslation's StringBuilder ends up with: the Plural
      translation, then each extra form behind its marker. */
  function Render(plural: string, forms: seq<PluralForm>): string {
    plural + Marked(forms)
  }

  /** One `<category>]<text>` piece of a plural text read back. */
  function ReadForm(part: string): PluralForm {
    var i := IndexOf(part, "]");
    if i < 0 then PluralForm(part, "") else PluralForm(part[..i], part[i + 1..])
  }

  /** A plural text read back: the text before the first marker, and the
      pieces between markers split at their first ']'. */
  function ReadPluralForms(s: string): (r: (string, seq<PluralForm>))
    ensures |r.1| == Count(s, "[i2p_")
  {
    var parts := Split(s, "[i2p_");
    (parts[0], seq(|parts| - 1, k requires 0 <= k < |parts| - 1 => ReadForm(parts[k + 1])))
  }

  /** A form that survives being written and read back: no ']' in the
      category and no marker anywhere. */
  predicate Readable(f: PluralForm) {
    !Contains(f.category, "]") && !Contains(f.category, "[i2p_") && !Contains(f.text, "[i2p_")
  }

  /** The translation of the template with `num` in place of `param`, with
      `num` turned back into `param`. An empty `param` makes the first
      Replace throw; a missing translation (null) makes the second one throw. */
  function TranslateWith(template: string, param: string, num: string, to: string, b: Batch): (r: Result<string>)
    requires |num| > 0
    ensures param == "" ==> r == Failure(Argument)
    ensures param != "" ==>
              var tr := GetTranslation(Replace(template, param, num), to, b);
              && (r.Success? <==> tr.Success? && tr.value.Some?)
              && (r.Success? ==> r.value == Replace(tr.value.value, num, param))
              && (r.Failure? && tr.Success? ==> r.error == NullReference)
  {
    if param == "" then Failure(Argument)
    else
      var tr :- GetTranslation(Replace(template, param, num), to, b);
      if tr.None? then Failure(NullReference) else Success(Replace(tr.value, num, param))
  }

  /** The translation of the template for category `c`: its test number
      in place of the parameter. */
  function TranslateFor(template: string, param: string, to: string, b: Batch, rules: LanguageRules,
                        c: string): Result<string>
  {
    TranslateWith(template, param, IntToString(rules.testNumber(to, c)), to, b)
  }

  /** The loop over the categories before Plural, for a language that has
      the categories `has` holds and translates category c to `tr(c)`: a
      category the language has contributes its translation when that is
      non-empty and differs from the Plural translation; the first
      translation that throws ends the loop. */
  function OtherForms(plural: string, cats: seq<string>, has: string -> bool,
                      tr: string -> Result<string>): (r: Result<seq<PluralForm>>)
    ensures r.Success? ==> |r.value| <= |cats|
    decreases |cats|
  {
    if |cats| == 0 then Success([])
    else
      var c := cats[0];
      if !has(c) then OtherForms(plural, cats[1..], has, tr)
      else
        var t :- tr(c);
        var rest :- OtherForms(plural, cats[1..], has, tr);
        if t != "" && t != plural then Success([PluralForm(c, t)] + rest) else Success(rest)
  }

  /** Category `c` contributes the form `t`: the language has it, and its
      translation is `t`, non-empty and different from the Plural one. */
  predicate Contributes(plural: string, has: string -> bool, tr: string -> Result<string>, c: string, t: string) {
    has(c) && t != "" && t != plural && tr(c) == Success(t)
  }

  /** Every form OtherForms keeps is a category of the list that contributes it. */
  lemma {:induction false} OtherFormsSound(plural: string, cats: seq<string>, has: string -> bool,
                                           tr: string -> Result<string>)
    requires OtherForms(plural, cats, has, tr).Success?
    ensures var forms := OtherForms(plural, cats, has, tr).value;
            forall k :: 0 <= k < |forms| ==>
              forms[k].category in cats && Contributes(plural, has, tr, forms[k].category, forms[k].text)
    decreases |cats|
  {
    if |cats| > 0 {
      var c, more := cats[0], cats[1..];
      var forms := OtherForms(plural, cats, has, tr).value;
      var rest := OtherForms(plural, more, has, tr).value;
      OtherFormsSound(plural, more, has, tr);
      assert forall x :: x in more ==> x in cats;
      if has(c) {
        var t := tr(c).value;
        if t != "" && t != plural {
          assert forms == [PluralForm(c, t)] + rest;
          assert forall k :: 0 < k < |forms| ==> forms[k] == rest[k - 1];
        }
      }
    }
  }

  /** Every category of the list the language has translates without an
      exception, and when it contributes a form, that form is kept. */
  lemma {:induction false} OtherFormsComplete(plural: string, cats: seq<string>, has: string -> bool,
                                              tr: string -> Result<string>)
    requires OtherForms(plural, cats, has, tr).Success?
    ensures var forms := OtherForms(plural, cats, has, tr).value;
            forall c :: c in cats && has(c) ==>
              tr(c).Success? && (Contributes(plural, has, tr, c, tr(c).value) ==>
                exists k :: 0 <= k < |forms| && forms[k] == PluralForm(c, tr(c).value))
    decreases |cats|
  {
    if |cats| > 0 {
      var c0, more := cats[0], cats[1..];
      var forms := OtherForms(plural, cats, has, tr).value;
      OtherFormsHead(plural, cats, has, tr);
      var rest := OtherForms(plural, more, has, tr).value;
      OtherFormsComplete(plural, more, has, tr);
      forall c | c in cats && has(c)
        ensures tr(c).Success? && (Contributes(plural, has, tr, c, tr(c).value) ==>
                  exists k :: 0 <= k < |forms| && forms[k] == PluralForm(c, tr(c).value))
      {
        if c != c0 {
          assert c in more by {
            var i :| 0 <= i < |cats| && cats[i] == c;
            assert more[i - 1] == c;
          }
          if Contributes(plural, has, tr, c, tr(c).value) {
            var k :| 0 <= k < |rest| && rest[k] == PluralForm(c, tr(c).value);
            if Keeps(plural, has, tr)(c0) {
              assert forms[k + 1] == rest[k];
            } else {
              assert forms[k] == rest[k];
            }
          }
        } else if Contributes(plural, has, tr, c, tr(c).value) {
          assert forms[0] == PluralForm(c, tr(c).value);
        }
      }
    }
  }

  /** One step of OtherForms: the first category's form, if it keeps one,
      in front of the forms of the rest. */
  lemma {:induction false} OtherFormsHead(plural: string, cats: seq<string>, has: string -> bool,
                                          tr: string -> Result<string>)
    requires |cats| > 0 && OtherForms(plural, cats, has, tr).Success?
    ensures OtherForms(plural, cats[1..], has, tr).Success?
    ensures has(cats[0]) ==> tr(cats[0]).Success?
    ensures var forms, rest := OtherForms(plural, cats, has, tr).value, OtherForms(plural, cats[1..], has, tr).value;
            forms == if Keeps(plural, has, tr)(cats[0]) then [PluralForm(cats[0], tr(cats[0]).value)] + rest else rest
  {
  }

  /** RebuildTranslation. A text without plural markers is looked up as
      it is. A plural text is answered with the translation of its template
      for the Plural category, followed by `[i2p_<category>]` and the
      translation for each other category of the language that says
      something different. */
  function RebuildTranslation(text: string, b: Batch, to: string, rules: LanguageRules): (r: Result<Option<string>>)
    ensures !Contains(text, "[i2p_") ==> r == GetTranslation(text, to, b)
    ensures Contains(text, "[i2p_") && r.Success? ==> r.value.Some?
  {
    if !Contains(text, "[i2p_") then GetTranslation(text, to, b)
    else
      var template :- PluralTemplate(text);
      var param := FirstParam(template);
      var plural :- TranslateFor(template, param, to, b, rules, "Plural");
      var forms :- OtherForms(plural, FormsBefore(rules.categories), Has(to, rules),
                              Translator(template, param, to, b, rules));
      Success(Some(Render(plural, forms)))
  }

  /** The per-category translation of a template. */
  function Translator(template: string, param: string, to: string, b: Batch, rules: LanguageRules):
    string -> Result<string>
  {
    c => TranslateFor(template, param, to, b, rules, c)
  }

  lemma {:induction false} MarkerFacts()
    ensures HeadUnique("[i2p_") && HeadUnique("]") && ']' !in "[i2p_"
  {
  }

  function Pieces(forms: seq<PluralForm>): (r: seq<string>)
    ensures |r| == |forms| && forall k :: 0 <= k < |forms| ==> r[k] == Piece(forms[k])
  {
    seq(|forms|, k requires 0 <= k < |forms| => Piece(forms[k]))
  }

  lemma {:induction false} SplitMarked(x: string, forms: seq<PluralForm>)
    requires !Contains(x, "[i2p_") && forall k :: 0 <= k < |forms| ==> Readable(forms[k])
    ensures Split(x + Marked(forms), "[i2p_") == [x] + Pieces(forms)
    decreases |forms|
  {
    MarkerFacts();
    if |forms| == 0 {
      assert x + Marked(forms) == x;
      SplitAbsent(x, "[i2p_");
    } else {
      var piece, rest := Piece(forms[0]), forms[1..];
      PieceClean(forms[0]);
      ReadableTail(forms);
      SplitMarked(piece, rest);
      assert x + Marked(forms) == x + ("[i2p_" + (piece + Marked(rest)));
      SplitFront(x, "[i2p_", piece + Marked(rest));
      assert Pieces(forms) == [piece] + Pieces(rest);
    }
  }

  /** A readable form's piece holds no marker. */
  lemma {:induction false} PieceClean(f: PluralForm)
    requires Readable(f)
    ensures !Contains(Piece(f), "[i2p_")
  {
    MarkerFacts();
    ContainsGlue(f.category, ']', f.text, "[i2p_");
    assert Piece(f) == f.category + [']'] + f.text;
  }

  /** The forms after the first are readable when all are. */
  lemma {:induction false} ReadableTail(forms: seq<PluralForm>)
    requires |forms| > 0 && forall k :: 0 <= k < |forms| ==> Readable(forms[k])
    ensures forall k :: 0 <= k < |forms| - 1 ==> Readable(forms[1..][k])
  {
    forall k | 0 <= k < |forms| - 1
      ensures Readable(forms[1..][k])
    {
      assert forms[1..][k] == forms[k + 1];
    }
  }

  /** The plural format is unambiguous: reading a rendered text gives back
      the Plural translation and the forms, in order. */
  lemma {:induction false} ReadRender(plural: string, forms: seq<PluralForm>)
    requires !Contains(plural, "[i2p_") && forall k :: 0 <= k < |forms| ==> Readable(forms[k])
    ensures ReadPluralForms(Render(plural, forms)) == (plural, forms)
  {
    var s := Render(plural, forms);
    SplitMarked(plural, forms);
    var parts := Split(s, "[i2p_");
    assert parts == [plural] + Pieces(forms);
    var r := ReadPluralForms(s);
    assert r.0 == plural;
    assert |r.1| == |forms|;
    forall k | 0 <= k < |forms|
      ensures r.1[k] == forms[k]
    {
      assert parts[k + 1] == Piece(forms[k]);
      assert r.1[k] == ReadForm(parts[k + 1]);
      ReadPiece(forms[k]);
    }
    assert r.1 == forms;
  }

  lemma {:induction false} ReadPiece(f: PluralForm)
    requires !Contains(f.category, "]")
    ensures ReadForm(Piece(f)) == f
  {
    MarkerFacts();
    IndexOfAfter(f.category, "]", f.text);
    var part := Piece(f);
    assert part[..|f.category|] == f.category;
    assert part[|f.category| + 1..] == f.text;
  }

  /** The categories of a list of forms, in order. */
  function Categories(forms: seq<PluralForm>): (r: seq<string>)
    ensures |r| == |forms| && forall k :: 0 <= k < |forms| ==> r[k] == forms[k].category
  {
    seq(|forms|, k requires 0 <= k < |forms| => forms[k].category)
  }

  /** The categories that contribute a form: the language has them and
      their translation succeeds with something non-empty that differs
      from the Plural translation. */
  function Keeps(plural: string, has: string -> bool, tr: string -> Result<string>): string -> bool {
    c => tr(c).Success? && Contributes(plural, has, tr, c, tr(c).value)
  }

  /** Every translation of a category in `cats` can be written behind a
      marker and read back. */
  predicate AllReadable(cats: seq<string>, tr: string -> Result<string>) {
    forall c :: c in cats && tr(c).Success? ==> Readable(PluralForm(c, tr(c).value))
  }

  /** OtherForms keeps exactly the contributing categories, in the order of
      the list, each with its own translation. */
  lemma {:induction false} OtherFormsAreFilter(plural: string, cats: seq<string>, has: string -> bool,
                                               tr: string -> Result<string>)
    requires OtherForms(plural, cats, has, tr).Success?
    ensures var forms := OtherForms(plural, cats, has, tr).value;
            && Categories(forms) == Filter(cats, Keeps(plural, has, tr))
            && forall k :: 0 <= k < |forms| ==> tr(forms[k].category) == Success(forms[k].text)
    decreases |cats|
  {
    if |cats| > 0 {
      var c, more := cats[0], cats[1..];
      var keeps := Keeps(plural, has, tr);
      var forms := OtherForms(plural, cats, has, tr).value;
      OtherFormsHead(plural, cats, has, tr);
      var rest := OtherForms(plural, more, has, tr).value;
      OtherFormsAreFilter(plural, more, has, tr);
      if keeps(c) {
        var t := tr(c).value;
        assert forms == [PluralForm(c, t)] + rest;
        assert Filter(cats, keeps) == [c] + Filter(more, keeps);
        assert Categories(forms) == [c] + Categories(rest);
        assert forall k :: 0 < k < |forms| ==> forms[k] == rest[k - 1];
      } else {
        assert forms == rest;
        assert Filter(cats, keeps) == Filter(more, keeps);
      }
    }
  }

  /** A rendered text read back: the Plural translation, then the forms of
      the contributing categories in list order. */
  lemma {:induction false} RenderReadBack(plural: string, cats: seq<string>, has: string -> bool,
                                          tr: string -> Result<string>)
    requires OtherForms(plural, cats, has, tr).Success?
    requires !Contains(plural, "[i2p_") && AllReadable(cats, tr)
    ensures var read := ReadPluralForms(Render(plural, OtherForms(plural, cats, has, tr).value));
            && read.0 == plural
            && Categories(read.1) == Filter(cats, Keeps(plural, has, tr))
            && forall k :: 0 <= k < |read.1| ==> tr(read.1[k].category) == Success(read.1[k].text)
  {
    var forms := OtherForms(plural, cats, has, tr).value;
    OtherFormsAreFilter(plural, cats, has, tr);
    forall k | 0 <= k < |forms|
      ensures Readable(forms[k])
    {
      assert Categories(forms)[k] in Filter(cats, Keeps(plural, has, tr));
    }
    ReadRender(plural, forms);
  }

  /** A rebuilt plural translation starts with the translation for the
      Plural category. Read back, it holds one form for each category before
      Plural that the language has and whose translation is non-empty and
      different, in the order of the categories, each with its own
      translation. The categories are ePluralType's names, so the last one is
      Plural. */
  lemma {:induction false} RebuildPlural(text: string, b: Batch, to: string, rules: LanguageRules)
    requires ValidRules(rules)
    requires Contains(text, "[i2p_")
    ensures var r := RebuildTranslation(text, b, to, rules);
            r.Success? ==>
              && PluralTemplate(text).Success?
              && var template := PluralTemplate(text).value;
                 var param := FirstParam(template);
                 var plural := TranslateFor(template, param, to, b, rules, "Plural");
                 var tr := Translator(template, param, to, b, rules);
                 var before := FormsBefore(rules.categories);
                 && plural.Success? && r.value.Some?
                 && StartsWith(r.value.value, plural.value)
                 && (!Contains(plural.value, "[i2p_") && AllReadable(before, tr) ==>
                       var read := ReadPluralForms(r.value.value);
                       && read.0 == plural.value
                       && Categories(read.1) == Filter(before, Keeps(plural.value, Has(to, rules), tr))
                       && forall k :: 0 <= k < |read.1| ==> tr(read.1[k].category) == Success(read.1[k].text))
  {
    var r := RebuildTranslation(text, b, to, rules);
    if r.Success? {
      var template := PluralTemplate(text).value;
      var param := FirstParam(template);
      var plural := TranslateFor(template, param, to, b, rules, "Plural").value;
      var tr := Translator(template, param, to, b, rules);
      var before := FormsBefore(rules.categories);
      var forms := OtherForms(plural, before, Has(to, rules), tr).value;
      assert r.value.value == Render(plural, forms);
      if !Contains(plural, "[i2p_") && AllReadable(before, tr) {
        RenderReadBack(plural, before, Has(to, rules), tr);
      }
    }
  }

  /** A plural text whose template has no `{[…]}` parameter throws:
      Replace is asked to replace the empty string. */
  lemma {:induction false} RebuildWithoutParam(text: string, b: Batch, to: string, rules: LanguageRules)
    requires Contains(text, "[i2p_") && PluralTemplate(text).Success?
    requires !Contains(PluralTemplate(text).value, "{[")
    ensures RebuildTranslation(text, b, to, rules) == Failure(Argument)
  {
    var template := PluralTemplate(text).value;
    forall p, e | 0 <= p <= |template|
      ensures !AltEndsAt(template, p, Param, e)
    {
      assert !OccursAt(template, "{[", p);
    }
  }
}

=== FILE: placeholders.dfy ===
/**
 * ParseNonTranslatableElements and its inverse: the spans a translation must
 * not touch are swapped for private-use characters 0x2600 + j before the text
 * is sent, and swapped back when the reply arrives.
 */
module Placeholders {
  import opened Wrappers
  import opened Text
  import opened TagScanner

  /** The first placeholder, U+2600, the start of the Miscellaneous Symbols block. */
  const Base: int := 0x2600

  /** Placeholders 0x2600 + j that a Dafny char can hold: the next code unit,
      0xD800, starts the UTF-16 surrogate range. */
  const Capacity: int := 0xD800 - 0x2600

  /** (char)(0x2600 + j). */
  function Placeholder(j: nat): (c: char)
    requires j < Capacity
    ensures c as int == Base + j
  {
    (Base + j) as char
  }

  /** `c` is one of the first `n` placeholders. */
  predicate IsReserved(c: char, n: nat) {
    Base <= c as int < Base + n
  }

  /** `s` holds none of the first `n` placeholders. */
  predicate ReservedFree(s: string, n: nat) {
    forall k :: 0 <= k < |s| ==> !IsReserved(s[k], n)
  }

  /** `t` is a substring of `s`. */
  predicate IsSubstring(t: string, s: string) {
    exists k :: 0 <= k <= |s| && OccursAt(s, t, k)
  }

  /** Every element of `ts` is a span of `s` of at least two characters. */
  predicate SpansOf(ts: seq<string>, s: string) {
    forall j :: 0 <= j < |ts| ==> |ts[j]| >= 2 && IsSubstring(ts[j], s)
  }

  // ---------------------------------------------------------------------
  // Putting the tags back
  // ---------------------------------------------------------------------

  /** Character `c` with placeholders lo..|tags|-1 expanded to their tags. */
  function SubstChar(c: char, tags: seq<string>, lo: nat): string {
    if Base + lo <= c as int < Base + |tags| then tags[c as int - Base] else [c]
  }

  /** Every placeholder j with lo <= j < |tags| expanded, all at once. */
  function SubstFrom(s: string, tags: seq<string>, lo: nat): string
    decreases |s|
  {
    if |s| == 0 then "" else SubstChar(s[0], tags, lo) + SubstFrom(s[1..], tags, lo)
  }

  /** Every placeholder expanded to its tag, all at once: the reference
      meaning of a working text. */
  function Expand(s: string, tags: seq<string>): string {
    SubstFrom(s, tags, 0)
  }

  /** The loop at GoogleTranslation_Post.cs:169-173 from `j` on: placeholder j
      replaced everywhere by tags[j], then j + 1, and so on. */
  function RestoreFrom(s: string, tags: seq<string>, j: nat): string
    requires j <= |tags| <= Capacity
    decreases |tags| - j
  {
    if j == |tags| then s
    else RestoreFrom(Replace(s, [Placeholder(j)], tags[j]), tags, j + 1)
  }

  /** The tag restoration of ParseTranslationResult. */
  function Restore(s: string, tags: seq<string>): string
    requires |tags| <= Capacity
  {
    RestoreFrom(s, tags, 0)
  }

  lemma {:induction false} SubstConcat(a: string, b: string, tags: seq<string>, lo: nat)
    ensures SubstFrom(a + b, tags, lo) == SubstFrom(a, tags, lo) + SubstFrom(b, tags, lo)
    decreases |a|
  {
    if |a| == 0 {
      assert a + b == b;
    } else {
      assert (a + b)[0] == a[0];
      assert (a + b)[1..] == a[1..] + b;
      SubstConcat(a[1..], b, tags, lo);
    }
  }

  /** Text without placeholders expands to itself. */
  lemma {:induction false} SubstOfFree(s: string, tags: seq<string>, lo: nat)
    requires ReservedFree(s, |tags|)
    ensures SubstFrom(s, tags, lo) == s
    decreases |s|
  {
    if |s| > 0 {
      SubstOfFree(s[1..], tags, lo);
    }
  }

  /** One round of the restoration loop does placeholder j's share of the
      simultaneous expansion. */
  lemma {:induction false} RestoreStep(s: string, tags: seq<string>, j: nat)
    requires j < |tags| <= Capacity
    requires ReservedFree(tags[j], |tags|)
    ensures SubstFrom(Replace(s, [Placeholder(j)], tags[j]), tags, j + 1) == SubstFrom(s, tags, j)
    decreases |s|
  {
    if |s| > 0 {
      var p := [Placeholder(j)];
      RestoreStep(s[1..], tags, j);
      if StartsWith(s, p) {
        RestoreHit(s, tags, j);
      } else {
        RestoreMiss(s, tags, j);
      }
    }
  }

  /** RestoreStep where `s` starts with placeholder j. */
  lemma {:induction false} RestoreHit(s: string, tags: seq<string>, j: nat)
    requires j < |tags| <= Capacity && ReservedFree(tags[j], |tags|)
    requires |s| > 0 && StartsWith(s, [Placeholder(j)])
    requires SubstFrom(Replace(s[1..], [Placeholder(j)], tags[j]), tags, j + 1) == SubstFrom(s[1..], tags, j)
    ensures SubstFrom(Replace(s, [Placeholder(j)], tags[j]), tags, j + 1) == SubstFrom(s, tags, j)
  {
    var p := [Placeholder(j)];
    var r := Replace(s[1..], p, tags[j]);
    assert s[0] == Placeholder(j) by {
      assert s[..1] == p;
    }
    assert Replace(s, p, tags[j]) == tags[j] + r by {
      assert s[1..] == s[|p|..];
    }
    assert SubstFrom(s, tags, j) == tags[j] + SubstFrom(s[1..], tags, j) by {
      assert SubstChar(s[0], tags, j) == tags[j];
    }
    assert SubstFrom(tags[j] + r, tags, j + 1) == tags[j] + SubstFrom(r, tags, j + 1) by {
      SubstConcat(tags[j], r, tags, j + 1);
      SubstOfFree(tags[j], tags, j + 1);
    }
  }

  /** RestoreStep where `s` does not start with placeholder j. */
  lemma {:induction false} RestoreMiss(s: string, tags: seq<string>, j: nat)
    requires j < |tags| <= Capacity
    requires |s| > 0 && !StartsWith(s, [Placeholder(j)])
    requires SubstFrom(Replace(s[1..], [Placeholder(j)], tags[j]), tags, j + 1) == SubstFrom(s[1..], tags, j)
    ensures SubstFrom(Replace(s, [Placeholder(j)], tags[j]), tags, j + 1) == SubstFrom(s, tags, j)
  {
    var p, c := [Placeholder(j)], s[0];
    var r := Replace(s[1..], p, tags[j]);
    assert c != Placeholder(j);
    assert Replace(s, p, tags[j]) == [c] + r;
    SubstConcat([c], r, tags, j + 1);
    assert SubstFrom([c], tags, j + 1) == SubstChar(c, tags, j + 1) by {
      assert [c][1..] == [];
    }
    SubstCharSkip(c, tags, j);
    assert SubstFrom(s, tags, j) == SubstChar(c, tags, j) + SubstFrom(s[1..], tags, j);
  }

  /** A character other than placeholder j expands the same with or
      without placeholder j in range. */
  lemma {:induction false} SubstCharSkip(c: char, tags: seq<string>, j: nat)
    requires j < |tags| <= Capacity && c != Placeholder(j)
    ensures SubstChar(c, tags, j + 1) == SubstChar(c, tags, j)
  {
    assert c as int != Base + j;
  }

  /** The one-by-one restoration loop equals the simultaneous expansion
      when no tag itself holds a placeholder. */
  lemma {:induction false} RestoreIsExpand(s: string, tags: seq<string>, j: nat)
    requires j <= |tags| <= Capacity
    requires forall k :: 0 <= k < |tags| ==> ReservedFree(tags[k], |tags|)
    ensures RestoreFrom(s, tags, j) == SubstFrom(s, tags, j)
    decreases |tags| - j
  {
    if j == |tags| {
      SubstOfFree2(s, tags, j);
    } else {
      RestoreStep(s, tags, j);
      RestoreIsExpand(Replace(s, [Placeholder(j)], tags[j]), tags, j + 1);
    }
  }

  /** With no placeholder left in range, expansion is the identity. */
  lemma {:induction false} SubstOfFree2(s: string, tags: seq<string>, lo: nat)
    requires lo >= |tags|
    ensures SubstFrom(s, tags, lo) == s
    decreases |s|
  {
    if |s| > 0 {
      SubstOfFree2(s[1..], tags, lo);
    }
  }

  // ---------------------------------------------------------------------
  // Taking the tags out
  // ---------------------------------------------------------------------

  /** `newTag` is a closing tag for `tag`: '/' followed by a prefix of `tag`. */
  predicate Closes(tag: string, newTag: string) {
    |newTag| > 0 && newTag[0] == '/' && StartsWith(tag, newTag[1..])
  }

  /** FindClosingTag: the first match from `start` on whose capture closes
      `tag`, or -1; reading the first character of an empty capture throws.
      The capture is the text GetCaptureMatch picks (see CaptureIsGroupText). */
  function FindClosingTag(tag: string, ms: seq<Match>, start: nat): (r: Result<int>)
    requires start <= |ms|
    ensures r.Success? ==> r.value == -1 || start <= r.value < |ms|
    ensures r.Success? && r.value >= 0 ==> Closes(tag, ms[r.value].capture)
    ensures r.Success? ==>
              forall k :: start <= k < (if r.value < 0 then |ms| else r.value) ==>
                ms[k].capture != "" && !Closes(tag, ms[k].capture)
    ensures r.Failure? ==>
              r.error == IndexOutOfRange && exists k :: start <= k < |ms| && ms[k].capture == ""
    decreases |ms| - start
  {
    if start == |ms| then Success(-1)
    else
      var newTag := ms[start].capture;
      if |newTag| == 0 then Failure(IndexOutOfRange)
      else if newTag[0] == '/' && StartsWith(tag, newTag[1..]) then Success(start)
      else FindClosingTag(tag, ms, start + 1)
  }

  /** The tags one round of the loop in ParseNonTranslatableElements appends
      for match i. */
  function StepTags(s: string, ms: seq<Match>, i: nat): (r: Result<seq<string>>)
    requires Spans(s, ms) && i < |ms|
    ensures r.Success? ==> |r.value| <= 2
    ensures r.Success? ==> SpansOf(r.value, s)
    ensures r.Failure? ==> r.error == IndexOutOfRange && exists k :: i <= k < |ms| && ms[k].capture == ""
  {
    var m := ms[i];
    var tag := m.capture;
    var close :- FindClosingTag(tag, ms, i);
    if close < 0 then
      var full := Value(s, m);
      assert OccursAt(s, full, m.index);
      if StartsWith(full, "{[") && EndsWith(full, "]}") then Success([full]) else Success([])
    else if tag == "i2nt" then
      var span := s[m.index..ms[close].index + ms[close].length];
      assert OccursAt(s, span, m.index);
      Success([span])
    else
      var opener, closer := Value(s, m), Value(s, ms[close]);
      assert OccursAt(s, opener, m.index) && OccursAt(s, closer, ms[close].index);
      Success([opener, closer])
  }

  /** Each tag in turn replaced, everywhere in `f`, by the next placeholder. */
  function ReplaceTags(f: string, first: nat, ts: seq<string>): string
    requires first + |ts| <= Capacity
    requires forall t :: t in ts ==> |t| > 0
    decreases |ts|
  {
    if |ts| == 0 then f
    else ReplaceTags(Replace(f, ts[0], [Placeholder(first)]), first + 1, ts[1..])
  }

  /** The tags of a sequence of rounds, in order. */
  function Flatten(steps: seq<seq<string>>): seq<string>
    decreases |steps|
  {
    if |steps| == 0 then [] else steps[0] + Flatten(steps[1..])
  }

  /** Every tag of every round is non-empty. */
  predicate AllNonEmpty(steps: seq<seq<string>>) {
    forall k, j :: 0 <= k < |steps| && 0 <= j < |steps[k]| ==> |steps[k][j]| > 0
  }

  /** Every tag of every round is a span of `s`. */
  predicate AllSpans(steps: seq<seq<string>>, s: string) {
    forall k :: 0 <= k < |steps| ==> SpansOf(steps[k], s)
  }

  /** Rounds of at most two tags each hold at most twice as many tags as rounds. */
  lemma {:induction false} FlattenBound(steps: seq<seq<string>>)
    requires forall k :: 0 <= k < |steps| ==> |steps[k]| <= 2
    ensures |Flatten(steps)| <= 2 * |steps|
    decreases |steps|
  {
    if |steps| > 0 {
      assert forall k :: 0 <= k < |steps[1..]| ==> steps[1..][k] == steps[k + 1];
      FlattenBound(steps[1..]);
    }
  }

  /** The round of each match, as StepTags computes it from the original text. */
  function Steps(s: string, ms: seq<Match>): (r: seq<Result<seq<string>>>)
    requires Spans(s, ms)
    ensures |r| == |ms| && forall k :: 0 <= k < |ms| ==> r[k] == StepTags(s, ms, k)
  {
    seq(|ms|, k requires 0 <= k < |ms| => StepTags(s, ms, k))
  }

  /** The tags each round of the loop in ParseNonTranslatableElements takes
      out. What a round takes out depends only on the original text and the
      matches, never on the working text, so the loop is this sequence of
      rounds followed by their replacements (Fold); the first round that
      throws ends the loop with its exception. */
  function Rounds(s: string, ms: seq<Match>): (r: Result<seq<seq<string>>>)
    requires Spans(s, ms)
    ensures r.Success? ==> |r.value| == |ms|
  {
    Sequence(Steps(s, ms))
  }

  /** A successful run takes out at most two tags per match, each a
      non-empty span of the original text. */
  lemma {:induction false} RoundsShape(s: string, ms: seq<Match>)
    requires Spans(s, ms) && Rounds(s, ms).Success?
    ensures var steps := Rounds(s, ms).value;
            |Flatten(steps)| <= 2 * |ms| && AllSpans(steps, s) && AllNonEmpty(steps)
  {
    var steps := Rounds(s, ms).value;
    SequenceSuccess(Steps(s, ms));
    assert forall k :: 0 <= k < |ms| ==> StepTags(s, ms, k) == Success(steps[k]);
    FlattenBound(steps);
  }

  /** A working text and the tags its placeholders stand for. */
  datatype Parsed = Parsed(text: string, tags: seq<string>)

  /** The replacements of a sequence of rounds, applied in turn to the
      working text `f` after the tags found so far. */
  function Fold(f: string, tags: seq<string>, steps: seq<seq<string>>): (r: Parsed)
    requires |tags| + |Flatten(steps)| <= Capacity && AllNonEmpty(steps)
    ensures r.tags == tags + Flatten(steps)
    decreases |steps|
  {
    if |steps| == 0 then Parsed(f, tags)
    else
      var ts, rest := steps[0], steps[1..];
      assert forall t :: t in ts ==> |t| > 0;
      assert AllNonEmpty(rest) by {
        forall k, j | 0 <= k < |rest| && 0 <= j < |rest[k]|
          ensures |rest[k][j]| > 0
        {
          assert rest[k] == steps[k + 1];
        }
      }
      Fold(ReplaceTags(f, |tags|, ts), tags + ts, rest)
  }

  /** The tags of rounds whose tags are all spans of `s` are spans of `s`. */
  lemma {:induction false} FlattenSpans(steps: seq<seq<string>>, s: string)
    requires AllSpans(steps, s)
    ensures SpansOf(Flatten(steps), s)
    decreases |steps|
  {
    if |steps| > 0 {
      assert AllSpans(steps[1..], s) by {
        forall k | 0 <= k < |steps| - 1
          ensures SpansOf(steps[1..][k], s)
        {
          assert steps[1..][k] == steps[k + 1];
        }
      }
      FlattenSpans(steps[1..], s);
      SpansOfConcat(steps[0], Flatten(steps[1..]), s);
    }
  }

  lemma {:induction false} SpansOfConcat(a: seq<string>, b: seq<string>, s: string)
    requires SpansOf(a, s) && SpansOf(b, s)
    ensures SpansOf(a + b, s)
  {
    forall j | 0 <= j < |a + b|
      ensures |(a + b)[j]| >= 2 && IsSubstring((a + b)[j], s)
    {
      if j >= |a| {
        assert (a + b)[j] == b[j - |a|];
      }
    }
  }

  /** ParseNonTranslatableElements on a fresh query (Text == OrigText):
      the working text and the protected spans. */
  function ParseNonTranslatableElements(text: string): (r: Result<Parsed>)
    requires |text| <= Capacity
    ensures r.Success? ==> |r.value.tags| <= |text|
    ensures r.Success? ==> SpansOf(r.value.tags, text)
    ensures r.Failure? ==> r.error == IndexOutOfRange
  {
    var ms := Scan(text);
    if |ms| == 0 then Success(Parsed(text, []))
    else
      RoundsFailIff(text, ms);
      var steps :- Rounds(text, ms);
      RoundsShape(text, ms);
      FlattenSpans(steps, text);
      Success(Fold(text, [], steps))
  }

  // ---------------------------------------------------------------------
  // Properties
  // ---------------------------------------------------------------------

  /** Every placeholder among the first `N` that occurs in `f` is one of the first `n`. */
  predicate PlaceholdersBelow(f: string, n: nat, N: nat) {
    forall k :: 0 <= k < |f| && IsReserved(f[k], N) ==> IsReserved(f[k], n)
  }

  lemma {:induction false} SubstringFree(t: string, s: string, n: nat)
    requires IsSubstring(t, s) && ReservedFree(s, n)
    ensures ReservedFree(t, n)
  {
    var k :| 0 <= k <= |s| && OccursAt(s, t, k);
    assert forall j :: 0 <= j < |t| ==> t[j] == s[k + j];
  }

  lemma {:induction false} SpansOfFree(ts: seq<string>, s: string, n: nat)
    requires SpansOf(ts, s) && ReservedFree(s, n)
    ensures forall j :: 0 <= j < |ts| ==> |ts[j]| > 0 && ReservedFree(ts[j], n)
  {
    forall j | 0 <= j < |ts|
      ensures ReservedFree(ts[j], n)
    {
      SubstringFree(ts[j], s, n);
    }
  }

  /** A further tag changes nothing in a text that does not use its placeholder. */
  lemma {:induction false} ExpandExtend(f: string, tags: seq<string>, t: string, N: nat)
    requires |tags| < N && PlaceholdersBelow(f, |tags|, N)
    ensures Expand(f, tags + [t]) == Expand(f, tags)
    decreases |f|
  {
    if |f| > 0 {
      assert PlaceholdersBelow(f[1..], |tags|, N) by {
        assert forall k :: 0 <= k < |f| - 1 ==> f[1..][k] == f[k + 1];
      }
      ExpandExtend(f[1..], tags, t, N);
      assert IsReserved(f[0], N) ==> IsReserved(f[0], |tags|);
    }
  }

  /** Replacing a placeholder-free tag by the next placeholder keeps the
      expansion, and only that placeholder is new in the result. */
  lemma {:induction false} ReplaceOne(f: string, tags: seq<string>, t: string, N: nat)
    requires |tags| < N <= Capacity && |t| > 0 && ReservedFree(t, N)
    requires PlaceholdersBelow(f, |tags|, N)
    ensures Expand(Replace(f, t, [Placeholder(|tags|)]), tags + [t]) == Expand(f, tags + [t])
    ensures PlaceholdersBelow(Replace(f, t, [Placeholder(|tags|)]), |tags| + 1, N)
    decreases |f|
  {
    if |f| > 0 {
      var p, ts := [Placeholder(|tags|)], tags + [t];
      var d := if StartsWith(f, t) then |t| else 1;
      var rest := f[d..];
      var head := f[..d];
      assert f == head + rest;
      assert PlaceholdersBelow(rest, |tags|, N) by {
        assert forall k :: 0 <= k < |rest| ==> rest[k] == f[k + d];
      }
      ReplaceOne(rest, tags, t, N);
      var r := Replace(rest, t, p);
      if StartsWith(f, t) {
        assert head == t;
        ReplaceHeadTag(f, t, p, ts, rest, r);
      } else {
        assert head == [f[0]];
        ReplaceHeadChar(f, t, p, ts, rest, r);
      }
    }
  }

  /** ReplaceOne where `f` starts with the tag. */
  lemma {:induction false} ReplaceHeadTag(f: string, t: string, p: string, ts: seq<string>, rest: string, r: string)
    requires |t| > 0 && 0 < |ts| <= Capacity && ReservedFree(t, |ts|)
    requires ts[|ts| - 1] == t && |p| == 1 && p[0] == Placeholder(|ts| - 1)
    requires f == t + rest && r == Replace(rest, t, p)
    requires SubstFrom(r, ts, 0) == SubstFrom(rest, ts, 0)
    ensures SubstFrom(Replace(f, t, p), ts, 0) == SubstFrom(f, ts, 0)
  {
    assert StartsWith(f, t) && f[|t|..] == rest;
    assert Replace(f, t, p) == p + r;
    SubstConcat(p, r, ts, 0);
    SubstConcat(t, rest, ts, 0);
    SubstOfFree(t, ts, 0);
  }

  /** ReplaceOne where `f` does not start with the tag. */
  lemma {:induction false} ReplaceHeadChar(f: string, t: string, p: string, ts: seq<string>, rest: string, r: string)
    requires |t| > 0 && |f| > 0 && !StartsWith(f, t) && rest == f[1..] && r == Replace(rest, t, p)
    requires SubstFrom(r, ts, 0) == SubstFrom(rest, ts, 0)
    ensures SubstFrom(Replace(f, t, p), ts, 0) == SubstFrom(f, ts, 0)
  {
    assert f == [f[0]] + rest;
    assert Replace(f, t, p) == [f[0]] + r;
    SubstConcat([f[0]], r, ts, 0);
    SubstConcat([f[0]], rest, ts, 0);
  }

  /** ReplaceTags keeps the expansion of the working text. */
  lemma {:induction false} ReplaceTagsKeepsExpansion(f: string, tags: seq<string>, ts: seq<string>, N: nat)
    requires |tags| + |ts| <= N <= Capacity
    requires forall j :: 0 <= j < |ts| ==> |ts[j]| > 0 && ReservedFree(ts[j], N)
    requires PlaceholdersBelow(f, |tags|, N)
    ensures Expand(ReplaceTags(f, |tags|, ts), tags + ts) == Expand(f, tags)
    ensures PlaceholdersBelow(ReplaceTags(f, |tags|, ts), |tags| + |ts|, N)
    decreases |ts|
  {
    if |ts| == 0 {
      assert tags + ts == tags;
    } else {
      var t, more := ts[0], ts[1..];
      var tags' := tags + [t];
      var f' := Replace(f, t, [Placeholder(|tags|)]);
      assert tags' + more == tags + ts by {
        assert ts == [t] + more;
      }
      assert Expand(f', tags') == Expand(f, tags) && PlaceholdersBelow(f', |tags'|, N) by {
        ReplaceOne(f, tags, t, N);
        ExpandExtend(f, tags, t, N);
      }
      assert forall j :: 0 <= j < |more| ==> |more[j]| > 0 && ReservedFree(more[j], N) by {
        forall j | 0 <= j < |more|
          ensures |more[j]| > 0 && ReservedFree(more[j], N)
        {
          assert more[j] == ts[j + 1];
        }
      }
      ReplaceTagsKeepsExpansion(f', tags', more, N);
      assert ReplaceTags(f, |tags|, ts) == ReplaceTags(f', |tags'|, more);
    }
  }

  /** One round of extraction keeps the expansion of the working text. */
  lemma {:induction false} RoundTripStep(s: string, f: string, tags: seq<string>, ts: seq<string>, N: nat)
    requires |tags| + |ts| <= N <= Capacity && SpansOf(ts, s)
    requires ReservedFree(s, N) && Expand(f, tags) == s && PlaceholdersBelow(f, |tags|, N)
    ensures Expand(ReplaceTags(f, |tags|, ts), tags + ts) == s
    ensures PlaceholdersBelow(ReplaceTags(f, |tags|, ts), |tags + ts|, N)
  {
    SpansOfFree(ts, s, N);
    ReplaceTagsKeepsExpansion(f, tags, ts, N);
  }

  /** Folding rounds whose tags are spans of the original keeps the
      expansion of the working text equal to the original. */
  lemma {:induction false} FoldRoundTrip(s: string, f: string, tags: seq<string>, steps: seq<seq<string>>, N: nat)
    requires forall k :: 0 <= k < |steps| ==> SpansOf(steps[k], s)
    requires AllNonEmpty(steps) && |tags| + |Flatten(steps)| <= N <= Capacity
    requires ReservedFree(s, N) && Expand(f, tags) == s && PlaceholdersBelow(f, |tags|, N)
    ensures Expand(Fold(f, tags, steps).text, Fold(f, tags, steps).tags) == s
    decreases |steps|
  {
    if |steps| > 0 {
      var ts, rest := steps[0], steps[1..];
      assert Flatten(steps) == ts + Flatten(rest);
      RoundTripStep(s, f, tags, ts, N);
      assert forall k :: 0 <= k < |rest| ==> SpansOf(rest[k], s) by {
        forall k | 0 <= k < |rest|
          ensures SpansOf(rest[k], s)
        {
          assert rest[k] == steps[k + 1];
        }
      }
      assert AllNonEmpty(rest) by {
        forall k, j | 0 <= k < |rest| && 0 <= j < |rest[k]|
          ensures |rest[k][j]| > 0
        {
          assert rest[k] == steps[k + 1];
        }
      }
      FoldRoundTrip(s, ReplaceTags(f, |tags|, ts), tags + ts, rest, N);
    }
  }

  /** Placeholder round trip: restoring the tags into the working text gives
      back the original, provided the original held none of the placeholder
      characters in use. */
  lemma {:induction false} ParseRoundTrip(text: string)
    requires |text| <= Capacity
    requires ParseNonTranslatableElements(text).Success?
    requires ReservedFree(text, |ParseNonTranslatableElements(text).value.tags|)
    ensures var p := ParseNonTranslatableElements(text).value;
            Restore(p.text, p.tags) == text
  {
    var p := ParseNonTranslatableElements(text).value;
    var ms := Scan(text);
    if |ms| > 0 {
      var N := |p.tags|;
      SubstOfFree2(text, [], 0);
      var steps := Rounds(text, ms).value;
      RoundsShape(text, ms);
      FoldRoundTrip(text, text, [], steps, N);
      SpansOfFree(p.tags, text, N);
      RestoreIsExpand(p.text, p.tags, 0);
    }
  }

  /** A match with an empty capture makes its own round throw. */
  lemma {:induction false} EmptyCaptureThrows(s: string, ms: seq<Match>, i: nat)
    requires Spans(s, ms) && i < |ms| && ms[i].capture == ""
    ensures StepTags(s, ms, i) == Failure(IndexOutOfRange)
  {
    assert FindClosingTag(ms[i].capture, ms, i) == Failure(IndexOutOfRange);
  }

  /** The rounds throw exactly when one of the matches has an empty
      capture, and what they throw is then an IndexOutOfRangeException. */
  lemma {:induction false} RoundsFailIff(s: string, ms: seq<Match>)
    requires Spans(s, ms)
    ensures Rounds(s, ms).Failure? <==> exists k :: 0 <= k < |ms| && ms[k].capture == ""
    ensures Rounds(s, ms).Failure? ==> Rounds(s, ms).error == IndexOutOfRange
  {
    if exists k :: 0 <= k < |ms| && ms[k].capture == "" {
      EmptyCaptureFails(s, ms);
    }
    if Rounds(s, ms).Failure? {
      FailureHasEmptyCapture(s, ms);
    }
  }

  /** A match with an empty capture makes the rounds throw. */
  lemma {:induction false} EmptyCaptureFails(s: string, ms: seq<Match>)
    requires Spans(s, ms) && exists k :: 0 <= k < |ms| && ms[k].capture == ""
    ensures Rounds(s, ms).Failure?
  {
    var k :| 0 <= k < |ms| && ms[k].capture == "";
    EmptyCaptureThrows(s, ms, k);
    SequenceSuccess(Steps(s, ms));
    assert Steps(s, ms)[k] == StepTags(s, ms, k);
  }

  /** Rounds that throw do so at a round that throws, which needs an empty
      capture, with an IndexOutOfRangeException. */
  lemma {:induction false} FailureHasEmptyCapture(s: string, ms: seq<Match>)
    requires Spans(s, ms) && Rounds(s, ms).Failure?
    ensures exists k :: 0 <= k < |ms| && ms[k].capture == ""
    ensures Rounds(s, ms).error == IndexOutOfRange
  {
    var rs := Steps(s, ms);
    SequenceFirstFailure(rs);
    var k :| 0 <= k < |rs| && rs[k] == Failure(Rounds(s, ms).error) &&
             forall j :: 0 <= j < k ==> rs[j].Success?;
    assert rs[k] == StepTags(s, ms, k);
  }

  /** In a successful run, the round for match j is what StepTags gives
      for match j. */
  lemma {:induction false} RoundIsStep(s: string, ms: seq<Match>, j: nat)
    requires Spans(s, ms) && j < |ms| && Rounds(s, ms).Success?
    ensures StepTags(s, ms, j) == Success(Rounds(s, ms).value[j])
  {
    SequenceSuccess(Steps(s, ms));
  }

  /** Extraction throws exactly when some match has an empty capture
      (`[]`, `<>` or `{[]}`): FindClosingTag reads its first character. */
  lemma {:induction false} ParseFailsIffEmptyCapture(text: string)
    requires |text| <= Capacity
    ensures ParseNonTranslatableElements(text).Failure? <==>
            exists k :: 0 <= k < |Scan(text)| && Scan(text)[k].capture == ""
    ensures ParseNonTranslatableElements(text).Failure? ==>
            ParseNonTranslatableElements(text).error == IndexOutOfRange
  {
    RoundsFailIff(text, Scan(text));
  }

  // The shapes of one extraction round for match i, by what FindClosingTag
  // finds for it.

  /** An unpaired `{[…]}` parameter protects itself. */
  lemma {:induction false} StepUnpairedParam(s: string, ms: seq<Match>, i: nat)
    requires Spans(s, ms) && i < |ms| && IsMatch(s, ms[i])
    requires FindClosingTag(ms[i].capture, ms, i) == Success(-1) && ms[i].alt == Param
    ensures StepTags(s, ms, i) == Success([Value(s, ms[i])])
  {
    ParamShape(s, ms[i]);
  }

  /** Any other unpaired match protects nothing. */
  lemma {:induction false} StepUnpairedOther(s: string, ms: seq<Match>, i: nat)
    requires Spans(s, ms) && i < |ms| && IsMatch(s, ms[i])
    requires FindClosingTag(ms[i].capture, ms, i) == Success(-1) && ms[i].alt != Param
    ensures StepTags(s, ms, i) == Success([])
  {
    ParamShape(s, ms[i]);
  }

  /** A paired `i2nt` tag protects everything from its opener to its closer. */
  lemma {:induction false} StepNoTranslate(s: string, ms: seq<Match>, i: nat, c: nat)
    requires Spans(s, ms) && i < |ms| && ms[i].capture == "i2nt"
    requires FindClosingTag(ms[i].capture, ms, i) == Success(c)
    ensures i < c < |ms|
    ensures StepTags(s, ms, i).Success? && |StepTags(s, ms, i).value| == 1
    ensures var t := StepTags(s, ms, i).value[0];
            OccursAt(s, t, ms[i].index) && StartsWith(t, Value(s, ms[i])) && EndsWith(t, Value(s, ms[c]))
  {
    assert i < c by {
      assert Closes("i2nt", ms[c].capture) && !Closes("i2nt", "i2nt");
    }
    var m, e := ms[i], ms[c];
    assert m.index + m.length <= e.index && e.index + e.length <= |s|;
    assert StepTags(s, ms, i) == Success([s[m.index..e.index + e.length]]);
    SpanShape(s, m, e);
  }

  /** Any other pair protects the opener and the closer. */
  lemma {:induction false} StepPair(s: string, ms: seq<Match>, i: nat, c: nat)
    requires Spans(s, ms) && i < |ms| && ms[i].capture != "i2nt"
    requires FindClosingTag(ms[i].capture, ms, i) == Success(c)
    ensures StepTags(s, ms, i) == Success([Value(s, ms[i]), Value(s, ms[c])])
  {
  }

  /** A match's text has the `{[…]}` form exactly when it is a parameter. */
  lemma {:induction false} ParamShape(s: string, m: Match)
    requires IsMatch(s, m)
    ensures m.index + m.length <= |s|
    ensures StartsWith(Value(s, m), "{[") && EndsWith(Value(s, m), "]}") <==> m.alt == Param
  {
    ValueShape(s, m);
    if m.alt != Param {
      assert Value(s, m)[0] != '{';
    }
  }

  /** The text from the start of one match to the end of a later one begins
      with the first and ends with the second. */
  lemma {:induction false} SpanShape(s: string, m: Match, e: Match)
    requires m.index + m.length <= e.index && e.index + e.length <= |s|
    ensures var t := s[m.index..e.index + e.length];
            OccursAt(s, t, m.index) && StartsWith(t, Value(s, m)) && EndsWith(t, Value(s, e))
  {
    var t := s[m.index..e.index + e.length];
    assert t[..m.length] == Value(s, m);
    assert t[|t| - e.length..] == Value(s, e);
  }
}

=== FILE: queries.dfy ===
/**
 * The translation batch: TranslationQuery records kept in a dictionary keyed
 * by original text. The dictionary is modelled as an association list in
 * insertion order, the order in which a .NET Dictionary without removals
 * enumerates its entries.
 */
module Queries {
  import opened Wrappers
  import opened Text
  import opened Sequences
  import opened Placeholders

  /** TranslationQuery. `results` is None while the Results array is null;
      a null Tags array and an empty one are both the empty sequence. */
  datatype Query = Query(
    origText: string,
    text: string,
    languageCode: string,
    targets: seq<string>,
    results: Option<seq<string>>,
    tags: seq<string>)

  datatype Entry = Entry(key: string, query: Query)

  /** Dictionary<string, TranslationQuery>, in enumeration order. */
  type Batch = seq<Entry>

  function Keys(b: Batch): (ks: seq<string>)
    ensures |ks| == |b| && forall k :: 0 <= k < |b| ==> ks[k] == b[k].key
  {
    seq(|b|, k requires 0 <= k < |b| => b[k].key)
  }

  predicate UniqueKeys(b: Batch) {
    NoDup(Keys(b))
  }

  /** The position of `key` in the dictionary, or -1: ContainsKey and the indexer. */
  function Find(b: Batch, key: string): (r: int)
    ensures -1 <= r < |b|
    ensures r >= 0 ==> b[r].key == key && forall k :: 0 <= k < r ==> b[k].key != key
    ensures r < 0 <==> key !in Keys(b)
  {
    IndexOfElem(Keys(b), key)
  }

  /** dict[key] = q: overwrites the entry in place, or appends a new one. */
  function Put(b: Batch, key: string, q: Query): (r: Batch)
    ensures Find(b, key) >= 0 ==> |r| == |b| && Keys(r) == Keys(b)
    ensures Find(b, key) >= 0 ==> r[Find(b, key)] == Entry(key, q)
    ensures Find(b, key) >= 0 ==> forall k :: 0 <= k < |b| && k != Find(b, key) ==> r[k] == b[k]
    ensures Find(b, key) < 0 ==> r == b + [Entry(key, q)]
  {
    var i := Find(b, key);
    if i >= 0 then
      var r := b[i := Entry(key, q)];
      assert Keys(r) == Keys(b);
      r
    else b + [Entry(key, q)]
  }

  /** FindQueryFromOrigText: the first query whose OrigText is `origText`;
      None stands for default(TranslationQuery), returned when there is none. */
  function FindQueryFromOrigText(origText: string, b: Batch): (r: Option<Query>)
    ensures r.None? <==> forall k :: 0 <= k < |b| ==> b[k].query.origText != origText
    ensures r.Some? ==> exists k :: 0 <= k < |b| && b[k].query == r.value &&
                          r.value.origText == origText &&
                          forall j :: 0 <= j < k ==> b[j].query.origText != origText
    decreases |b|
  {
    if |b| == 0 then None
    else if b[0].query.origText == origText then Some(b[0].query)
    else
      var r := FindQueryFromOrigText(origText, b[1..]);
      if r.Some? then
        var k :| 0 <= k < |b[1..]| && b[1..][k].query == r.value && r.value.origText == origText &&
                 forall j :: 0 <= j < k ==> b[1..][j].query.origText != origText;
        assert b[k + 1].query == r.value;
        r
      else r
  }

  /** Every entry's query records its own key as OrigText: the way AddQuery
      builds entries. */
  predicate OrigTextIsKey(b: Batch) {
    forall k :: 0 <= k < |b| ==> b[k].query.origText == b[k].key
  }

  /** The shape AddQuery maintains: distinct non-empty keys, OrigText equal
      to the key, and at least one target language with no duplicates. */
  predicate WellFormed(b: Batch) {
    && UniqueKeys(b)
    && OrigTextIsKey(b)
    && forall k :: 0 <= k < |b| ==>
         && b[k].key != ""
         && |b[k].query.targets| > 0
         && NoDup(b[k].query.targets)
         && |b[k].query.tags| <= Capacity
  }

  /** In a batch with keys as OrigText, the lookup by OrigText finds the
      entry under that key. */
  lemma {:induction false} FindByOrigText(b: Batch, k: nat)
    requires UniqueKeys(b) && OrigTextIsKey(b) && k < |b|
    ensures FindQueryFromOrigText(b[k].key, b) == Some(b[k].query)
  {
    var r := FindQueryFromOrigText(b[k].key, b);
    assert r.Some?;
    var j :| 0 <= j < |b| && b[j].query == r.value && r.value.origText == b[k].key &&
             forall i :: 0 <= i < j ==> b[i].query.origText != b[k].key;
    assert Keys(b)[j] == Keys(b)[k];
  }

  /** With distinct keys, each key is found at its own position. */
  lemma {:induction false} FindUnique(b: Batch, k: nat)
    requires UniqueKeys(b) && k < |b|
    ensures Find(b, b[k].key) == k
  {
    var i := Find(b, b[k].key);
    assert Keys(b)[i] == Keys(b)[k];
  }

  /** The plural rules of one target language and the language-code mapping,
      which live in GoogleLanguages: `categories` are the names of
      ePluralType in order, the last being "Plural". */
  datatype LanguageRules = LanguageRules(
    categories: seq<string>,
    hasPluralType: (string, string) -> bool,
    testNumber: (string, string) -> int,
    googleCode: string -> string)

  /** The category list ends with Plural, as ePluralType does. */
  predicate ValidRules(rules: LanguageRules) {
    |rules.categories| > 0 && rules.categories[|rules.categories| - 1] == "Plural"
  }
}

=== FILE: query_builder.dfy ===
/**
 * Building a translation batch: AddQuery and CreateQueries of
 * GoogleTranslation, with the plural expansion of texts carrying
 * `[i2p_<Category>]` markers.
 */
module QueryBuilder {
  import opened Wrappers
  import opened Text
  import opened Sequences
  import opened TagScanner
  import opened Placeholders
  import opened Queries

  /** The query AddQuery creates for a new text: OrigText and Text the text,
      one target, no results, then the non-translatable parts taken out. */
  function NewQuery(text: string, from: string, to: string): (r: Result<Query>)
    requires |text| <= Capacity
    ensures r.Success? ==> r.value.origText == text && r.value.languageCode == from
    ensures r.Success? ==> r.value.targets == [to] && r.value.results == None
    ensures r.Success? <==> ParseNonTranslatableElements(text).Success?
    ensures r.Success? ==> |r.value.tags| <= |text|
    ensures r.Failure? ==> r.error == IndexOutOfRange
    ensures r.Success? ==> var p := ParseNonTranslatableElements(text).value;
                           r.value.text == p.text && r.value.tags == p.tags
  {
    var p :- ParseNonTranslatableElements(text);
    Success(Query(text, p.text, from, [to], None, p.tags))
  }

  /** The target list after asking for `to` again: Concat then Distinct,
      only when `to` is not already there. */
  function AddTarget(targets: seq<string>, to: string): (r: seq<string>)
    ensures to in r && forall x :: x in targets ==> x in r
    ensures forall x :: x in r ==> x in targets || x == to
  {
    if IndexOfElem(targets, to) < 0 then Distinct(targets + [to]) else targets
  }

  /** AddQuery. The dictionary is left alone for an empty text; a new text
      gets a fresh query; a known text gets `to` among its targets. */
  function AddQuery(b: Batch, text: string, from: string, to: string): (r: Result<Batch>)
    requires |text| <= Capacity
    ensures r.Failure? ==> text != "" && text !in Keys(b) && r.error == IndexOutOfRange
    ensures r.Success? ==> |b| <= |r.value| <= |b| + 1 && Keys(r.value)[..|b|] == Keys(b)
    ensures r.Success? ==> forall k :: 0 <= k < |b| ==>
              forall x :: x in b[k].query.targets ==> x in r.value[k].query.targets
    ensures r.Success? && text != "" ==> Queued(r.value, text, to)
    ensures text == "" ==> r == Success(b)
    ensures r.Success? ==> forall k :: |b| <= k < |r.value| ==> r.value[k].key == text
  {
    if text == "" then Success(b)
    else
      var i := Find(b, text);
      if i < 0 then
        var q :- NewQuery(text, from, to);
        var r := b + [Entry(text, q)];
        assert r == Put(b, text, q);
        assert r[|b|].key == text && to in r[|b|].query.targets;
        assert Keys(r)[..|b|] == Keys(b);
        Success(r)
      else
        var q := b[i].query;
        var q' := q.(targets := AddTarget(q.targets, to));
        var r := b[i := Entry(text, q')];
        assert r == Put(b, text, q');
        assert r[i].key == text && to in r[i].query.targets;
        assert Keys(r)[..|b|] == Keys(b) by {
          assert Keys(r) == Keys(b);
        }
        Success(r)
  }

  /** Some entry under `text` has `to` among its targets. */
  predicate Queued(b: Batch, text: string, to: string) {
    exists k :: 0 <= k < |b| && b[k].key == text && to in b[k].query.targets
  }

  /** AddQuery on a text the dictionary does not hold: it appends one entry
      whose OrigText is the key, whose source code is `from` and whose only
      target is `to`, and whose working text gives the text back once the
      tags are restored; it throws only when tag extraction does. */
  lemma {:induction false} AddQueryFresh(b: Batch, text: string, from: string, to: string)
    requires |text| <= Capacity && text != "" && text !in Keys(b)
    ensures AddQuery(b, text, from, to).Success? <==> ParseNonTranslatableElements(text).Success?
    ensures AddQuery(b, text, from, to).Success? ==>
              var r := AddQuery(b, text, from, to).value;
              var q := r[|b|].query;
              && r == b + [Entry(text, q)]
              && q.origText == text && q.languageCode == from && q.targets == [to] && q.results == None
              && |q.tags| <= |text|
              && q.text == ParseNonTranslatableElements(text).value.text
              && q.tags == ParseNonTranslatableElements(text).value.tags
              && (ReservedFree(text, |q.tags|) ==> Restore(q.text, q.tags) == text)
  {
    if ParseNonTranslatableElements(text).Success? {
      var p := ParseNonTranslatableElements(text).value;
      if ReservedFree(text, |p.tags|) {
        ParseRoundTrip(text);
      }
    }
  }

  /** AddQuery on a text the dictionary holds: the entry stays where it is,
      `to` is appended to its targets exactly when it is absent, and nothing
      else in the dictionary changes. */
  lemma {:induction false} AddQueryExisting(b: Batch, text: string, from: string, to: string)
    requires |text| <= Capacity && text != "" && text in Keys(b)
    requires NoDup(b[Find(b, text)].query.targets)
    ensures AddQuery(b, text, from, to).Success?
    ensures |AddQuery(b, text, from, to).value| == |b|
    ensures forall k :: 0 <= k < |b| && k != Find(b, text) ==> AddQuery(b, text, from, to).value[k] == b[k]
    ensures var i := Find(b, text);
            var ts := b[i].query.targets;
            AddQuery(b, text, from, to).value[i] ==
              Entry(text, b[i].query.(targets := if to in ts then ts else ts + [to]))
    ensures NoDup(AddQuery(b, text, from, to).value[Find(b, text)].query.targets)
  {
    var i := Find(b, text);
    var q := b[i].query;
    var ts := q.targets;
    var r := AddQuery(b, text, from, to).value;
    assert r == b[i := Entry(text, q.(targets := AddTarget(ts, to)))];
    if to !in ts {
      assert NoDup(ts + [to]);
      DistinctOfNoDup(ts + [to]);
      assert AddTarget(ts, to) == ts + [to];
    } else {
      assert AddTarget(ts, to) == ts;
    }
  }

  /** AddQuery keeps a batch well formed. */
  lemma {:induction false} AddQueryWellFormed(b: Batch, text: string, from: string, to: string)
    requires |text| <= Capacity && WellFormed(b)
    requires AddQuery(b, text, from, to).Success?
    ensures WellFormed(AddQuery(b, text, from, to).value)
  {
    if text != "" {
      if text in Keys(b) {
        var i := Find(b, text);
        AddQueryExisting(b, text, from, to);
        var r := AddQuery(b, text, from, to).value;
        assert r == b[i := r[i]] by {
          assert forall k :: 0 <= k < |b| && k != i ==> r[k] == b[k];
        }
        WellFormedUpdate(b, i, r[i]);
      } else {
        AddQueryFresh(b, text, from, to);
        var r := AddQuery(b, text, from, to).value;
        WellFormedAppend(b, r[|b|]);
      }
    }
  }

  /** A new entry under a fresh non-empty key, built the way AddQuery builds
      one, keeps a batch well formed. */
  lemma {:induction false} WellFormedAppend(b: Batch, e: Entry)
    requires WellFormed(b) && e.key !in Keys(b) && e.key != "" && e.query.origText == e.key
    requires |e.query.targets| > 0 && NoDup(e.query.targets) && |e.query.tags| <= Capacity
    ensures WellFormed(b + [e])
  {
    var r := b + [e];
    assert Keys(r) == Keys(b) + [e.key];
    assert forall k :: 0 <= k < |b| ==> r[k] == b[k];
  }

  /** Replacing an entry by one under the same key, with targets still
      non-empty and distinct, keeps a batch well formed. */
  lemma {:induction false} WellFormedUpdate(b: Batch, i: nat, e: Entry)
    requires WellFormed(b) && i < |b| && e.key == b[i].key && e.query.origText == e.key
    requires |e.query.targets| > 0 && NoDup(e.query.targets) && |e.query.tags| <= Capacity
    ensures WellFormed(b[i := e])
  {
    assert Keys(b[i := e]) == Keys(b);
  }

  // ---------------------------------------------------------------------
  // Plural texts
  // ---------------------------------------------------------------------

  /** The template of a plural text, the part CreateQueries and
      RebuildTranslation expand: the text before the first `[i2p_` marker.
      When the text starts with a marker the code means to skip it, but it
      searches for the next marker from index 0 again, finds the same one,
      and Substring gets a negative length as soon as a ']' was found. */
  function PluralTemplate(text: string): (r: Result<string>)
    requires Contains(text, "[i2p_")
    ensures r.Failure? <==> StartsWith(text, "[i2p_") && Contains(text, "]")
    ensures r.Failure? ==> r.error == ArgumentOutOfRange
    ensures r.Success? ==> StartsWith(text, r.value) && !Contains(r.value, "[i2p_")
    ensures r.Success? ==> r.value == text[..IndexOf(text, "[i2p_")]
  {
    var idx1 := IndexOf(text, "[i2p_");
    if idx1 == 0 then
      var idx0 := IndexOfFrom(text, "]", idx1) + 1;
      var again := IndexOf(text, "[i2p_");
      var end := if again < 0 then |text| else again;
      if end - idx0 < 0 then Failure(ArgumentOutOfRange)
      else
        assert text[idx0..end] == "";
        Success(text[idx0..end])
    else
      var t := text[..idx1];
      assert StartsWith(text, t);
      assert forall k :: 0 <= k <= |t| && OccursAt(t, "[i2p_", k) ==> OccursAt(text, "[i2p_", k) by {
        forall k | 0 <= k <= |t| && OccursAt(t, "[i2p_", k)
          ensures OccursAt(text, "[i2p_", k)
        {
          assert t[k..k + 5] == text[k..k + 5];
        }
      }
      Success(t)
  }

  /** Regex.Replace(s, @"{\[(.*?)\]}", num) from `pos` on: every parameter
      token, found left to right, becomes `num`. */
  function ReplaceParamsFrom(s: string, pos: nat, num: string): string
    requires pos <= |s|
    decreases |s| - pos
  {
    if pos == |s| then ""
    else
      match TryAlt(s, pos, Param)
      case Some(m) => num + ReplaceParamsFrom(s, pos + m.length, num)
      case None => [s[pos]] + ReplaceParamsFrom(s, pos + 1, num)
  }

  function ReplaceParams(s: string, num: string): string {
    ReplaceParamsFrom(s, 0, num)
  }

  /** A text without `{[` has no parameter to replace. */
  lemma {:induction false} ReplaceParamsAbsent(s: string, pos: nat, num: string)
    requires pos <= |s| && forall k :: pos <= k <= |s| ==> !OccursAt(s, "{[", k)
    ensures ReplaceParamsFrom(s, pos, num) == s[pos..]
    decreases |s| - pos
  {
    if pos < |s| {
      assert !OccursAt(s, Opener(Param), pos);
      ReplaceParamsAbsent(s, pos + 1, num);
    }
  }

  /** Regex.Replace works left to right: the text before the leftmost
      parameter is kept, that parameter becomes `num`, and the replacement
      goes on after its end. */
  lemma {:induction false} ReplaceParamsAtFirst(s: string, pos: nat, p: nat, num: string)
    requires IsFirstParamAt(s, pos, p)
    ensures ReplaceParamsFrom(s, pos, num)
            == s[pos..p] + num + ReplaceParamsFrom(s, p + TryAlt(s, p, Param).value.length, num)
    decreases p - pos
  {
    var rest := ReplaceParamsFrom(s, p + TryAlt(s, p, Param).value.length, num);
    if pos == p {
      ReplaceParamsHit(s, pos, num);
      EmptySliceFront(s, p, num, rest, ReplaceParamsFrom(s, pos, num));
    } else {
      FirstParamAtShift(s, pos, p);
      ReplaceParamsMiss(s, pos, num);
      ReplaceParamsAtFirst(s, pos + 1, p, num);
      SliceCons(s, pos, p, num, rest, ReplaceParamsFrom(s, pos, num), ReplaceParamsFrom(s, pos + 1, num));
    }
  }

  /** Before the leftmost parameter, the next position has the same one. */
  lemma {:induction false} FirstParamAtShift(s: string, pos: nat, p: nat)
    requires IsFirstParamAt(s, pos, p) && pos < p
    ensures pos < |s| && TryAlt(s, pos, Param).None? && IsFirstParamAt(s, pos + 1, p)
  {
  }

  /** One step of the replacement at a parameter match. */
  lemma {:induction false} ReplaceParamsHit(s: string, pos: nat, num: string)
    requires pos < |s| && TryAlt(s, pos, Param).Some?
    ensures ReplaceParamsFrom(s, pos, num) == num + ReplaceParamsFrom(s, pos + TryAlt(s, pos, Param).value.length, num)
  {
  }

  /** One step of the replacement where no parameter starts. */
  lemma {:induction false} ReplaceParamsMiss(s: string, pos: nat, num: string)
    requires pos < |s| && TryAlt(s, pos, Param).None?
    ensures ReplaceParamsFrom(s, pos, num) == [s[pos]] + ReplaceParamsFrom(s, pos + 1, num)
  {
  }

  /** An empty slice in front changes nothing. */
  lemma {:induction false} EmptySliceFront(s: string, i: nat, a: string, b: string, x: string)
    requires i <= |s| && x == a + b
    ensures x == s[i..i] + a + b
  {
    assert s[i..i] + a == a;
  }

  /** A slice with its first character split off, in front of a tail. */
  lemma {:induction false} SliceCons(s: string, i: nat, j: nat, a: string, b: string, x: string, y: string)
    requires i < j <= |s|
    requires x == [s[i]] + y && y == s[i + 1..j] + a + b
    ensures x == s[i..j] + a + b
  {
    assert s[i..j] == [s[i]] + s[i + 1..j];
  }

  /** With no parameter match left from `pos` on, the rest of the text is
      kept as it is. */
  lemma {:induction false} ReplaceParamsNone(s: string, pos: nat, num: string)
    requires pos <= |s| && forall q :: pos <= q < |s| ==> TryAlt(s, q, Param).None?
    ensures ReplaceParamsFrom(s, pos, num) == s[pos..]
    decreases |s| - pos
  {
    if pos < |s| {
      assert TryAlt(s, pos, Param).None?;
      ReplaceParamsNone(s, pos + 1, num);
      assert s[pos..] == [s[pos]] + s[pos + 1..];
    }
  }

  /** The categories the target language has. */
  function Has(to: string, rules: LanguageRules): string -> bool {
    c => rules.hasPluralType(to, c)
  }

  /** The text queued for category `c`: the template with its test number. */
  function PluralText(template: string, to: string, rules: LanguageRules, c: string): string {
    ReplaceParams(template, IntToString(rules.testNumber(to, c)))
  }

  /** The texts CreateQueries queues for a plural template: one per category
      in `cats` the target language has, in the order of `cats`, with every
      parameter replaced by that category's test number. */
  function PluralTexts(template: string, to: string, rules: LanguageRules, cats: seq<string>): (r: seq<string>)
    ensures var supported := Filter(cats, Has(to, rules));
            && |r| == |supported|
            && forall k :: 0 <= k < |r| ==> r[k] == PluralText(template, to, rules, supported[k])
    decreases |cats|
  {
    if |cats| == 0 then []
    else
      var rest := PluralTexts(template, to, rules, cats[1..]);
      var c := cats[0];
      if rules.hasPluralType(to, c) then
        assert Filter(cats, Has(to, rules)) == [c] + Filter(cats[1..], Has(to, rules));
        [PluralText(template, to, rules, c)] + rest
      else
        assert Filter(cats, Has(to, rules)) == Filter(cats[1..], Has(to, rules));
        rest
  }

  /** `t` is the text of some category in `cats` that the language has. */
  predicate TextOfSome(template: string, to: string, rules: LanguageRules, cats: seq<string>, t: string) {
    exists c :: c in cats && rules.hasPluralType(to, c) && t == PluralText(template, to, rules, c)
  }

  /** PluralTexts queues the text of every category the language has, and
      nothing else. */
  lemma {:induction false} PluralTextsCover(template: string, to: string, rules: LanguageRules, cats: seq<string>)
    ensures var r := PluralTexts(template, to, rules, cats);
            && |r| <= |cats|
            && (forall k :: 0 <= k < |r| ==> TextOfSome(template, to, rules, cats, r[k]))
            && (forall c :: c in cats && rules.hasPluralType(to, c) ==> PluralText(template, to, rules, c) in r)
  {
    var r := PluralTexts(template, to, rules, cats);
    var supported := Filter(cats, Has(to, rules));
    forall k | 0 <= k < |r|
      ensures TextOfSome(template, to, rules, cats, r[k])
    {
      var c := supported[k];
      assert c in supported;
      assert Has(to, rules)(c) == rules.hasPluralType(to, c);
      assert c in cats && rules.hasPluralType(to, c) && r[k] == PluralText(template, to, rules, c);
    }
    forall c | c in cats && rules.hasPluralType(to, c)
      ensures PluralText(template, to, rules, c) in r
    {
      assert Has(to, rules)(c);
      assert c in supported;
      var k :| 0 <= k < |supported| && supported[k] == c;
      assert r[k] == PluralText(template, to, rules, c);
    }
  }

  /** Every text CreateQueries hands to AddQuery. */
  function QueryTexts(text: string, to: string, rules: LanguageRules): seq<string> {
    if !Contains(text, "[i2p_") then [text]
    else
      match PluralTemplate(text)
      case Success(template) => PluralTexts(template, to, rules, rules.categories)
      case Failure(_) => []
  }

  /** Texts of at most Capacity characters, so every placeholder fits in a char. */
  predicate Fit(texts: seq<string>) {
    forall k :: 0 <= k < |texts| ==> |texts[k]| <= Capacity
  }

  /** AddQuery for each text in turn; the first failure stops the rest. */
  function AddAll(b: Batch, texts: seq<string>, from: string, to: string): (r: Result<Batch>)
    requires Fit(texts)
    ensures r.Success? ==> |b| <= |r.value| && Keys(r.value)[..|b|] == Keys(b)
    ensures r.Success? ==> forall k :: 0 <= k < |b| ==>
              forall x :: x in b[k].query.targets ==> x in r.value[k].query.targets
    ensures r.Success? ==> forall k :: 0 <= k < |texts| && texts[k] != "" ==> Queued(r.value, texts[k], to)
    ensures r.Success? ==> forall k :: |b| <= k < |r.value| ==> r.value[k].key in texts
    decreases |texts|
  {
    if |texts| == 0 then Success(b)
    else
      var b' :- AddQuery(b, texts[0], from, to);
      var r := AddAll(b', texts[1..], from, to);
      if r.Success? then
        AddAllStep(b, b', r.value, texts, to);
        r
      else r
  }

  /** The facts AddAll promises, carried over one AddQuery (b to b') and the
      rest of the texts (b' to r). */
  lemma {:induction false} AddAllStep(b: Batch, b': Batch, r: Batch, texts: seq<string>, to: string)
    requires |texts| > 0
    requires |b| <= |b'| && Keys(b')[..|b|] == Keys(b)
    requires forall k :: 0 <= k < |b| ==> forall x :: x in b[k].query.targets ==> x in b'[k].query.targets
    requires texts[0] != "" ==> Queued(b', texts[0], to)
    requires |b'| <= |r| && Keys(r)[..|b'|] == Keys(b')
    requires forall k :: 0 <= k < |b'| ==> forall x :: x in b'[k].query.targets ==> x in r[k].query.targets
    requires forall k :: 0 <= k < |texts[1..]| && texts[1..][k] != "" ==> Queued(r, texts[1..][k], to)
    requires forall k :: |b| <= k < |b'| ==> b'[k].key == texts[0]
    requires forall k :: |b'| <= k < |r| ==> r[k].key in texts[1..]
    ensures |b| <= |r| && Keys(r)[..|b|] == Keys(b)
    ensures forall k :: 0 <= k < |b| ==> forall x :: x in b[k].query.targets ==> x in r[k].query.targets
    ensures forall k :: 0 <= k < |texts| && texts[k] != "" ==> Queued(r, texts[k], to)
    ensures forall k :: |b| <= k < |r| ==> r[k].key in texts
  {
    QueuedGrows(b', r, texts[0], to);
    forall k | |b| <= k < |r|
      ensures r[k].key in texts
    {
      if k < |b'| {
        assert Keys(r)[..|b'|][k] == Keys(b')[k];
        assert r[k].key == b'[k].key == texts[0];
      } else {
        var x := r[k].key;
        assert x in texts[1..];
        var i :| 0 <= i < |texts[1..]| && texts[1..][i] == x;
        assert texts[i + 1] == x;
      }
    }
    assert Keys(r)[..|b|] == Keys(r)[..|b'|][..|b|];
    forall k | 0 < k < |texts| && texts[k] != ""
      ensures Queued(r, texts[k], to)
    {
      assert texts[k] == texts[1..][k - 1];
    }
  }

  /** A queued text stays queued when keys stay in place and targets only grow. */
  lemma {:induction false} QueuedGrows(b: Batch, r: Batch, text: string, to: string)
    requires text != "" ==> Queued(b, text, to)
    requires |b| <= |r| && Keys(r)[..|b|] == Keys(b)
    requires forall k :: 0 <= k < |b| ==> forall x :: x in b[k].query.targets ==> x in r[k].query.targets
    ensures text != "" ==> Queued(r, text, to)
  {
    if text != "" {
      QueuedGrowsAt(b, r, text, to);
    }
  }

  lemma {:induction false} QueuedGrowsAt(b: Batch, r: Batch, text: string, to: string)
    requires Queued(b, text, to)
    requires |b| <= |r| && Keys(r)[..|b|] == Keys(b)
    requires forall k :: 0 <= k < |b| ==> forall x :: x in b[k].query.targets ==> x in r[k].query.targets
    ensures Queued(r, text, to)
  {
    var k :| 0 <= k < |b| && b[k].key == text && to in b[k].query.targets;
    assert Keys(r)[k] == Keys(b)[k];
  }

  /** CreateQueries. A text without plural markers is one query; a plural
      text queues the template once per plural category of the target
      language, with its parameters replaced by the category's test number. */
  function CreateQueries(b: Batch, text: string, from: string, to: string, rules: LanguageRules): (r: Result<Batch>)
    requires Fit(QueryTexts(text, to, rules))
    ensures r.Success? ==> forall t :: t in QueryTexts(text, to, rules) && t != "" ==> Queued(r.value, t, to)
    ensures r.Success? ==> |b| <= |r.value| && Keys(r.value)[..|b|] == Keys(b)
    ensures r.Success? ==> forall k :: 0 <= k < |b| ==>
              forall x :: x in b[k].query.targets ==> x in r.value[k].query.targets
    ensures r.Success? ==> forall k :: |b| <= k < |r.value| ==> r.value[k].key in QueryTexts(text, to, rules)
  {
    if !Contains(text, "[i2p_") then
      assert QueryTexts(text, to, rules)[0] == text;
      AddQuery(b, text, from, to)
    else
      var template :- PluralTemplate(text);
      AddAll(b, PluralTexts(template, to, rules, rules.categories), from, to)
  }

  /** Without a plural marker CreateQueries is exactly one AddQuery. */
  lemma {:induction false} CreateQueriesPlain(b: Batch, text: string, from: string, to: string, rules: LanguageRules)
    requires !Contains(text, "[i2p_") && |text| <= Capacity
    ensures Fit(QueryTexts(text, to, rules))
    ensures CreateQueries(b, text, from, to, rules) == AddQuery(b, text, from, to)
  {
  }

  /** A plural text starting with its marker throws once a ']' follows. */
  lemma {:induction false} CreateQueriesLeadingMarker(b: Batch, text: string, from: string, to: string, rules: LanguageRules)
    requires StartsWith(text, "[i2p_") && Contains(text, "]")
    ensures Fit(QueryTexts(text, to, rules))
    ensures CreateQueries(b, text, from, to, rules) == Failure(ArgumentOutOfRange)
  {
    assert OccursAt(text, "[i2p_", 0);
  }

  /** Adding several texts keeps a batch well formed. */
  lemma {:induction false} AddAllWellFormed(b: Batch, texts: seq<string>, from: string, to: string)
    requires Fit(texts) && WellFormed(b) && AddAll(b, texts, from, to).Success?
    ensures WellFormed(AddAll(b, texts, from, to).value)
    decreases |texts|
  {
    if |texts| > 0 {
      AddQueryWellFormed(b, texts[0], from, to);
      var b' := AddQuery(b, texts[0], from, to).value;
      assert Fit(texts[1..]);
      AddAllWellFormed(b', texts[1..], from, to);
    }
  }

  /** CreateQueries keeps a batch well formed. */
  lemma {:induction false} CreateQueriesWellFormed(b: Batch, text: string, from: string, to: string, rules: LanguageRules)
    requires Fit(QueryTexts(text, to, rules)) && WellFormed(b)
    requires CreateQueries(b, text, from, to, rules).Success?
    ensures WellFormed(CreateQueries(b, text, from, to, rules).value)
  {
    if !Contains(text, "[i2p_") {
      assert QueryTexts(text, to, rules)[0] == text;
      AddQueryWellFormed(b, text, from, to);
    } else {
      var template := PluralTemplate(text).value;
      var texts := PluralTexts(template, to, rules, rules.categories);
      assert QueryTexts(text, to, rules) == texts;
      assert CreateQueries(b, text, from, to, rules) == AddAll(b, texts, from, to);
      AddAllWellFormed(b, texts, from, to);
    }
  }
}

=== FILE: sequences.dfy ===
/** The array helpers of System.Array and System.Linq the query builder uses. */
module Sequences {

  /** No element appears twice. */
  predicate NoDup<T(==)>(s: seq<T>) {
    forall i, j :: 0 <= i < j < |s| ==> s[i] != s[j]
  }

  /** System.Array.IndexOf: the first index holding `x`, or -1. */
  function IndexOfElem<T(==)>(s: seq<T>, x: T): (r: int)
    ensures -1 <= r < |s|
    ensures r >= 0 ==> s[r] == x && forall k :: 0 <= k < r ==> s[k] != x
    ensures r < 0 <==> x !in s
    decreases |s|
  {
    if |s| == 0 then -1
    else if s[0] == x then 0
    else
      var r := IndexOfElem(s[1..], x);
      if r < 0 then -1 else r + 1
  }

  /** The first index holding `x` is the one IndexOfElem finds. */
  lemma {:induction false} IndexOfElemFirst<T>(s: seq<T>, x: T)
    ensures forall k :: 0 <= k < |s| && s[k] == x && x !in s[..k] ==> IndexOfElem(s, x) == k
  {
  }

  /** Enumerable.Distinct: the first occurrence of each element, in order. */
  function Distinct<T(==,!new)>(s: seq<T>): (r: seq<T>)
    ensures NoDup(r)
    ensures forall x :: x in r <==> x in s
    decreases |s|
  {
    if |s| == 0 then []
    else
      var d := Distinct(s[..|s| - 1]);
      assert forall x :: x in s <==> x in s[..|s| - 1] || x == s[|s| - 1] by {
        assert s == s[..|s| - 1] + [s[|s| - 1]];
      }
      if s[|s| - 1] in d then d else d + [s[|s| - 1]]
  }

  /** Distinct changes nothing in a sequence that has no duplicates. */
  lemma {:induction false} DistinctOfNoDup<T(!new)>(s: seq<T>)
    requires NoDup(s)
    ensures Distinct(s) == s
    decreases |s|
  {
    if |s| > 0 {
      var init := s[..|s| - 1];
      DistinctOfNoDup(init);
      assert s[|s| - 1] !in init;
      assert init + [s[|s| - 1]] == s;
    }
  }

  /** Enumerable.Where: the elements of `s` that satisfy `p`, in order. */
  function Filter<T(!new)>(s: seq<T>, p: T -> bool): (r: seq<T>)
    ensures |r| <= |s|
    ensures forall x :: x in r <==> x in s && p(x)
    decreases |s|
  {
    if |s| == 0 then []
    else
      var rest := Filter(s[1..], p);
      assert forall x :: x in s <==> x == s[0] || x in s[1..];
      if p(s[0]) then [s[0]] + rest else rest
  }

  /** Filtering a sequence without duplicates keeps its order and adds no
      duplicates: an element kept earlier stands earlier in `s`. */
  lemma {:induction false} FilterOrdered<T(!new)>(s: seq<T>, p: T -> bool)
    requires NoDup(s)
    ensures var r := Filter(s, p);
            && NoDup(r)
            && forall i, j :: 0 <= i < j < |r| ==> IndexOfElem(s, r[i]) < IndexOfElem(s, r[j])
    decreases |s|
  {
    if |s| > 0 {
      var r, rest := Filter(s, p), Filter(s[1..], p);
      NoDupTail(s);
      FilterOrdered(s[1..], p);
      forall k | 0 <= k < |rest|
        ensures IndexOfElem(s, rest[k]) == IndexOfElem(s[1..], rest[k]) + 1
      {
        IndexOfElemTail(s, rest[k]);
      }
      if p(s[0]) {
        FilterConsOrdered(s, rest);
      }
    }
  }

  /** The tail of a sequence without duplicates has none either, and does
      not hold the head. */
  lemma {:induction false} NoDupTail<T>(s: seq<T>)
    requires NoDup(s) && |s| > 0
    ensures NoDup(s[1..]) && s[0] !in s[1..]
  {
    forall i, j | 0 <= i < j < |s| - 1
      ensures s[1..][i] != s[1..][j]
    {
      assert s[1..][i] == s[i + 1] && s[1..][j] == s[j + 1];
    }
    forall k | 0 <= k < |s| - 1
      ensures s[1..][k] != s[0]
    {
      assert s[1..][k] == s[k + 1];
    }
  }

  /** An element of the tail other than the head stands one place further
      in the whole sequence. */
  lemma {:induction false} IndexOfElemTail<T>(s: seq<T>, x: T)
    requires |s| > 0 && x in s[1..] && x != s[0]
    ensures IndexOfElem(s, x) == IndexOfElem(s[1..], x) + 1
  {
  }

  /** The head in front of an ordered selection of the tail. */
  lemma {:induction false} FilterConsOrdered<T>(s: seq<T>, rest: seq<T>)
    requires |s| > 0 && NoDup(rest) && s[0] !in rest
    requires forall x :: x in rest ==> x in s[1..]
    requires forall k :: 0 <= k < |rest| ==> IndexOfElem(s, rest[k]) == IndexOfElem(s[1..], rest[k]) + 1
    requires forall i, j :: 0 <= i < j < |rest| ==> IndexOfElem(s[1..], rest[i]) < IndexOfElem(s[1..], rest[j])
    ensures var r := [s[0]] + rest;
            && NoDup(r)
            && forall i, j :: 0 <= i < j < |r| ==> IndexOfElem(s, r[i]) < IndexOfElem(s, r[j])
  {
    var r := [s[0]] + rest;
    forall i, j | 0 <= i < j < |r|
      ensures r[i] != r[j] && IndexOfElem(s, r[i]) < IndexOfElem(s, r[j])
    {
      assert r[j] == rest[j - 1];
      assert rest[j - 1] in rest;
      if i > 0 {
        assert r[i] == rest[i - 1];
      }
    }
  }
}

=== FILE: tag_scanner.dfy ===
/**
 * The .NET regular expression `\{\[(.*?)]}|\[(.*?)]|\<(.*?)>` that finds
 * parameters and tags, written out as a scanner: left to right, the three
 * alternatives tried in order at each position, each lazy `.*?` stopping at
 * the first terminator and never crossing a '\n', matches never overlapping.
 */
module TagScanner {
  import opened Wrappers
  import opened Text

  /** Which alternative matched: `{[…]}` (group 1), `[…]` (group 2) or `<…>` (group 3). */
  datatype Alternative = Param | Bracket | Angle

  /** One match: where it starts, its length, its alternative and the text its group captured. */
  datatype Match = Match(index: nat, length: nat, alt: Alternative, capture: string)

  function Opener(a: Alternative): string {
    match a
    case Param => "{["
    case Bracket => "["
    case Angle => "<"
  }

  function Closer(a: Alternative): string {
    match a
    case Param => "]}"
    case Bracket => "]"
    case Angle => ">"
  }

  /** `.` matches every character except '\n'. */
  predicate NoNewline(s: string, from: int, to: int)
    requires 0 <= from <= to <= |s|
  {
    forall k :: from <= k < to ==> s[k] != '\n'
  }

  /** The lazy `(.*?)` followed by `close`: the first position at or after
      `from` where `close` occurs, unless a '\n' comes first. */
  function LazyEnd(s: string, from: nat, close: string): (r: Option<nat>)
    requires from <= |s|
    ensures r.Some? ==>
              && from <= r.value <= |s|
              && OccursAt(s, close, r.value)
              && NoNewline(s, from, r.value)
              && forall k :: from <= k < r.value ==> !OccursAt(s, close, k)
    ensures r.None? ==>
              forall k :: from <= k <= |s| && NoNewline(s, from, k) ==> !OccursAt(s, close, k)
    decreases |s| - from
  {
    if OccursAt(s, close, from) then Some(from)
    else if from == |s| || s[from] == '\n' then None
    else LazyEnd(s, from + 1, close)
  }

  /** Alternative `a` matches at `pos` with its capture ending at `e`: the
      opener at `pos`, the closer at `e`, no newline and no earlier closer between. */
  predicate AltEndsAt(s: string, pos: nat, a: Alternative, e: nat) {
    && OccursAt(s, Opener(a), pos)
    && pos + |Opener(a)| <= e <= |s|
    && OccursAt(s, Closer(a), e)
    && NoNewline(s, pos + |Opener(a)|, e)
    && forall k :: pos + |Opener(a)| <= k < e ==> !OccursAt(s, Closer(a), k)
  }

  /** The capture of a lazy match ends at one place only. */
  lemma {:induction false} AltEndUnique(s: string, pos: nat, a: Alternative, e1: nat, e2: nat)
    requires AltEndsAt(s, pos, a, e1) && AltEndsAt(s, pos, a, e2)
    ensures e1 == e2
  {
  }

  /** `m` is a match of its alternative in `s`. */
  predicate IsMatch(s: string, m: Match) {
    var e := m.index + m.length - |Closer(m.alt)|;
    && m.index + |Opener(m.alt)| <= e
    && AltEndsAt(s, m.index, m.alt, e)
    && m.capture == s[m.index + |Opener(m.alt)|..e]
  }

  /** The matched text, Match.ToString(). */
  function Value(s: string, m: Match): string
    requires m.index + m.length <= |s|
  {
    s[m.index..m.index + m.length]
  }

  /** A match's text is its opener, its capture and its closer. */
  lemma {:induction false} ValueShape(s: string, m: Match)
    requires IsMatch(s, m)
    ensures m.index + m.length <= |s|
    ensures Value(s, m) == Opener(m.alt) + m.capture + Closer(m.alt)
  {
    var b, e := m.index + |Opener(m.alt)|, m.index + m.length - |Closer(m.alt)|;
    assert s[m.index..b] == Opener(m.alt);
    assert s[e..e + |Closer(m.alt)|] == Closer(m.alt);
    assert Value(s, m) == s[m.index..b] + s[b..e] + s[e..m.index + m.length];
  }

  /** Tries one alternative at `pos`. */
  function TryAlt(s: string, pos: nat, a: Alternative): (r: Option<Match>)
    ensures r.Some? ==> r.value.index == pos && r.value.alt == a && IsMatch(s, r.value)
    ensures r.Some? ==> |Opener(a)| + |Closer(a)| <= r.value.length && pos + r.value.length <= |s|
    ensures r.None? ==> forall e :: !AltEndsAt(s, pos, a, e)
  {
    if !OccursAt(s, Opener(a), pos) then None
    else
      match LazyEnd(s, pos + |Opener(a)|, Closer(a))
      case None => None
      case Some(e) => Some(Match(pos, e + |Closer(a)| - pos, a, s[pos + |Opener(a)|..e]))
  }

  /** The leftmost `{[…]}` match from `pos` on starts at `p`. */
  predicate IsFirstParamAt(s: string, pos: nat, p: nat) {
    pos <= p < |s| && TryAlt(s, p, Param).Some? && forall q :: pos <= q < p ==> TryAlt(s, q, Param).None?
  }

  /** The regex at one position: the first alternative that matches, in order. */
  function MatchAt(s: string, pos: nat): (r: Option<Match>)
    ensures r.Some? ==> r.value.index == pos && IsMatch(s, r.value) && r.value.length >= 2
    ensures r.Some? ==> pos + r.value.length <= |s|
    ensures r.Some? && r.value.alt != Param ==> forall e :: !AltEndsAt(s, pos, Param, e)
    ensures r.Some? && r.value.alt == Angle ==> forall e :: !AltEndsAt(s, pos, Bracket, e)
    ensures r.None? ==> forall a, e :: !AltEndsAt(s, pos, a, e)
  {
    var p := TryAlt(s, pos, Param);
    if p.Some? then p
    else
      var b := TryAlt(s, pos, Bracket);
      if b.Some? then b else TryAlt(s, pos, Angle)
  }

  /** Matches are at least two characters long, lie inside the text, and come
      in order without overlapping. */
  predicate Spans(s: string, ms: seq<Match>) {
    && (forall i :: 0 <= i < |ms| ==> 2 <= ms[i].length && ms[i].index + ms[i].length <= |s|)
    && (forall i, j :: 0 <= i < j < |ms| ==> ms[i].index + ms[i].length <= ms[j].index)
  }

  /** Every element is a match of the pattern, and they come in order without overlap. */
  predicate WellScanned(s: string, ms: seq<Match>) {
    Spans(s, ms) && forall i :: 0 <= i < |ms| ==> IsMatch(s, ms[i])
  }

  /** A per-position matcher over a text of length `n`: a match it yields
      starts where it was asked, is at least two characters long and ends
      inside the text. */
  ghost predicate Advances(n: nat, at: nat -> Option<Match>) {
    forall p: nat :: at(p).Some? ==> at(p).value.index == p && at(p).value.length >= 2 && p + at(p).value.length <= n
  }

  /** The loop of Regex.Matches: where the matcher yields a match, take it
      and resume at its end; elsewhere step one character. */
  function ScanFrom(n: nat, pos: nat, at: nat -> Option<Match>): (ms: seq<Match>)
    requires pos <= n && Advances(n, at)
    ensures forall i :: 0 <= i < |ms| ==> pos <= ms[i].index && 2 <= ms[i].length && ms[i].index + ms[i].length <= n
    ensures forall i, j :: 0 <= i < j < |ms| ==> ms[i].index + ms[i].length <= ms[j].index
    ensures 2 * |ms| <= n - pos
    decreases n - pos
  {
    if pos == n then []
    else
      match at(pos)
      case Some(m) => [m] + ScanFrom(n, pos + m.length, at)
      case None => ScanFrom(n, pos + 1, at)
  }

  /** Position `p` lies inside one of the matches. */
  predicate Covered(ms: seq<Match>, p: int) {
    exists i :: 0 <= i < |ms| && ms[i].index <= p < ms[i].index + ms[i].length
  }

  /** A match found later is still a match of the longer list. */
  lemma {:induction false} CoveredCons(m: Match, rest: seq<Match>, p: int)
    requires Covered(rest, p)
    ensures Covered([m] + rest, p)
  {
    var i :| 0 <= i < |rest| && rest[i].index <= p < rest[i].index + rest[i].length;
    assert ([m] + rest)[i + 1] == rest[i];
  }

  /** The scan misses nothing: wherever the matcher yields a match, a match
      of the scan covers that position. */
  lemma {:induction false} ScanFromIsLeftmost(n: nat, pos: nat, at: nat -> Option<Match>, p: nat)
    requires pos <= p < n && Advances(n, at) && at(p).Some?
    ensures Covered(ScanFrom(n, pos, at), p)
    decreases n - pos
  {
    match at(pos)
    case Some(m) =>
      var rest := ScanFrom(n, pos + m.length, at);
      assert ScanFrom(n, pos, at) == [m] + rest;
      if p < pos + m.length {
        assert ([m] + rest)[0] == m;
      } else {
        ScanFromIsLeftmost(n, pos + m.length, at, p);
        CoveredCons(m, rest, p);
      }
    case None =>
      ScanFromIsLeftmost(n, pos + 1, at, p);
  }

  /** Every element of the scan is what the matcher yields at its position. */
  lemma {:induction false} ScanFromFound(n: nat, pos: nat, at: nat -> Option<Match>)
    requires pos <= n && Advances(n, at)
    ensures forall i :: 0 <= i < |ScanFrom(n, pos, at)| ==>
              at(ScanFrom(n, pos, at)[i].index) == Some(ScanFrom(n, pos, at)[i])
    decreases n - pos
  {
    if pos < n {
      match at(pos)
      case Some(m) =>
        ScanFromFound(n, pos + m.length, at);
        var rest := ScanFrom(n, pos + m.length, at);
        assert ScanFrom(n, pos, at) == [m] + rest;
        assert forall i :: 0 < i < |rest| + 1 ==> ([m] + rest)[i] == rest[i - 1];
      case None =>
        ScanFromFound(n, pos + 1, at);
    }
  }

  /** The regex is a matcher the scan loop accepts. */
  lemma {:induction false} RegexAdvances(s: string)
    ensures Advances(|s|, (p: nat) => MatchAt(s, p))
  {
    forall p: nat | MatchAt(s, p).Some?
      ensures MatchAt(s, p).value.index == p && MatchAt(s, p).value.length >= 2
      ensures p + MatchAt(s, p).value.length <= |s|
    {
    }
  }

  /** Regex.Matches(s, pattern): every match, left to right. */
  function Scan(s: string): (ms: seq<Match>)
    ensures Spans(s, ms)
    ensures 2 * |ms| <= |s|
  {
    RegexAdvances(s);
    ScanFrom(|s|, 0, (p: nat) => MatchAt(s, p))
  }

  /** Every element of the scan is the regex's match at its own position. */
  lemma {:induction false} ScanWellScanned(s: string)
    ensures WellScanned(s, Scan(s))
    ensures forall i :: 0 <= i < |Scan(s)| ==> MatchAt(s, Scan(s)[i].index) == Some(Scan(s)[i])
  {
    RegexAdvances(s);
    ScanFromFound(|s|, 0, (p: nat) => MatchAt(s, p));
  }

  /** Wherever the regex matches, the scan has a match covering that
      position: no match is missed, and the matches found are leftmost. */
  lemma {:induction false} ScanIsLeftmost(s: string, p: nat)
    requires p < |s| && MatchAt(s, p).Some?
    ensures Covered(Scan(s), p)
  {
    RegexAdvances(s);
    ScanFromIsLeftmost(|s|, 0, (q: nat) => MatchAt(s, q), p);
  }

  /** The success flag and text of one group of a match. */
  datatype Group = Group(success: bool, value: string)

  /** Match.Groups: group 0 is the whole match; group k (1..3) succeeded
      exactly when alternative k matched. */
  function Groups(s: string, m: Match): seq<Group>
    requires m.index + m.length <= |s|
  {
    [ Group(true, Value(s, m)),
      Group(m.alt == Param, if m.alt == Param then m.capture else ""),
      Group(m.alt == Bracket, if m.alt == Bracket then m.capture else ""),
      Group(m.alt == Angle, if m.alt == Angle then m.capture else "") ]
  }

  /** The loop of GetCaptureMatch over groups n-1 down to 0. */
  function CaptureBelow(groups: seq<Group>, n: nat, whole: string): (r: string)
    requires n <= |groups|
    ensures (forall i :: 0 <= i < n ==> !groups[i].success) ==> r == whole
    ensures forall i :: 0 <= i < n && groups[i].success && (forall j :: i < j < n ==> !groups[j].success)
                        ==> r == groups[i].value
    decreases n
  {
    if n == 0 then whole
    else if groups[n - 1].success then groups[n - 1].value
    else CaptureBelow(groups, n - 1, whole)
  }

  /** GetCaptureMatch: the text of the highest-numbered group that succeeded,
      or the whole match when none did. */
  function GetCaptureMatch(groups: seq<Group>, whole: string): string {
    CaptureBelow(groups, |groups|, whole)
  }

  /** What GetCaptureMatch returns for a match the scanner found. */
  function Capture(s: string, m: Match): string
    requires m.index + m.length <= |s|
  {
    GetCaptureMatch(Groups(s, m), Value(s, m))
  }

  /** The capture GetCaptureMatch reports is the lazy group's text. */
  lemma {:induction false} CaptureIsGroupText(s: string, m: Match)
    requires m.index + m.length <= |s|
    ensures Capture(s, m) == m.capture
  {
    var gs := Groups(s, m);
    var k := match m.alt case Param => 1 case Bracket => 2 case Angle => 3;
    assert gs[k].success && forall j :: k < j < |gs| ==> !gs[j].success;
  }
}

=== FILE: terms.dfy ===
/**
 * TermData and LanguageData (TermData.cs): a term's translations, one slot
 * per language in a normal and a touch-device array, with per-language flag
 * bytes; and a language's enabled/loaded flags. The arrays are sequences,
 * a null string is None, and indexing past an array's end is a Failure.
 */
module Terms {
  import opened Wrappers
  import opened Text

  /** The serialized fields of TermData that its methods read and write. */
  datatype TermData = TermData(
    term: string,
    description: string,
    languages: seq<Option<string>>,
    languagesTouch: seq<Option<string>>,
    flags: seq<bv8>)

  /** TranslationFlag. */
  const AutoTranslatedNormal: bv8 := 1
  const AutoTranslatedTouch: bv8 := 2
  const AutoTranslatedAll: bv8 := 255

  /** string.IsNullOrEmpty. */
  predicate IsNullOrEmpty(s: Option<string>) {
    s.None? || s.value == ""
  }

  /** The array a platform prefers: the touch translations on a touch
      device (IsTouchType, a build-time constant, is a parameter). */
  function Preferred(td: TermData, isTouch: bool): seq<Option<string>> {
    if isTouch then td.languagesTouch else td.languages
  }

  function Fallback(td: TermData, isTouch: bool): seq<Option<string>> {
    if isTouch then td.languages else td.languagesTouch
  }

  /** Every `[i2nt]` removed, then every `[/i2nt]`; null stays null. */
  function StripNoTranslate(text: Option<string>): (r: Option<string>)
    ensures r.None? <==> text.None?
  {
    match text
    case None => None
    case Some(s) => Some(Replace(Replace(s, "[i2nt]", ""), "[/i2nt]", ""))
  }

  /** TermData.GetTranslation: the preferred array's entry unless it is
      null or empty, else the other array's entry, with the no-translate
      markers stripped. */
  function GetTranslation(td: TermData, idx: int, isTouch: bool): (r: Result<Option<string>>)
    ensures var first, second := Preferred(td, isTouch), Fallback(td, isTouch);
            && (r.Failure? <==> !(0 <= idx < |first|) || (IsNullOrEmpty(first[idx]) && idx >= |second|))
            && (r.Failure? ==> r.error == IndexOutOfRange)
            && (0 <= idx < |first| && !IsNullOrEmpty(first[idx]) ==> r == Success(StripNoTranslate(first[idx])))
            && (0 <= idx < |first| && IsNullOrEmpty(first[idx]) && idx < |second| ==>
                  r == Success(StripNoTranslate(second[idx])))
  {
    var first, second := Preferred(td, isTouch), Fallback(td, isTouch);
    if idx < 0 || idx >= |first| then Failure(IndexOutOfRange)
    else if !IsNullOrEmpty(first[idx]) then Success(StripNoTranslate(first[idx]))
    else if idx >= |second| then Failure(IndexOutOfRange)
    else Success(StripNoTranslate(second[idx]))
  }

  /** A text without markers is returned as it is. */
  lemma {:induction false} StripWithoutMarkers(s: string)
    requires !Contains(s, "[i2nt]") && !Contains(s, "[/i2nt]")
    ensures StripNoTranslate(Some(s)) == Some(s)
  {
    ReplaceAbsent(s, "[i2nt]", "");
    ReplaceAbsent(s, "[/i2nt]", "");
  }

  /** A text wrapped whole in `[i2nt]…[/i2nt]` comes back unwrapped. */
  lemma {:induction false} StripWrapped(t: string)
    requires !Contains(t, "[i2nt]") && !Contains(t, "[/i2nt]")
    ensures StripNoTranslate(Some("[i2nt]" + t + "[/i2nt]")) == Some(t)
  {
    var p, q := "[i2nt]", "[/i2nt]";
    assert HeadUnique(p) && HeadUnique(q);
    assert !Contains(q, p) by {
      forall k | 0 <= k <= |q|
        ensures !OccursAt(q, p, k)
      {
        if k + |p| <= |q| {
          assert q[k..k + |p|] != p by {
            if k == 0 {
              assert q[1] != p[1];
            } else {
              assert q[k] != p[0];
            }
          }
        }
      }
    }
    ContainsAppendHead(t, q, p);
    assert p + t + q == p + (t + q);
    ReplaceLeading(p, t + q);
    ReplaceTrailing(t, q);
  }

  /** TermData.SetTranslation: the preferred array's slot is overwritten. */
  function SetTranslation(td: TermData, idx: int, isTouch: bool, translation: Option<string>): (r: Result<TermData>)
    ensures r.Failure? <==> !(0 <= idx < |Preferred(td, isTouch)|)
    ensures r.Failure? ==> r.error == IndexOutOfRange
    ensures r.Success? ==>
              && Preferred(r.value, isTouch) == Preferred(td, isTouch)[idx := translation]
              && Fallback(r.value, isTouch) == Fallback(td, isTouch)
              && r.value.flags == td.flags && r.value.term == td.term && r.value.description == td.description
  {
    if idx < 0 || idx >= |Preferred(td, isTouch)| then Failure(IndexOutOfRange)
    else if isTouch then Success(td.(languagesTouch := td.languagesTouch[idx := translation]))
    else Success(td.(languages := td.languages[idx := translation]))
  }

  /** A non-empty translation just set is what the same platform reads
      back, stripped of markers. */
  lemma {:induction false} SetThenGet(td: TermData, idx: int, isTouch: bool, t: string)
    requires SetTranslation(td, idx, isTouch, Some(t)).Success? && t != ""
    ensures GetTranslation(SetTranslation(td, idx, isTouch, Some(t)).value, idx, isTouch)
            == Success(StripNoTranslate(Some(t)))
  {
  }

  /** Setting one slot changes what no other slot reads. */
  lemma {:induction false} SetKeepsOthers(td: TermData, idx: int, isTouch: bool, translation: Option<string>, j: int, onTouch: bool)
    requires SetTranslation(td, idx, isTouch, translation).Success? && j != idx
    ensures GetTranslation(SetTranslation(td, idx, isTouch, translation).value, j, onTouch)
            == GetTranslation(td, j, onTouch)
  {
  }

  /** TermData.IsAutoTranslated: bit 2 of the language's flags for touch,
      bit 1 otherwise. */
  function IsAutoTranslated(td: TermData, idx: int, isTouch: bool): (r: Result<bool>)
    ensures r.Failure? <==> !(0 <= idx < |td.flags|)
    ensures r.Failure? ==> r.error == IndexOutOfRange
    ensures r.Success? ==> r.value == (((td.flags[idx] as int) / (if isTouch then 2 else 1)) % 2 == 1)
  {
    if idx < 0 || idx >= |td.flags| then Failure(IndexOutOfRange)
    else
      FlagBits(td.flags[idx]);
      if isTouch then Success(td.flags[idx] & AutoTranslatedTouch > 0)
      else Success(td.flags[idx] & AutoTranslatedNormal > 0)
  }

  /** The masks of the two auto-translated flags test the byte's lowest
      and second-lowest bits. */
  lemma {:induction false} FlagBits(x: bv8)
    ensures (x & AutoTranslatedNormal > 0) == ((x as int) % 2 == 1)
    ensures (x & AutoTranslatedTouch > 0) == (((x as int) / 2) % 2 == 1)
  {
    LowBit(x);
    LowBit(x >> 1);
    HalveByte(x);
    assert (x & 2 > 0) == ((x >> 1) & 1 > 0);
  }

  /** The lowest bit of a byte is its parity. */
  lemma {:induction false} LowBit(x: bv8)
    ensures (x & 1 > 0) == ((x as int) % 2 == 1)
  {
  }

  /** A shift right by one halves a byte. */
  lemma {:induction false} HalveByte(x: bv8)
    ensures ((x >> 1) as int) == (x as int) / 2
  {
  }

  /** The two auto-translated bits read independently: AutoTranslated_All
      marks both, a clear byte neither, and each single flag only its own
      platform. */
  lemma {:induction false} AutoTranslatedBits(td: TermData, idx: nat)
    requires idx < |td.flags|
    ensures td.flags[idx] == AutoTranslatedAll ==>
              IsAutoTranslated(td, idx, true) == Success(true) && IsAutoTranslated(td, idx, false) == Success(true)
    ensures td.flags[idx] == 0 ==>
              IsAutoTranslated(td, idx, true) == Success(false) && IsAutoTranslated(td, idx, false) == Success(false)
    ensures td.flags[idx] == AutoTranslatedNormal ==>
              IsAutoTranslated(td, idx, true) == Success(false) && IsAutoTranslated(td, idx, false) == Success(true)
    ensures td.flags[idx] == AutoTranslatedTouch ==>
              IsAutoTranslated(td, idx, true) == Success(true) && IsAutoTranslated(td, idx, false) == Success(false)
  {
  }

  /** Slot i holds two different non-empty translations. */
  predicate Diverges(td: TermData, i: int)
    requires 0 <= i < |td.languagesTouch| && i < |td.languages|
  {
    !IsNullOrEmpty(td.languagesTouch[i]) && !IsNullOrEmpty(td.languages[i])
    && td.languagesTouch[i] != td.languages[i]
  }

  /** The loop of HasTouchTranslations from position i on. The normal
      array is read only at a slot whose touch entry is non-empty, and
      reading it past its end throws. */
  function HasTouchFrom(td: TermData, i: nat): (r: Result<bool>)
    requires i <= |td.languagesTouch|
    ensures r == Success(true) ==>
              exists k :: i <= k < |td.languagesTouch| && k < |td.languages| && Diverges(td, k)
    ensures r == Success(false) ==>
              forall k :: i <= k < |td.languagesTouch| ==>
                IsNullOrEmpty(td.languagesTouch[k]) || (k < |td.languages| && !Diverges(td, k))
    ensures r.Failure? ==> (r.error == IndexOutOfRange &&
              exists k :: i <= k < |td.languagesTouch| && |td.languages| <= k && !IsNullOrEmpty(td.languagesTouch[k]))
    ensures (exists k :: i <= k < |td.languagesTouch| && k < |td.languages| && Diverges(td, k)) ==> r == Success(true)
    decreases |td.languagesTouch| - i
  {
    if i == |td.languagesTouch| then Success(false)
    else if IsNullOrEmpty(td.languagesTouch[i]) then HasTouchFrom(td, i + 1)
    else if i >= |td.languages| then Failure(IndexOutOfRange)
    else if Diverges(td, i) then Success(true)
    else HasTouchFrom(td, i + 1)
  }

  /** TermData.HasTouchTranslations. */
  function HasTouchTranslations(td: TermData): (r: Result<bool>)
    ensures r.Failure? ==> r.error == IndexOutOfRange && |td.languages| < |td.languagesTouch|
    ensures (exists k :: 0 <= k < |td.languagesTouch| && k < |td.languages| && Diverges(td, k)) ==> r == Success(true)
  {
    HasTouchFrom(td, 0)
  }

  /** With a normal array at least as long as the touch one, the loop
      cannot throw, and it finds a touch translation exactly when some slot
      holds two different non-empty translations. */
  lemma {:induction false} HasTouchIff(td: TermData)
    requires |td.languagesTouch| <= |td.languages|
    ensures HasTouchTranslations(td).Success?
    ensures HasTouchTranslations(td).value <==> exists k :: 0 <= k < |td.languagesTouch| && Diverges(td, k)
  {
    var r := HasTouchTranslations(td);
    if r.Success? && !r.value {
      forall k | 0 <= k < |td.languagesTouch|
        ensures !Diverges(td, k)
      {
      }
    }
  }

  // ---------------------------------------------------------------------
  // Validate
  // ---------------------------------------------------------------------

  /** Array.Resize to a length at least the current one: the old elements,
      then `fill` (null or 0). */
  function Grow<T>(s: seq<T>, n: nat, fill: T): (r: seq<T>)
    requires |s| <= n
    ensures |r| == n && r[..|s|] == s
    ensures forall k :: |s| <= k < n ==> r[k] == fill
  {
    s + seq(n - |s|, _ => fill)
  }

  function Max(a: nat, b: nat): nat {
    if a < b then b else a
  }

  /** A slot with an empty normal entry and a non-empty touch entry: the
      touch translation is moved over. */
  predicate Stranded(normal: Option<string>, touch: Option<string>) {
    IsNullOrEmpty(normal) && !IsNullOrEmpty(touch)
  }

  /** The term after Validate, as a whole: the three arrays grown to the
      longest one, then every stranded touch translation moved into the
      normal array and its touch slot nulled. */
  function Validated(td: TermData): (r: TermData)
    ensures r.term == td.term && r.description == td.description
  {
    var n := Max(|td.languages|, Max(|td.languagesTouch|, |td.flags|));
    var l := Grow(td.languages, n, None);
    var t := Grow(td.languagesTouch, n, None);
    td.(languages := seq(n, i requires 0 <= i < n => if Stranded(l[i], t[i]) then t[i] else l[i]),
        languagesTouch := seq(n, i requires 0 <= i < n => if Stranded(l[i], t[i]) then None else t[i]),
        flags := Grow(td.flags, n, 0))
  }

  /** TermData.Validate: the three arrays resized to the longest, then the
      loop that moves stranded touch translations. */
  method Validate(td: TermData) returns (r: TermData)
    ensures r == Validated(td)
  {
    var n := Max(|td.languages|, Max(|td.languagesTouch|, |td.flags|));
    var languages := Grow(td.languages, n, None);
    var touch := Grow(td.languagesTouch, n, None);
    var flags := Grow(td.flags, n, 0);
    ghost var l0, t0 := languages, touch;
    var i := 0;
    while i < n
      invariant i <= n && |languages| == n && |touch| == n
      invariant forall k :: 0 <= k < i ==>
                  languages[k] == (if Stranded(l0[k], t0[k]) then t0[k] else l0[k]) &&
                  touch[k] == (if Stranded(l0[k], t0[k]) then None else t0[k])
      invariant forall k :: i <= k < n ==> languages[k] == l0[k] && touch[k] == t0[k]
    {
      if IsNullOrEmpty(languages[i]) && !IsNullOrEmpty(touch[i]) {
        languages := languages[i := touch[i]];
        touch := touch[i := None];
      }
      i := i + 1;
    }
    r := td.(languages := languages, languagesTouch := touch, flags := flags);
  }

  /** After Validate all three arrays have the length of the longest;
      the flags keep their prefix and are padded with 0; every slot holds
      either its old pair or, when it was stranded, the touch translation
      moved across with the touch slot nulled; untouched padding is null. */
  lemma {:induction false} ValidatedShape(td: TermData)
    ensures var r := Validated(td);
            var n := Max(|td.languages|, Max(|td.languagesTouch|, |td.flags|));
            && |r.languages| == n && |r.languagesTouch| == n && |r.flags| == n
            && n >= |td.languages| && n >= |td.languagesTouch| && n >= |td.flags|
            && r.flags[..|td.flags|] == td.flags
            && (forall k :: |td.flags| <= k < n ==> r.flags[k] == 0)
            && (forall k :: 0 <= k < |td.languages| ==>
                  r.languages[k] == td.languages[k] || (IsNullOrEmpty(td.languages[k]) && r.languagesTouch[k].None?))
            && (forall k :: 0 <= k < |td.languagesTouch| ==>
                  r.languagesTouch[k] == td.languagesTouch[k] || r.languagesTouch[k].None?)
            && (forall k :: |td.languagesTouch| <= k < n ==> r.languagesTouch[k] == None)
            && (forall k :: |td.languages| <= k < n ==>
                  r.languages[k] == (if k < |td.languagesTouch| && !IsNullOrEmpty(td.languagesTouch[k])
                                     then td.languagesTouch[k] else None))
  {
  }

  /** No slot is left stranded, and no translation is lost: every
      non-empty entry is still in its slot of one of the two arrays. */
  lemma {:induction false} ValidatedNotStranded(td: TermData)
    ensures var r := Validated(td);
            && (forall k :: 0 <= k < |r.languages| ==> !Stranded(r.languages[k], r.languagesTouch[k]))
            && (forall k :: 0 <= k < |td.languages| && !IsNullOrEmpty(td.languages[k]) ==>
                  r.languages[k] == td.languages[k])
            && (forall k :: 0 <= k < |td.languagesTouch| && !IsNullOrEmpty(td.languagesTouch[k]) ==>
                  r.languages[k] == td.languagesTouch[k] || r.languagesTouch[k] == td.languagesTouch[k])
  {
  }

  /** A second Validate changes nothing. */
  lemma {:induction false} ValidateIdempotent(td: TermData)
    ensures Validated(Validated(td)) == Validated(td)
  {
    var r := Validated(td);
    var rr := Validated(r);
    ValidatedNotStranded(td);
    assert |r.languages| == |r.languagesTouch| == |r.flags|;
    assert Grow(r.languages, |r.languages|, None) == r.languages;
    assert Grow(r.languagesTouch, |r.languages|, None) == r.languagesTouch;
    assert Grow(r.flags, |r.languages|, 0) == r.flags;
    assert rr.languages == r.languages;
    assert rr.languagesTouch == r.languagesTouch;
  }

  /** After Validate every slot can be read on both platforms without
      throwing, and HasTouchTranslations cannot throw. */
  lemma {:induction false} ValidatedReadable(td: TermData, idx: int, isTouch: bool)
    requires 0 <= idx < Max(|td.languages|, Max(|td.languagesTouch|, |td.flags|))
    ensures GetTranslation(Validated(td), idx, isTouch).Success?
    ensures IsAutoTranslated(Validated(td), idx, isTouch).Success?
    ensures HasTouchTranslations(Validated(td)).Success?
  {
    HasTouchIff(Validated(td));
  }

  // ---------------------------------------------------------------------
  // LanguageData
  // ---------------------------------------------------------------------

  /** eLanguageDataFlags. */
  const Disabled: bv8 := 1
  const KeepLoaded: bv8 := 2
  const NotLoaded: bv8 := 4

  datatype LanguageData = LanguageData(name: string, code: string, flags: bv8)

  /** The flags byte with `bit` set or cleared. */
  function WithBit(flags: bv8, bit: bv8, on: bool): bv8 {
    if on then flags | bit else flags & !bit
  }

  function IsEnabled(ld: LanguageData): bool {
    ld.flags & Disabled == 0
  }

  function IsLoaded(ld: LanguageData): bool {
    ld.flags & NotLoaded == 0
  }

  function CanBeUnloaded(ld: LanguageData): bool {
    ld.flags & KeepLoaded == 0
  }

  /** SetEnabled: clears DISABLED to enable, sets it to disable. */
  function SetEnabled(ld: LanguageData, enabled: bool): (r: LanguageData)
    ensures IsEnabled(r) == enabled
    ensures r.flags & !Disabled == ld.flags & !Disabled
    ensures r.name == ld.name && r.code == ld.code
  {
    ld.(flags := WithBit(ld.flags, Disabled, !enabled))
  }

  /** SetLoaded: clears NOT_LOADED to mark loaded, sets it otherwise. */
  function SetLoaded(ld: LanguageData, loaded: bool): (r: LanguageData)
    ensures IsLoaded(r) == loaded
    ensures r.flags & !NotLoaded == ld.flags & !NotLoaded
    ensures r.name == ld.name && r.code == ld.code
  {
    ld.(flags := WithBit(ld.flags, NotLoaded, !loaded))
  }

  /** SetCanBeUnLoaded: clears KEEP_LOADED to allow unloading, sets it otherwise. */
  function SetCanBeUnLoaded(ld: LanguageData, allowUnloading: bool): (r: LanguageData)
    ensures CanBeUnloaded(r) == allowUnloading
    ensures r.flags & !KeepLoaded == ld.flags & !KeepLoaded
    ensures r.name == ld.name && r.code == ld.code
  {
    ld.(flags := WithBit(ld.flags, KeepLoaded, !allowUnloading))
  }

  // The three flags are independent: each setter leaves the other two
  // readings as they were, and setting twice is setting once.

  lemma {:induction false} SetEnabledIndependent(ld: LanguageData, b: bool)
    ensures IsLoaded(SetEnabled(ld, b)) == IsLoaded(ld) && CanBeUnloaded(SetEnabled(ld, b)) == CanBeUnloaded(ld)
    ensures SetEnabled(SetEnabled(ld, b), b) == SetEnabled(ld, b)
  {
  }

  lemma {:induction false} SetLoadedIndependent(ld: LanguageData, b: bool)
    ensures IsEnabled(SetLoaded(ld, b)) == IsEnabled(ld) && CanBeUnloaded(SetLoaded(ld, b)) == CanBeUnloaded(ld)
    ensures SetLoaded(SetLoaded(ld, b), b) == SetLoaded(ld, b)
  {
  }

  lemma {:induction false} SetCanBeUnLoadedIndependent(ld: LanguageData, b: bool)
    ensures IsEnabled(SetCanBeUnLoaded(ld, b)) == IsEnabled(ld) && IsLoaded(SetCanBeUnLoaded(ld, b)) == IsLoaded(ld)
    ensures SetCanBeUnLoaded(SetCanBeUnLoaded(ld, b), b) == SetCanBeUnLoaded(ld, b)
  {
  }
}

=== FILE: text.dfy ===
/**
 * The .NET string primitives the translation code relies on, with ordinal
 * comparison: IndexOf, Contains, StartsWith, EndsWith, Replace, Split,
 * String.Join, ASCII case mapping, char.IsWhiteSpace and int.ToString.
 */
module Text {

  /** `p` occurs in `s` starting at index `i`. */
  predicate OccursAt(s: string, p: string, i: int) {
    0 <= i && i + |p| <= |s| && s[i..i + |p|] == p
  }

  predicate StartsWith(s: string, p: string) {
    OccursAt(s, p, 0)
  }

  predicate EndsWith(s: string, p: string) {
    |p| <= |s| && s[|s| - |p|..] == p
  }

  /** An occurrence in a suffix is an occurrence in the whole string, shifted. */
  lemma {:induction false} OccursShift(s: string, p: string, d: nat, j: int)
    requires d <= |s| && 0 <= j
    ensures OccursAt(s[d..], p, j) <==> OccursAt(s, p, j + d)
  {
    if 0 <= j && j + |p| <= |s| - d {
      assert s[d..][j..j + |p|] == s[j + d..j + d + |p|];
    }
  }

  /** string.IndexOf(p, from): the first occurrence at or after `from`, or -1. */
  function IndexOfFrom(s: string, p: string, from: nat): (r: int)
    requires from <= |s|
    ensures r == -1 || (from <= r <= |s| && OccursAt(s, p, r))
    ensures r == -1 ==> forall k :: from <= k <= |s| ==> !OccursAt(s, p, k)
    ensures r != -1 ==> forall k :: from <= k < r ==> !OccursAt(s, p, k)
    decreases |s| - from
  {
    if OccursAt(s, p, from) then from
    else if from == |s| then -1
    else IndexOfFrom(s, p, from + 1)
  }

  /** string.IndexOf(p): the first occurrence, or -1. */
  function IndexOf(s: string, p: string): (r: int)
    ensures r == -1 || (0 <= r <= |s| && OccursAt(s, p, r))
    ensures r == -1 <==> forall k :: 0 <= k <= |s| ==> !OccursAt(s, p, k)
    ensures r != -1 ==> forall k :: 0 <= k < r ==> !OccursAt(s, p, k)
  {
    IndexOfFrom(s, p, 0)
  }

  /** string.Contains(p). */
  predicate Contains(s: string, p: string) {
    IndexOf(s, p) >= 0
  }

  /** The number of occurrences of `p` that string.Replace and Split find:
      non-overlapping, scanning left to right. */
  function Count(s: string, p: string): nat
    requires |p| > 0
    decreases |s|
  {
    if |s| == 0 then 0
    else if StartsWith(s, p) then 1 + Count(s[|p|..], p)
    else Count(s[1..], p)
  }

  /** string.Replace(pat, rep): every non-overlapping occurrence of `pat`,
      found left to right, becomes `rep`. */
  function Replace(s: string, pat: string, rep: string): string
    requires |pat| > 0
    decreases |s|
  {
    if |s| == 0 then ""
    else if StartsWith(s, pat) then rep + Replace(s[|pat|..], pat, rep)
    else [s[0]] + Replace(s[1..], pat, rep)
  }

  lemma {:induction false} MulSucc(c: int, d: int)
    ensures (c + 1) * d == c * d + d
  {
  }

  /** Each occurrence Replace finds trades |pat| characters for |rep|. */
  lemma {:induction false} ReplaceLength(s: string, pat: string, rep: string)
    requires |pat| > 0
    ensures |Replace(s, pat, rep)| == |s| + Count(s, pat) * (|rep| - |pat|)
    decreases |s|
  {
    if |s| > 0 {
      if StartsWith(s, pat) {
        ReplaceLength(s[|pat|..], pat, rep);
        MulSucc(Count(s[|pat|..], pat), |rep| - |pat|);
      } else {
        ReplaceLength(s[1..], pat, rep);
      }
    }
  }

  /** String.Join(sep, parts). */
  function Join(parts: seq<string>, sep: string): string
    decreases |parts|
  {
    if |parts| == 0 then ""
    else if |parts| == 1 then parts[0]
    else parts[0] + sep + Join(parts[1..], sep)
  }

  /** s.Split(rep string[] { sep }, StringSplitOptions.None). */
  function Split(s: string, sep: string): (parts: seq<string>)
    requires |sep| > 0
    ensures |parts| == Count(s, sep) + 1
    ensures Join(parts, sep) == s
    decreases |s|
  {
    var k := IndexOf(s, sep);
    if k < 0 then
      CountSkip(s, sep, |s|);
      [s]
    else
      CountSkip(s, sep, k);
      var rest := Split(s[k + |sep|..], sep);
      assert s[k..][|sep|..] == s[k + |sep|..];
      assert s == s[..k] + sep + s[k + |sep|..];
      [s[..k]] + rest
  }

  /** Positions before the first occurrence add nothing to the count. */
  lemma {:induction false} CountSkip(s: string, p: string, k: nat)
    requires |p| > 0 && k <= |s|
    requires forall j :: 0 <= j < k ==> !OccursAt(s, p, j)
    ensures Count(s, p) == Count(s[k..], p)
    decreases k
  {
    if k > 0 {
      assert !OccursAt(s, p, 0);
      forall j | 0 <= j < k - 1
        ensures !OccursAt(s[1..], p, j)
      {
        OccursShift(s, p, 1, j);
      }
      CountSkip(s[1..], p, k - 1);
      assert s[1..][k - 1..] == s[k..];
    }
  }

  /** Replace leaves the text before the first occurrence alone. */
  lemma {:induction false} ReplaceSkip(s: string, pat: string, rep: string, k: nat)
    requires |pat| > 0 && k <= |s|
    requires forall j :: 0 <= j < k ==> !OccursAt(s, pat, j)
    ensures Replace(s, pat, rep) == s[..k] + Replace(s[k..], pat, rep)
    decreases k
  {
    if k > 0 {
      assert !OccursAt(s, pat, 0);
      forall j | 0 <= j < k - 1
        ensures !OccursAt(s[1..], pat, j)
      {
        OccursShift(s, pat, 1, j);
      }
      ReplaceSkip(s[1..], pat, rep, k - 1);
      assert s[1..][k - 1..] == s[k..];
      assert s[..k] == [s[0]] + s[1..][..k - 1];
    }
  }

  /** Text without an occurrence of `pat` comes back from Replace unchanged. */
  lemma {:induction false} ReplaceAbsent(s: string, pat: string, rep: string)
    requires |pat| > 0 && !Contains(s, pat)
    ensures Replace(s, pat, rep) == s
  {
    ReplaceSkip(s, pat, rep, |s|);
    assert s[..|s|] == s;
  }

  /** Removing a leading `p` from a text that has no other. */
  lemma {:induction false} ReplaceLeading(p: string, x: string)
    requires |p| > 0 && !Contains(x, p)
    ensures Replace(p + x, p, "") == x
  {
    assert StartsWith(p + x, p) && (p + x)[|p|..] == x;
    ReplaceAbsent(x, p, "");
  }

  /** Removing a trailing `q` from a text that has no other, when `q`
      cannot straddle the seam. */
  lemma {:induction false} ReplaceTrailing(x: string, q: string)
    requires HeadUnique(q) && !Contains(x, q)
    ensures Replace(x + q, q, "") == x
  {
    assert x + q == x + q + "";
    IndexOfAfter(x, q, "");
    ReplaceSkip(x + q, q, "", |x|);
    assert (x + q)[..|x|] == x && (x + q)[|x|..] == q;
    assert StartsWith(q, q) && q[|q|..] == "";
  }

  /** Replace cuts the text where Split does and glues the pieces with `rep`. */
  lemma {:induction false} ReplaceIsJoinOfSplit(s: string, pat: string, rep: string)
    requires |pat| > 0
    ensures Replace(s, pat, rep) == Join(Split(s, pat), rep)
    decreases |s|
  {
    var k := IndexOf(s, pat);
    if k < 0 {
      ReplaceAbsent(s, pat, rep);
    } else {
      var a, t := s[..k], s[k + |pat|..];
      ReplaceAtFirst(s, pat, rep, k);
      SplitAtFirst(s, pat, k);
      ReplaceIsJoinOfSplit(t, pat, rep);
      JoinCons(a, Split(t, pat), rep);
    }
  }

  /** Replace up to and including the first occurrence, at k. */
  lemma {:induction false} ReplaceAtFirst(s: string, pat: string, rep: string, k: int)
    requires |pat| > 0 && k == IndexOf(s, pat) && k >= 0
    ensures Replace(s, pat, rep) == s[..k] + rep + Replace(s[k + |pat|..], pat, rep)
  {
    var r := Replace(s[k + |pat|..], pat, rep);
    assert Replace(s, pat, rep) == s[..k] + Replace(s[k..], pat, rep) by {
      ReplaceSkip(s, pat, rep, k);
    }
    assert Replace(s[k..], pat, rep) == rep + r by {
      assert StartsWith(s[k..], pat) by {
        OccursShift(s, pat, k, 0);
      }
      assert s[k..][|pat|..] == s[k + |pat|..];
    }
  }

  /** Split peels off the text before the first occurrence, at k. */
  lemma {:induction false} SplitAtFirst(s: string, pat: string, k: int)
    requires |pat| > 0 && k == IndexOf(s, pat) && k >= 0
    ensures Split(s, pat) == [s[..k]] + Split(s[k + |pat|..], pat)
  {
  }

  /** Join with one more part in front. */
  lemma {:induction false} JoinCons(x: string, parts: seq<string>, sep: string)
    requires |parts| > 0
    ensures Join([x] + parts, sep) == x + sep + Join(parts, sep)
  {
    assert ([x] + parts)[1..] == parts;
  }

  /** Join over one more part. */
  lemma {:induction false} JoinAppend(parts: seq<string>, x: string, sep: string)
    requires |parts| > 0
    ensures Join(parts + [x], sep) == Join(parts, sep) + sep + x
    decreases |parts|
  {
    if |parts| > 1 {
      assert (parts + [x])[1..] == parts[1..] + [x];
      JoinAppend(parts[1..], x, sep);
    }
  }

  /** A text without the separator splits into itself alone. */
  lemma {:induction false} SplitAbsent(s: string, sep: string)
    requires |sep| > 0 && !Contains(s, sep)
    ensures Split(s, sep) == [s]
  {
  }

  /** `p` cannot overlap itself at a shift: its first character occurs nowhere else in it. */
  predicate HeadUnique(p: string) {
    |p| > 0 && forall d :: 0 < d < |p| ==> p[d] != p[0]
  }

  /** The first occurrence of `p` in a + p + b is the one after `a`, when
      `a` has none and `p` cannot straddle the boundary. */
  lemma {:induction false} IndexOfAfter(a: string, p: string, b: string)
    requires HeadUnique(p) && !Contains(a, p)
    ensures IndexOf(a + p + b, p) == |a|
  {
    var s := a + p + b;
    assert OccursAt(s, p, |a|) by {
      assert s[|a|..|a| + |p|] == p;
    }
    forall k | 0 <= k < |a|
      ensures !OccursAt(s, p, k)
    {
      if k + |p| <= |a| {
        assert a[k..k + |p|] == s[k..k + |p|];
        assert !OccursAt(a, p, k);
      } else {
        assert s[|a|] == p[0] && p[|a| - k] != p[0];
      }
    }
  }

  /** Splitting a + sep + b peels `a` off, under the conditions of IndexOfAfter. */
  lemma {:induction false} SplitFront(a: string, sep: string, b: string)
    requires HeadUnique(sep) && !Contains(a, sep)
    ensures Split(a + (sep + b), sep) == [a] + Split(b, sep)
  {
    var s := a + (sep + b);
    assert s == a + sep + b;
    IndexOfAfter(a, sep, b);
    assert s[..|a|] == a && s[|a| + |sep|..] == b;
  }

  /** Splitting a joined list on its separator gives the list back, when no
      part holds the separator and the separator cannot straddle a part. */
  lemma {:induction false} SplitJoin(parts: seq<string>, sep: string)
    requires HeadUnique(sep) && |parts| > 0
    requires forall k :: 0 <= k < |parts| ==> !Contains(parts[k], sep)
    ensures Split(Join(parts, sep), sep) == parts
    decreases |parts|
  {
    if |parts| == 1 {
      SplitAbsent(parts[0], sep);
    } else {
      var rest := parts[1..];
      assert forall k :: 0 <= k < |rest| ==> !Contains(rest[k], sep) by {
        forall k | 0 <= k < |rest|
          ensures !Contains(rest[k], sep)
        {
          assert rest[k] == parts[k + 1];
        }
      }
      SplitJoin(rest, sep);
      var j := Join(rest, sep);
      assert Join(parts, sep) == parts[0] + (sep + j);
      SplitFront(parts[0], sep, j);
      assert parts == [parts[0]] + rest;
    }
  }

  /** Within a stretch of `s` that equals `t`, `p` occurs in `s` exactly
      where it occurs in `t`. */
  lemma {:induction false} OccursInside(s: string, t: string, lo: nat, p: string, k: int)
    requires lo + |t| <= |s| && s[lo..lo + |t|] == t
    requires lo <= k && k + |p| <= lo + |t|
    ensures OccursAt(s, p, k) <==> OccursAt(t, p, k - lo)
  {
    var a, b := s[k..k + |p|], t[k - lo..k - lo + |p|];
    forall m | 0 <= m < |p|
      ensures a[m] == b[m]
    {
      assert s[k + m] == s[lo..lo + |t|][k - lo + m];
    }
    assert a == b;
  }

  /** An occurrence fixes every character it covers. */
  lemma {:induction false} OccursAtChar(s: string, p: string, k: int, j: int)
    requires 0 <= k <= j < k + |p| <= |s|
    ensures OccursAt(s, p, k) ==> s[j] == p[j - k]
  {
    assert s[k..k + |p|][j - k] == s[j];
  }

  /** Gluing two texts with a character `p` does not hold creates no
      occurrence of `p`. */
  lemma {:induction false} ContainsGlue(x: string, c: char, y: string, p: string)
    requires !Contains(x, p) && !Contains(y, p) && c !in p
    ensures !Contains(x + [c] + y, p)
  {
    var s := x + [c] + y;
    assert s[0..|x|] == x && s[|x| + 1..|x| + 1 + |y|] == y && s[|x|] == c;
    forall k | 0 <= k <= |s|
      ensures !OccursAt(s, p, k)
    {
      if k + |p| <= |x| {
        OccursInside(s, x, 0, p, k);
      } else if k > |x| {
        if k + |p| <= |s| {
          OccursInside(s, y, |x| + 1, p, k);
        }
      } else if k + |p| <= |s| {
        OccursAtChar(s, p, k, |x|);
        assert p[|x| - k] in p;
      }
    }
  }

  /** Appending a text that starts with `p`'s first character creates no
      occurrence of `p` across the seam. */
  lemma {:induction false} ContainsAppendHead(x: string, y: string, p: string)
    requires HeadUnique(p) && !Contains(x, p) && !Contains(y, p) && |y| > 0 && y[0] == p[0]
    ensures !Contains(x + y, p)
  {
    var s := x + y;
    assert s[0..|x|] == x && s[|x|..|x| + |y|] == y && s[|x|] == p[0];
    forall k | 0 <= k <= |s|
      ensures !OccursAt(s, p, k)
    {
      if k + |p| <= |x| {
        OccursInside(s, x, 0, p, k);
      } else if k >= |x| {
        if k + |p| <= |s| {
          OccursInside(s, y, |x|, p, k);
        }
      } else if k + |p| <= |s| {
        OccursAtChar(s, p, k, |x|);
        assert p[|x| - k] != p[0];
      }
    }
  }

  // ASCII case mapping; the culture-dependent mapping of other letters is
  // not modelled.

  function ToUpper(c: char): char {
    if 'a' <= c <= 'z' then (c as int - 32) as char else c
  }

  function ToLower(c: char): char {
    if 'A' <= c <= 'Z' then (c as int + 32) as char else c
  }

  /** string.ToLowerInvariant / string.ToLower. */
  function LowerString(s: string): (r: string)
    ensures |r| == |s|
    ensures forall k :: 0 <= k < |s| ==> r[k] == ToLower(s[k])
  {
    seq(|s|, k requires 0 <= k < |s| => ToLower(s[k]))
  }

  /** char.IsWhiteSpace: the Unicode separators plus U+0009..U+000D and U+0085. */
  predicate IsWhiteSpace(c: char) {
    var n := c as int;
    (0x09 <= n <= 0x0D) || n == 0x20 || n == 0x85 || n == 0xA0 || n == 0x1680
    || (0x2000 <= n <= 0x200A) || n == 0x2028 || n == 0x2029 || n == 0x202F
    || n == 0x205F || n == 0x3000
  }

  lemma {:induction false} CaseMappingFacts(c: char)
    ensures ToUpper(ToUpper(c)) == ToUpper(c) && ToLower(ToLower(c)) == ToLower(c)
    ensures ToUpper(ToLower(c)) == ToUpper(c) && ToLower(ToUpper(c)) == ToLower(c)
    ensures IsWhiteSpace(ToUpper(c)) == IsWhiteSpace(c)
    ensures IsWhiteSpace(ToLower(c)) == IsWhiteSpace(c)
  {
  }

  function Digit(d: nat): char
    requires d < 10
  {
    "0123456789"[d]
  }

  /** The decimal text of a natural number. */
  function NatToString(n: nat): (r: string)
    ensures |r| > 0
    ensures forall k :: 0 <= k < |r| ==> '0' <= r[k] <= '9'
    decreases n
  {
    if n < 10 then [Digit(n)] else NatToString(n / 10) + [Digit(n % 10)]
  }

  /** int.ToString() with '-' as the negative sign. */
  function IntToString(i: int): (r: string)
    ensures |r| > 0
  {
    if i < 0 then "-" + NatToString(-i) else NatToString(i)
  }
}

=== FILE: translation_post.dfy ===
/**
 * The wire side of a translation batch (GoogleTranslation_Post.cs): the
 * request list sent by POST, and the parsing of the web service's reply back
 * into the Results of each query.
 */
module TranslationPost {
  import opened Wrappers
  import opened Text
  import opened Casing
  import opened Placeholders
  import opened Queries
  import opened Lookup

  // ---------------------------------------------------------------------
  // The request list
  // ---------------------------------------------------------------------

  /** The text sent for a query: a text already in title case goes out
      lower-cased, since the service translates it better that way. */
  function WireText(t: string): (r: string)
    ensures |r| == |t|
    ensures TitleCase(t) == t ==> r == LowerString(t)
    ensures TitleCase(t) != t ==> r == t
  {
    if TitleCase(t) == t then LowerString(t) else t
  }

  /** The target codes, mapped to Google codes and separated by commas. */
  function CodeList(targets: seq<string>, code: string -> string): string {
    Join(seq(|targets|, k requires 0 <= k < |targets| => code(targets[k])), ",")
  }

  /** One query on the wire: `src:t1,t2=text`. */
  function Segment(q: Query, code: string -> string): (r: string)
    ensures |r| >= 2
  {
    code(q.languageCode) + ":" + CodeList(q.targets, code) + "=" + WireText(q.text)
  }

  function Segments(b: Batch, code: string -> string): (r: seq<string>)
    ensures |r| == |b| && forall k :: 0 <= k < |b| ==> r[k] == Segment(b[k].query, code)
  {
    seq(|b|, k requires 0 <= k < |b| => Segment(b[k].query, code))
  }

  /** The `list` field of the POST form: the segments of the queries in
      dictionary order, separated by `<I2Loc>`. */
  function RequestList(b: Batch, code: string -> string): string {
    Join(Segments(b, code), "<I2Loc>")
  }

  /** The POST branch of GetTranslationWWW, building the list in a
      StringBuilder: a separator before every query once the builder is
      non-empty, then the query's segment (what the loop body appends, piece
      by piece). */
  method BuildRequestList(b: Batch, code: string -> string) returns (list: string)
    ensures list == RequestList(b, code)
  {
    list := "";
    var n := 0;
    while n < |b|
      invariant n <= |b|
      invariant list == RequestList(b[..n], code)
      invariant |list| > 0 <==> n > 0
    {
      var q := b[n].query;
      var sep := if |list| > 0 then "<I2Loc>" else "";
      var codes := AppendCodes(code(q.languageCode) + ":", q.targets, code);
      var segment := codes + "=" + WireText(q.text);
      assert segment == Segment(q, code);
      RequestListAppend(b, n, code);
      list := list + sep + segment;
      n := n + 1;
    }
    assert b[..n] == b;
  }

  /** The inner loop of GetTranslationWWW: the target codes appended to
      `head`, with a comma before every code but the first. */
  method AppendCodes(head: string, targets: seq<string>, code: string -> string) returns (list: string)
    ensures list == head + CodeList(targets, code)
  {
    list := head;
    var i := 0;
    while i < |targets|
      invariant i <= |targets|
      invariant list == head + CodeList(targets[..i], code)
    {
      if i != 0 {
        list := list + ",";
      }
      list := list + code(targets[i]);
      CodeListAppend(targets, i, code);
      i := i + 1;
    }
    assert targets[..i] == targets;
  }

  /** The request list over one more query. */
  lemma {:induction false} RequestListAppend(b: Batch, n: nat, code: string -> string)
    requires n < |b|
    ensures RequestList(b[..n + 1], code)
            == RequestList(b[..n], code) + (if n == 0 then "" else "<I2Loc>") + Segment(b[n].query, code)
  {
    assert Segments(b[..n + 1], code) == Segments(b[..n], code) + [Segment(b[n].query, code)];
    if n > 0 {
      JoinAppend(Segments(b[..n], code), Segment(b[n].query, code), "<I2Loc>");
    }
  }

  /** One more target code at the end of the comma-separated list. */
  lemma {:induction false} CodeListAppend(targets: seq<string>, i: nat, code: string -> string)
    requires i < |targets|
    ensures CodeList(targets[..i + 1], code)
            == CodeList(targets[..i], code) + (if i == 0 then "" else ",") + code(targets[i])
  {
    var m := seq(i, k requires 0 <= k < i => code(targets[k]));
    assert seq(i + 1, k requires 0 <= k < i + 1 => code(targets[..i + 1][k])) == m + [code(targets[i])];
    assert seq(i, k requires 0 <= k < i => code(targets[..i][k])) == m;
    if i > 0 {
      JoinAppend(m, code(targets[i]), ",");
    }
  }

  /** The request list can be taken apart again: splitting it on `<I2Loc>`
      gives one segment per query, in dictionary order, as long as no
      segment holds the separator itself. */
  lemma {:induction false} RequestListSplits(b: Batch, code: string -> string)
    requires |b| > 0
    requires forall k :: 0 <= k < |b| ==> !Contains(Segment(b[k].query, code), "<I2Loc>")
    ensures Split(RequestList(b, code), "<I2Loc>") == Segments(b, code)
  {
    SplitJoin(Segments(b, code), "<I2Loc>");
  }

  /** What the service does with a text it receives: title-casing it gives
      the same as title-casing the text the query holds, so a title-case
      text lowered for the wire comes back to itself. */
  lemma {:induction false} WireTextKeepsTitle(t: string)
    ensures TitleCase(WireText(t)) == TitleCase(t)
    ensures TitleCase(t) == t ==> TitleCase(WireText(t)) == t
  {
    if TitleCase(t) == t {
      TitleCaseOfLower(t);
    }
  }

  // ---------------------------------------------------------------------
  // The reply
  // ---------------------------------------------------------------------

  /** The batch after a reply, and ParseTranslationResult's return value:
      None is the null of a well-read reply. */
  datatype Outcome = Outcome(batch: Batch, error: Option<string>)

  const NotSupported: string :=
    "The current Google WebService is not supported.\nPlease, delete the WebService from the Google Drive and Install the latest version."

  const ContactProblem: string :=
    "There was a problem contacting the WebService. Please try again later\n"

  /** An HTML page instead of a translation list: Google refusing to run
      the web service. */
  predicate IsHtmlReply(html: string) {
    StartsWith(html, "<!DOCTYPE html>") || StartsWith(html, "<HTML>")
  }

  /** The message returned for an HTML reply. */
  function HtmlMessage(html: string): string {
    if Contains(html, "The script completed but did not return anything") then NotSupported
    else if Contains(html, "Service invoked too many times in a short time") then ""
    else ContactProblem + html
  }

  /** Every query's tag list fits the placeholder range. */
  predicate TagsFit(b: Batch) {
    forall k :: 0 <= k < |b| ==> |b[k].query.tags| <= Capacity
  }

  /** The Results a query receives from its reply segment: the tags put
      back, the text split on `<i2>`, and each piece title-cased when the
      key is in title case. */
  function ResultsFor(key: string, segment: string, q: Query): (r: seq<string>)
    requires |q.tags| <= Capacity
    ensures |r| == Count(Restore(segment, q.tags), "<i2>") + 1
    ensures TitleCase(key) != key ==> r == Split(Restore(segment, q.tags), "<i2>")
    ensures TitleCase(key) == key ==>
              var parts := Split(Restore(segment, q.tags), "<i2>");
              |r| == |parts| && forall j :: 0 <= j < |r| ==> r[j] == TitleCase(parts[j])
    ensures TitleCase(key) == key ==> forall j :: 0 <= j < |r| ==> TitleCase(r[j]) == r[j]
  {
    var parts := Split(Restore(segment, q.tags), "<i2>");
    if TitleCase(key) == key then
      var r := seq(|parts|, j requires 0 <= j < |parts| => TitleCase(parts[j]));
      assert forall j :: 0 <= j < |r| ==> TitleCase(r[j]) == r[j] by {
        forall j | 0 <= j < |r|
          ensures TitleCase(r[j]) == r[j]
        {
          TitleCaseIdempotent(parts[j]);
        }
      }
      r
    else parts
  }

  /** The loop over the snapshot of the keys from position i on: each key's
      query is looked up by OrigText in the dictionary as it stands, given
      its segment, and stored back under its OrigText. Reading a segment
      past the end throws, and so does storing the default query (whose
      OrigText is null) when no query has that OrigText. */
  function ApplyFrom(b: Batch, keys: seq<string>, texts: seq<string>, i: nat): (r: Result<Batch>)
    requires i <= |keys| && TagsFit(b)
    ensures r.Failure? ==> r.error == IndexOutOfRange || r.error == ArgumentNull
    decreases |keys| - i
  {
    if i == |keys| then Success(b)
    else if i >= |texts| then Failure(IndexOutOfRange)
    else
      var found := FindQueryFromOrigText(keys[i], b);
      if found.None? then Failure(ArgumentNull)
      else
        var q := found.value;
        var b' := Put(b, q.origText, q.(results := Some(ResultsFor(keys[i], texts[i], q))));
        assert TagsFit(b');
        ApplyFrom(b', keys, texts, i + 1)
  }

  /** ParseTranslationResult. */
  function ParseTranslationResult(html: string, b: Batch): (r: Result<Outcome>)
    requires TagsFit(b)
    ensures r.Success? && !IsHtmlReply(html) ==> r.value.error == None
    ensures r.Failure? ==> !IsHtmlReply(html)
  {
    if IsHtmlReply(html) then Success(Outcome(b, Some(HtmlMessage(html))))
    else
      var batch :- ApplyFrom(b, Keys(b), Split(html, "<I2Loc>"), 0);
      Success(Outcome(batch, None))
  }

  /** An HTML reply changes no query and gives one of three messages. */
  lemma {:induction false} HtmlReplyOutcomes(html: string, b: Batch)
    requires TagsFit(b) && IsHtmlReply(html)
    ensures var r := ParseTranslationResult(html, b);
            && r.Success? && r.value.batch == b && r.value.error.Some?
            && var unsupported := Contains(html, "The script completed but did not return anything");
               var throttled := Contains(html, "Service invoked too many times in a short time");
               && (unsupported ==> r.value.error.value == NotSupported)
               && (!unsupported && throttled ==> r.value.error.value == "")
               && (!unsupported && !throttled ==>
                     r.value.error.value == ContactProblem + html && EndsWith(r.value.error.value, html))
  {
    var m := ContactProblem + html;
    assert m[|m| - |html|..] == html;
  }

  /** An entry after its reply segment: only Results change. */
  function Answer(e: Entry, segment: string): Entry
    requires |e.query.tags| <= Capacity
  {
    Entry(e.key, e.query.(results := Some(ResultsFor(e.key, segment, e.query))))
  }

  /** The batch after a reply, entry by entry: the k-th entry receives the
      k-th segment, and segments past the last key are never read. */
  function Answered(b: Batch, texts: seq<string>): (r: Batch)
    requires TagsFit(b) && |texts| >= |b|
    ensures |r| == |b| && forall k :: 0 <= k < |b| ==> r[k] == Answer(b[k], texts[k])
  {
    seq(|b|, k requires 0 <= k < |b| => Answer(b[k], texts[k]))
  }

  /** The loop, from position i on, over a dictionary whose entries before
      i are already answered: it answers the rest in place. */
  lemma {:induction false} ApplyFromAnswers(b: Batch, c: Batch, texts: seq<string>, i: nat)
    requires UniqueKeys(b) && OrigTextIsKey(b) && TagsFit(b) && i <= |b| <= |texts|
    requires |c| == |b|
    requires forall k :: 0 <= k < i ==> c[k] == Answer(b[k], texts[k])
    requires forall k :: i <= k < |b| ==> c[k] == b[k]
    ensures TagsFit(c) && ApplyFrom(c, Keys(b), texts, i) == Success(Answered(b, texts))
    decreases |b| - i
  {
    assert Keys(c) == Keys(b);
    assert TagsFit(c);
    if i == |b| {
      assert c == Answered(b, texts);
    } else {
      assert OrigTextIsKey(c);
      FindByOrigText(c, i);
      FindUnique(c, i);
      var q := b[i].query;
      var c' := Put(c, q.origText, q.(results := Some(ResultsFor(Keys(b)[i], texts[i], q))));
      assert c' == c[i := Answer(b[i], texts[i])];
      ApplyFromAnswers(b, c', texts, i + 1);
    }
  }

  /** The loop runs out of segments before it runs out of keys: it throws. */
  lemma {:induction false} ApplyFromShort(b: Batch, c: Batch, texts: seq<string>, i: nat)
    requires UniqueKeys(b) && OrigTextIsKey(b) && TagsFit(b) && i <= |texts| < |b|
    requires |c| == |b|
    requires forall k :: 0 <= k < i ==> c[k] == Answer(b[k], texts[k])
    requires forall k :: i <= k < |b| ==> c[k] == b[k]
    ensures TagsFit(c) && ApplyFrom(c, Keys(b), texts, i) == Failure(IndexOutOfRange)
    decreases |texts| - i
  {
    assert Keys(c) == Keys(b);
    assert TagsFit(c);
    if i < |texts| {
      assert OrigTextIsKey(c);
      FindByOrigText(c, i);
      FindUnique(c, i);
      var q := b[i].query;
      var c' := Put(c, q.origText, q.(results := Some(ResultsFor(Keys(b)[i], texts[i], q))));
      assert c' == c[i := Answer(b[i], texts[i])];
      ApplyFromShort(b, c', texts, i + 1);
    }
  }

  /** A translation list with a segment for every query: the k-th
      `<I2Loc>` segment goes to the k-th key in dictionary order, the
      result is null, and only the Results fields change. */
  lemma {:induction false} ParseReplyAssigns(html: string, b: Batch)
    requires UniqueKeys(b) && OrigTextIsKey(b) && TagsFit(b)
    requires !IsHtmlReply(html) && |Split(html, "<I2Loc>")| >= |b|
    ensures ParseTranslationResult(html, b) == Success(Outcome(Answered(b, Split(html, "<I2Loc>")), None))
  {
    ApplyFromAnswers(b, b, Split(html, "<I2Loc>"), 0);
  }

  /** A translation list with fewer segments than queries throws when the
      loop reads past the last segment. */
  lemma {:induction false} ParseReplyTooShort(html: string, b: Batch)
    requires UniqueKeys(b) && OrigTextIsKey(b) && TagsFit(b)
    requires !IsHtmlReply(html) && |Split(html, "<I2Loc>")| < |b|
    ensures ParseTranslationResult(html, b) == Failure(IndexOutOfRange)
  {
    ApplyFromShort(b, b, Split(html, "<I2Loc>"), 0);
  }

  /** The fields a reply never touches. */
  lemma {:induction false} ParseReplyKeepsQueries(html: string, b: Batch)
    requires UniqueKeys(b) && OrigTextIsKey(b) && TagsFit(b)
    requires !IsHtmlReply(html) && |Split(html, "<I2Loc>")| >= |b|
    ensures ParseTranslationResult(html, b).Success?
    ensures var out := ParseTranslationResult(html, b).value.batch;
            && Keys(out) == Keys(b)
            && forall k :: 0 <= k < |b| ==>
                 && out[k].query.origText == b[k].query.origText
                 && out[k].query.text == b[k].query.text
                 && out[k].query.languageCode == b[k].query.languageCode
                 && out[k].query.targets == b[k].query.targets
                 && out[k].query.tags == b[k].query.tags
                 && out[k].query.results.Some?
  {
    ParseReplyAssigns(html, b);
  }

  /** Two replies that agree on the first |b| segments give the same
      outcome: segments past the last key are ignored. */
  lemma {:induction false} ExtraSegmentsIgnored(html1: string, html2: string, b: Batch)
    requires UniqueKeys(b) && OrigTextIsKey(b) && TagsFit(b)
    requires !IsHtmlReply(html1) && !IsHtmlReply(html2)
    requires |Split(html1, "<I2Loc>")| >= |b| && |Split(html2, "<I2Loc>")| >= |b|
    requires Split(html1, "<I2Loc>")[..|b|] == Split(html2, "<I2Loc>")[..|b|]
    ensures ParseTranslationResult(html1, b) == ParseTranslationResult(html2, b)
  {
    var t1, t2 := Split(html1, "<I2Loc>"), Split(html2, "<I2Loc>");
    ParseReplyAssigns(html1, b);
    ParseReplyAssigns(html2, b);
    forall k | 0 <= k < |b|
      ensures t1[k] == t2[k]
    {
      assert t1[..|b|][k] == t2[..|b|][k];
    }
    assert Answered(b, t1) == Answered(b, t2);
  }

  /** After a reply, looking a target language up with GetQueryResult
      gives the piece of that query's segment at the target's position. */
  lemma {:induction false} LookupAfterReply(html: string, b: Batch, k: nat, j: nat)
    requires UniqueKeys(b) && OrigTextIsKey(b) && TagsFit(b)
    requires !IsHtmlReply(html) && |Split(html, "<I2Loc>")| >= |b|
    requires k < |b| && j < |b[k].query.targets|
    requires b[k].query.targets[j] != "" && b[k].query.targets[j] !in b[k].query.targets[..j]
    ensures ParseTranslationResult(html, b).Success?
    ensures var out := ParseTranslationResult(html, b).value.batch;
            var q := b[k].query;
            var results := ResultsFor(b[k].key, Split(html, "<I2Loc>")[k], q);
            GetQueryResult(b[k].key, q.targets[j], out)
              == (if j < |results| then Success(Some(results[j])) else Failure(IndexOutOfRange))
  {
    ParseReplyAssigns(html, b);
    LookupAnswered(b, Split(html, "<I2Loc>"), k, j);
  }

  /** LookupAfterReply on the answered batch itself. */
  lemma {:induction false} LookupAnswered(b: Batch, texts: seq<string>, k: nat, j: nat)
    requires UniqueKeys(b) && TagsFit(b) && |texts| >= |b|
    requires k < |b| && j < |b[k].query.targets|
    requires b[k].query.targets[j] != "" && b[k].query.targets[j] !in b[k].query.targets[..j]
    ensures var q := b[k].query;
            var results := ResultsFor(b[k].key, texts[k], q);
            GetQueryResult(b[k].key, q.targets[j], Answered(b, texts))
              == (if j < |results| then Success(Some(results[j])) else Failure(IndexOutOfRange))
  {
    var out := Answered(b, texts);
    var q := b[k].query;
    assert out[k] == Entry(b[k].key, q.(results := Some(ResultsFor(b[k].key, texts[k], q))));
    assert Find(out, b[k].key) == k by {
      assert Keys(out) == Keys(b);
      FindUnique(out, k);
    }
  }
}

=== FILE: wrappers.dfy ===
/** Optional values (the C# null) and results that may carry a .NET exception. */
module Wrappers {

  /** `None` stands for a C# null reference. */
  datatype Option<+T> = None | Some(value: T)

  /** The .NET exceptions the modelled code can raise on some inputs. */
  datatype Exception =
    | IndexOutOfRange     // an array or string index past the end
    | ArgumentOutOfRange  // a Substring with a negative length
    | Argument            // string.Replace with an empty search string
    | NullReference       // a method called on a null string
    | ArgumentNull        // a Dictionary indexed with a null key

  /** The value a call returns, or the exception it throws. */
  datatype Result<+T> = Success(value: T) | Failure(error: Exception) {

    predicate IsFailure() {
      Failure?
    }

    function PropagateFailure<U>(): Result<U>
      requires Failure?
    {
      Failure(error)
    }

    function Extract(): T
      requires Success?
    {
      value
    }
  }

  /** The values of `rs` in order, or the first failure among them: a loop
      whose first throwing iteration ends it with that exception. */
  function Sequence<T>(rs: seq<Result<T>>): (r: Result<seq<T>>)
    ensures r.Success? ==> |r.value| == |rs|
    decreases |rs|
  {
    if |rs| == 0 then Success([])
    else
      var x :- rs[0];
      var xs :- Sequence(rs[1..]);
      Success([x] + xs)
  }

  /** Sequence succeeds exactly when every element does, and then holds
      their values in order. */
  lemma {:induction false} SequenceSuccess<T>(rs: seq<Result<T>>)
    ensures Sequence(rs).Success? <==> forall k :: 0 <= k < |rs| ==> rs[k].Success?
    ensures Sequence(rs).Success? ==>
            forall k :: 0 <= k < |rs| ==> rs[k] == Success(Sequence(rs).value[k])
    decreases |rs|
  {
    if |rs| > 0 {
      SequenceSuccess(rs[1..]);
      assert forall k :: 0 < k < |rs| ==> rs[k] == rs[1..][k - 1];
    }
  }

  /** A failing Sequence reports the exception of its first failing element. */
  lemma {:induction false} SequenceFirstFailure<T>(rs: seq<Result<T>>)
    requires Sequence(rs).Failure?
    ensures exists k :: 0 <= k < |rs| && rs[k] == Failure(Sequence(rs).error) &&
                        forall j :: 0 <= j < k ==> rs[j].Success?
    decreases |rs|
  {
    if rs[0].Success? {
      SequenceFirstFailure(rs[1..]);
      var k :| 0 <= k < |rs[1..]| && rs[1..][k] == Failure(Sequence(rs).error) &&
               forall j :: 0 <= j < k ==> rs[1..][j].Success?;
      assert rs[k + 1] == rs[1..][k];
      assert forall j :: 0 < j < k + 1 ==> rs[j] == rs[1..][j - 1];
    } else {
      assert rs[0] == Failure(Sequence(rs).error);
    }
  }
}
